=== FILE: README.md ===
# pigeoo core in Dafny

pigeoo reads the source of Odoo addons and documents their models. This project models its algorithmic core as pure functions over immutable data.

**Dependency trees.** `module_dependencies_tree` builds the nested dependency map of a module. Manifests are given as a map from module name to its optional `depends` list, and a rank on that map stands for acyclicity.

**Views of a tree.** These are modelled both as written in `pigeoo/parser.py` and in the older `odoodoc.py`:
- `dict_depth` in two versions: the level sweep with de-duplication and the recursive maximum;
- `dict_flatten` in two versions: with and without the visited-set guard;
- `in_deep`;
- `invert_dependencies`, which buckets every reachable module by its own depth.

**The fast query.** `module_m_depends_on_n` in `src/query.py` inspects a single level of a leveled list. The model proves it equal to "n is reachable from m" whenever the lists were built by `invert_dependencies`.

**Class lineage.** `class_tree` repeatedly peels off the modules that depend on none of the remaining ones. It is modelled as a generic peeling loop. The model proves:
- the loop terminates;
- the levels partition the owning modules;
- dependencies sit at earlier levels;
- it agrees with the `in_deep` version of `odoodoc.py`.

**The class-body extractor.** It works on a small abstract syntax tree. It covers:
- the value parsers and assignment predicates;
- the ordered first-match table of `parse_class_assign`;
- `parse_odoo_class` and `parse_model_file`.

**Query helpers.** `get_class_name`, `get_class`, `get_depending_modules`, `get_functions` and `get_all_entities`.

**Other pieces:**
- `memoize_first`, as an explicit cache threaded through a sequence of calls;
- `filter_modules` from `pigeoo/generator.py`;
- `deduplicate`, `normalize_paths` and `default_output_path` from `main.py`;
- `git_to_https`.

**Files and their modules:**

| file | module | contents |
|---|---|---|
| `wrappers.dfy` | `Wrappers` | `Option`, `Result`, the error variants, and `MapResult` (a list comprehension whose first exception propagates) |
| `lists.dfy` | `Lists` | `deduplicate`, filtering, dict comprehensions |
| `text.dfy` | `Text` | the Python string operations used, such as `rstrip`, `os.path.split`, `split` and `replace` |
| `trees.dfy` | `DepTrees` | dependency trees, depth, flatten, `in_deep` |
| `registry.dfy` | `Registry` | manifests and `module_dependencies_tree` |
| `memo.dfy` | `Memo` | `memoize_first` |
| `levels.dfy` | `Levels` | `invert_dependencies` |
| `ast.dfy` | `Ast` | the syntax nodes read by the extractor |
| `records.dfy` | `Records` | class records and their values |
| `classifier.dfy` | `Classifier` | the extractor |
| `query.dfy` | `Query` | `src/query.py` |
| `lineage.dfy` | `Lineage` | `class_tree` |
| `generator.dfy` | `Generator` | `filter_modules` |
| `paths.dfy` | `Paths` | the `main.py` helpers |
| `links.dfy` | `Links` | `git_to_https` |

## Model

| member | source | states |
|---|---|---|
| DepTrees.Height | odoodoc.py:311-314 | A tree has height zero exactly when it is empty, the case where the recursive depth returns its accumulator |
| DepTrees.RecursiveDepth | odoodoc.py:311-314 | The recursive `dict_depth` started at `depth` returns `depth` plus the height of the tree, i.e. the longest chain below it |
| DepTrees.NextLevelHeight | pigeoo/parser.py:310-318 | One pass of the sweep, collecting the distinct children of a non-empty level, lowers the level's height by exactly one |
| DepTrees.DeduplicationKeepsLevelHeight | pigeoo/parser.py:316-317 | Dropping repeated subtrees from a level never changes its height, so the de-duplication of the sweep cannot change the depth |
| DepTrees.Sweep | pigeoo/parser.py:309-318 | The sweep loop started on a level adds exactly that level's height to the counter |
| DepTrees.SweepDepth | pigeoo/parser.py:304-319 | The sweeping `dict_depth` equals the height of the tree (so it is 0 on `{}`) and equals the recursive `dict_depth` of odoodoc.py started at 0 |
| DepTrees.DictFlattenAll | odoodoc.py:317-325 | The unguarded `dict_flatten` returns the keys passed in plus every name that occurs at any depth of the tree |
| DepTrees.DictFlatten | pigeoo/parser.py:322-331 | The guarded `dict_flatten` keeps every key passed in and adds only names that occur in the tree |
| DepTrees.DictFlattenComplete | pigeoo/parser.py:327-330 | When every name maps to the same subtree wherever it occurs, skipping an already-seen key loses nothing: the result is the keys passed in plus every reachable name |
| DepTrees.FlattenIsReachableKeys | pigeoo/parser.py:322-331 | On such a tree, the guarded flatten started from the empty set is the set of all reachable names, and is the unguarded flatten of odoodoc.py |
| DepTrees.InDeep | odoodoc.py:359-366 | `in_deep(name, t)` holds exactly when `name` is among the names `dict_flatten(t)` collects |
| Registry.Depends | pigeoo/parser.py:298 | A manifest without `depends` depends on `base` alone; otherwise its list is used as written |
| Registry.FirstMissing | pigeoo/parser.py:299 | Finds a dependency with no manifest, and finds none exactly when every dependency resolves |
| Registry.TreeOf | pigeoo/parser.py:286-301 | `base` has the empty tree before any lookup; any other module without a manifest is a not-found error; every error names a module without a manifest |
| Registry.SubTrees | pigeoo/parser.py:299-300 | One entry per listed dependency, in order, each holding that dependency's own tree |
| Registry.TreeEntries | pigeoo/parser.py:297-301 | A built tree's keys are the manifest's `depends`, with repeats dropped in first-occurrence order as a dict comprehension does, and each value is that dependency's own tree |
| Registry.TreeReachable | pigeoo/parser.py:286-301 | Every entry reachable in a module's tree holds that module's own tree, so a name maps to the same subtree wherever it occurs |
| Registry.ResolvableBuilds | pigeoo/parser.py:286-301 | When every dependency named by any manifest has one, the tree of every module builds |
| Registry.ModuleDepth | pigeoo/parser.py:334-339 | A module's depth is defined exactly when its tree builds, is the height of that tree, and fails with the tree's own error otherwise |
| Registry.ReachableIsShallower | pigeoo/parser.py:334-339 | Every module reachable from a module has a strictly smaller depth |
| Registry.NotOwnDependency | pigeoo/parser.py:286-301 | On acyclic manifests no module occurs in its own flattened tree |
| Memo.Call | pigeoo/parser.py:42-45 | A call stores its first argument's result on a miss, returns what is stored, and keeps every earlier entry |
| Memo.Run | pigeoo/parser.py:40-46 | One result per call, and each call's result is what the final cache holds for its first argument |
| Memo.RunCache | pigeoo/parser.py:40-46 | After any calls the cache holds exactly the first arguments seen, each with the result of its first call |
| Memo.RunFirstWins | pigeoo/parser.py:42-45 | Every call returns the result of the first call with the same first argument |
| Memo.LaterCallsAgree | pigeoo/parser.py:42-45 | Two calls with the same first argument return the same result, whatever their other arguments |
| Memo.MemoTransparent | pigeoo/parser.py:40-46 | When the function ignores its other arguments, the memoised calls return what direct calls would |
| Levels.Bucket | pigeoo/parser.py:351-354 | Bucketing a depth map gives 1 + the largest depth levels; each module is at the index of its depth and in no other level |
| Levels.FlatDepths | pigeoo/parser.py:349-350 | The depth map is defined on exactly the flattened modules, each with its own module depth |
| Levels.ReferenceFlatDepths | odoodoc.py:339-340 | odoodoc.py's depth map has the same keys, with the recursive depth of each module |
| Levels.ReferenceDepth | odoodoc.py:328-333 | The recursive module depth of odoodoc.py equals the sweeping one |
| Levels.ModuleLevels | pigeoo/parser.py:347-355 | A module's leveled list exists exactly when its tree builds |
| Levels.MaxFlatDepth | pigeoo/parser.py:351 | For a non-empty tree, 1 + the largest depth of a flattened module is the height of the tree |
| Levels.InvertDependencies | pigeoo/parser.py:347-355 | `invert_dependencies` is `[]` exactly for the empty tree and has `dict_depth(tree)` levels; every flattened module is at the index of its depth, and a level holds only flattened modules of that depth |
| Levels.InvertDependenciesReference | odoodoc.py:336-344 | odoodoc.py's `invert_dependencies` is `[]` exactly for the empty tree; every flattened module is at the index of its recursive depth, and a level holds only flattened modules of that depth |
| Levels.InvertOrdersDependencies | pigeoo/parser.py:347-355 | Every direct dependency of a module of level i lies in an earlier level |
| Levels.InvertMatchesReference | odoodoc.py:336-344 | The version of pigeoo/parser.py gives the same leveled list as odoodoc.py's unguarded flatten and recursive depth |
| Query.ClassName | src/query.py:1-6 | A truthy `_name` wins; else the first parent of a non-empty `_inherit` list; else `_inherit` as it is; nothing exactly when `_name` is falsy or absent and `_inherit` is absent |
| Query.GetClass | src/query.py:9-10 | Keeps exactly the records whose class name is the given one |
| Query.QueryClass | odoodoc.py:369-372 | Keeps exactly the records `query_class` selects: a selected record is an input record, and every input record it selects is kept |
| Query.GetClassIdempotent | src/query.py:9-10 | Selecting twice selects the same records as selecting once |
| Query.GetClassAppend | src/query.py:9-10 | Selection distributes over concatenation, so it keeps the records' order |
| Query.QueryClassSelectsFewer | odoodoc.py:369-372 | For a non-empty name, every record odoodoc.py's `query_class` selects is also selected by `get_class` |
| Query.GetClassMatchesQueryClass | odoodoc.py:369-372 | When no `_inherit` is a list and every `_name` present is truthy, `get_class` and `query_class` select the same records |
| Query.DependsOn | src/query.py:17-25 | False for m = n with no lookup; a lookup error for the missing one of n and m; false when m's list is no longer than n's; true only when n is in level `len(all[n])` of m's list |
| Query.DependsOnAntisymmetric | src/query.py:21-24 | If m depends on n, then n does not depend on m |
| Query.LevelsLength | src/query.py:21 | A module's leveled list is as long as its depth |
| Query.InSomeLevelReachable | pigeoo/parser.py:347-355 | A module is in some level of a built leveled list exactly when it is reachable, and then it is at the level of its depth |
| Query.DependsOnMatchesReference | src/query.py:17-25 | On lists built by `invert_dependencies`, the single-level query equals odoodoc.py's `in_deep(n, tree(m))` and "n is in some level of m's list" |
| Query.GetDependingModules | src/query.py:13-14 | The result is exactly the modules m for which the query holds, never the module itself; a lookup error exactly when the module is absent from a non-empty map |
| Query.GetDependingModulesReachable | src/query.py:13-14 | On built lists, the depending modules are exactly those whose tree reaches the module |
| Query.AddRecord | src/query.py:42-48 | One record fails with `TypeError` exactly when its class name is truthy but a list or dictionary and it has an entity; otherwise it adds its entities under its module name, creating the inner map when needed and leaving every other key as it was |
| Query.AllEntities | src/query.py:40-49 | Every key of a built index has at least one module under it |
| Query.AllEntitiesFails | src/query.py:40-49 | Building the index fails exactly when some record's key would be unhashable, and then with the error of the first such record |
| Query.AllEntitiesKeys | src/query.py:40-49 | When the index is built, its keys are exactly the (entity, class name) pairs declared by some record whose class name is truthy |
| Query.AllEntitiesModules | src/query.py:40-49 | The modules under a key are exactly those of the records declaring it |
| Query.AllEntitiesLastWins | src/query.py:47-48 | The value stored for a module is the one from its last record declaring the entity |
| Query.GetFunctions | src/query.py:27-29 | Re-keys by class name exactly the index entries whose entity is the given one, keeping their values |
| Query.GetFunctionsOfIndex | src/query.py:27-49 | A class name is among an entity's classes exactly when some record of that class declares the entity |
| Query.AllFunctions | src/query.py:32-33 | The method index fails exactly when a record with methods has an unhashable class name; otherwise it has a key for exactly the methods records declare |
| Query.AllFields | src/query.py:36-37 | The field index fails exactly when a record with fields has an unhashable class name; otherwise it has a key for exactly the fields records declare |
| Lineage.PeelBy | pigeoo/parser.py:374-379 | The peeling loop yields no level exactly when there are no modules, and its first level is the step applied to all modules |
| Lineage.PeelByPartitions | pigeoo/parser.py:374-379 | The peeled levels are non-empty and disjoint, and together they are the modules |
| Lineage.PeelByOrders | pigeoo/parser.py:376-378 | When each peel keeps only modules with no related remaining module, a module related to another is peeled strictly later |
| Lineage.Minimal | pigeoo/parser.py:376-377 | A peel holds exactly the remaining modules that depend on none of the remaining modules |
| Lineage.MinimalNonEmpty | pigeoo/parser.py:376-377 | A peel of remaining modules that all have leveled lists is never empty, since a module with the shortest list depends on none |
| Lineage.MinimalStepShrinks | pigeoo/parser.py:374-379 | So the loop terminates, and each peel keeps only modules that depend on no remaining module |
| Lineage.Peel | pigeoo/parser.py:374-379 | The loop fails exactly when two or more modules remain and one lacks a leveled list, naming a missing one; otherwise there are no levels exactly when there are no modules, and the first level is the first peel |
| Lineage.PeelPartitions | pigeoo/parser.py:374-379 | The levels of `class_tree` partition the owning modules |
| Lineage.PeelRespectsDependencies | pigeoo/parser.py:374-379 | If m depends on n according to the query, n's level is strictly earlier than m's |
| Lineage.ModulesOf | pigeoo/parser.py:372 | The owning modules are exactly the modules of the selected records |
| Lineage.ClassTreeOf | pigeoo/parser.py:370-384 | One class group per module level; the call fails exactly when the peel of the owning modules fails |
| Lineage.ClassTreeGroupsRecords | pigeoo/parser.py:382 | The module levels partition the owning modules, and group i holds exactly the selected records whose module is in level i |
| Lineage.ClassTreeRecordPlaced | pigeoo/parser.py:382 | Every selected record lies in some group |
| Lineage.ClassTreeRecordOnce | pigeoo/parser.py:382 | No record lies in two groups |
| Lineage.DeepMinimal | odoodoc.py:388-389 | odoodoc.py's peel holds exactly the remaining modules whose tree contains none of the remaining modules |
| Lineage.DeepMinimalNonEmpty | odoodoc.py:387-391 | On acyclic manifests that peel is never empty |
| Lineage.DeepStepShrinks | odoodoc.py:387-391 | So odoodoc.py's loop terminates too |
| Lineage.ReferenceClassTree | odoodoc.py:379-396 | odoodoc.py's `class_tree` fails exactly when an owning module has no tree, naming modules without manifests |
| Lineage.MinimalMatchesReference | pigeoo/parser.py:376-377 | On lists built by `invert_dependencies`, the query-based peel equals odoodoc.py's `in_deep` peel |
| Lineage.PeelMatchesReference | pigeoo/parser.py:374-379 | The two loops then yield the same levels |
| Lineage.ClassTreeMatchesReference | pigeoo/parser.py:370-384 | When no `_inherit` is a list, every `_name` present is truthy, and every owning module has a leveled list built by `invert_dependencies`, pigeoo/parser.py's `class_tree` equals odoodoc.py's |
| Classifier.StringOf | pigeoo/parser.py:100 | Reading `.s` succeeds exactly on a string literal and yields its text |
| Classifier.ParseStr | pigeoo/parser.py:61-67 | Accepts a concatenation whose left operand is a literal, a bare name, or a literal, and yields that left literal, the name, or the literal |
| Classifier.ParseBool | pigeoo/parser.py:70-71 | Accepts exactly the nodes with a `value`: `True`/`False` give the boolean, `None` a falsy value, an attribute access its object |
| Classifier.ParseField | pigeoo/parser.py:74-79 | Accepts exactly a call of an attribute and yields the attribute's name as the type and the call's own line |
| Classifier.SqlCell | pigeoo/parser.py:85-86 | A node with arguments yields the text of its first argument, any other node its own text; anything else is an error |
| Classifier.SqlRow | pigeoo/parser.py:84-87 | A row is read exactly when it is a list or tuple all of whose cells are read, one cell per element |
| Classifier.ParseSql | pigeoo/parser.py:82-88 | A list or tuple of readable rows gives one row per element, in order; any unreadable row fails the whole value |
| Classifier.InhName | pigeoo/parser.py:92-93 | A literal gives its text, a bare name its identifier, anything else is an error |
| Classifier.ParseInh | pigeoo/parser.py:91-96 | A list literal gives one parent per element, in order, and fails if any element is unreadable; any other node gives a single parent |
| Classifier.InhsPairs | pigeoo/parser.py:100 | `zip` pairs the i-th key and value text up to the shorter of the two, and fails exactly when one of the zipped nodes is not a literal |
| Classifier.InhsPairsKeys | pigeoo/parser.py:100 | The comprehension's keys are exactly the zipped key literals |
| Classifier.InhsPairsLastWins | pigeoo/parser.py:100 | A key no later zipped key repeats maps to its own value |
| Classifier.ParseInhs | pigeoo/parser.py:99-100 | A dictionary literal of literal keys and values gives a map whose keys are its zipped keys and where the last of equal keys wins; anything else fails |
| Classifier.ConEntry | pigeoo/parser.py:105-111 | An entry is read exactly when it has at least three elements (later ones are ignored): an attribute or name, a literal, and a list of literals; it yields the method name, the message and the field names in order |
| Classifier.ParseCon | pigeoo/parser.py:103-113 | A list or tuple of readable entries gives one constraint per element, in order; any unreadable entry fails the whole value |
| Classifier.ParseValue | pigeoo/parser.py:174-185 | Each row's parser yields a value of its own kind (a field, SQL rows, constraints, one or more parents, a parent map, a string, a boolean-like value) and fails only with a shape error at the assignment's line |
| Classifier.FirstMatch | pigeoo/parser.py:183 | Finds the first row whose predicate holds, and none exactly when no row's does |
| Classifier.ParseClassAssign | pigeoo/parser.py:171-187 | Succeeds exactly when the target is a name, some row matches and the first matching row's parser accepts the value; a result carries the target's name and that parsed value. A target that is not a name, no matching row, or the parser's own error are the failures |
| Classifier.ReferenceParseClassAssign | odoodoc.py:192-208 | odoodoc.py's version fails its assertion on more than one target, and otherwise reads the single target's name |
| Classifier.FieldRowWins | pigeoo/parser.py:174-185 | A `fields.X(...)` call is parsed as a field of type X whatever the target is called |
| Classifier.SpecialRows | pigeoo/parser.py:174-183 | Any other value goes to the row of its attribute group, in the order sql, constraint, inherit, inherits, str, bool; it finds no row exactly when the name is no special attribute |
| Classifier.InhParsersAgree | pigeoo/parser.py:91-96 | The two `parse_value_inh` agree on a literal, a bare name and a list of literals; only the newer one reads a list holding a name, and only the older one a tuple |
| Classifier.ParseValueMatchesReference | odoodoc.py:83-117 | The two parser tables agree wherever both succeed, and the newer one reads everything the older one reads except a tuple |
| Classifier.ParseClassAssignMatchesReference | odoodoc.py:192-208 | With one target, the two versions of `parse_class_assign` agree wherever both succeed, and the newer one reads all the older one reads except a tuple |
| Classifier.AllAssigns | pigeoo/parser.py:53-54 | The assignments listed are exactly those among the class's direct children |
| Classifier.FunctionPairs | pigeoo/parser.py:199-200 | Every pair is the name, line and parameters of a method among the direct children |
| Classifier.FunctionPairsComplete | pigeoo/parser.py:199-200 | Every method among the direct children has its pair |
| Classifier.ParseClassBody | pigeoo/parser.py:190-204 | Extracting a class body succeeds exactly when every special and every field assignment parses |
| Classifier.ParseClassBodyKeys | pigeoo/parser.py:201-203 | The special, field and method maps have one key per distinct target or method name |
| Classifier.SelectedAssignsHaveRows | pigeoo/parser.py:193-198 | Every assignment selected as special or field has a table row, so only a value of the wrong shape can fail |
| Classifier.LaterFieldWins | pigeoo/parser.py:202 | A later field assignment overwrites an earlier one of the same name |
| Classifier.LaterSpecialWins | pigeoo/parser.py:201 | A later special assignment whose value parses overwrites an earlier one of the same name with that parsed value |
| Classifier.LaterFunctionWins | pigeoo/parser.py:203 | A later method definition overwrites an earlier one of the same name with its line and parameters |
| Classifier.TopLevelClasses | pigeoo/parser.py:49-50 | The classes read are exactly the class definitions among the module's direct children |
| Classifier.ParseOdooClass | pigeoo/parser.py:190-204 | A class record exists exactly when the body extracts, fails with the body's error otherwise, and carries the module, file and line of its class and the special, field and method maps of its body |
| Classifier.ParseModelFile | pigeoo/parser.py:207-221 | Succeeds exactly when every top-level class body extracts, failing otherwise with the error of the first class that does not; one record per top-level class, in order, each with the module, file and line of its class and the three maps of its body |
| Classifier.ParseModelFileKeys | pigeoo/parser.py:195-203 | Record i indexes exactly the special attributes assigned, the fields declared and the methods defined directly in the i-th top-level class |
| Wrappers.MapResult | pigeoo/parser.py:195-198 | A comprehension succeeds exactly when every element does, giving each element's value; otherwise it fails with the error of the first element that fails |
| Generator.AnyDepends | pigeoo/generator.py:171 | The scan over the filter is true exactly when some filter name depends on the module; when it fails, it fails with the first failing lookup |
| Generator.AnyDependsFails | pigeoo/generator.py:171 | For a module outside the filter, the scan fails exactly when no name before the first absent one claims the module; the error then names that absent filter name |
| Generator.FilterModules | pigeoo/generator.py:164-173 | With no filter the map is returned as it is; otherwise it keeps a subset of the keys with their values, every named module present, and each other module exactly when a filter module depends on it; an absent name is a lookup error |
| Generator.FilterModulesFails | pigeoo/generator.py:169-172 | The filter fails exactly when some module outside it is claimed by no name before the first absent one |
| Generator.FilterModulesReachable | pigeoo/generator.py:169-172 | On built lists with every name present, it keeps exactly the named modules and those reachable from one of them |
| Lists.Deduplicate | main.py:38-41 | The output has no repeats, and holds exactly the input's elements |
| Lists.DeduplicateKeepsFirstOccurrenceOrder | main.py:38-41 | The output lists elements in the order of their first occurrence in the input |
| Lists.DeduplicateOfDistinct | main.py:38-41 | A list without repeats is returned as it is |
| Lists.DeduplicateIdempotent | main.py:38-41 | Deduplicating twice is deduplicating once |
| Lists.ToMap | pigeoo/parser.py:201-203 | A dict built from pairs has exactly the pairs' names as keys |
| Lists.ToMapLastWins | pigeoo/parser.py:201-203 | The value under a name is that of its last pair |
| Text.StripTrailing | main.py:47 | `rstrip` removes exactly the trailing run of the character |
| Text.JoinPath | main.py:48-49 | `os.path.join` keeps both parts and puts one separator between them unless the first part is empty or ends in one |
| Text.DropLast | pigeoo/parser.py:429 | `[:-n]` for a positive n drops the last n characters, leaving nothing from a string no longer than n |
| Paths.IsOdooRootShape | main.py:47 | The root test holds exactly when `odoo` is a whole component followed only by separators |
| Paths.NormalizePath | main.py:46-51 | A source root becomes two paths extending it, and neither is a root; any other path is kept alone |
| Paths.NormalizePathDirs | main.py:48-49 | The two paths end in `addons/` and `odoo/addons/`, in that order |
| Paths.NormalizePathItems | main.py:46-51 | A path that is no root is kept, and no path produced is a root |
| Paths.NormalizePaths | main.py:44-52 | Every input path that is no root is in the output, and no output path is a root |
| Paths.NormalizePathsAppend | main.py:44-52 | Each path is expanded in place, so the order is kept |
| Paths.NormalizePathsKeepsNonRoots | main.py:44-52 | Paths with no root among them pass through unchanged |
| Paths.NormalizePathsIdempotent | main.py:44-52 | Normalizing twice is normalizing once |
| Paths.ShortHash | main.py:76 | `h[:8]` is the prefix of length eight, or the whole hash when it is shorter |
| Paths.ShortHashes | main.py:76 | The short hashes have no repeats and are exactly the short forms of the hashes |
| Paths.DefaultOutputPath | main.py:75-77 | The default output path starts with `odoo_` |
| Paths.DefaultOutputPathSplits | main.py:75-77 | When no version or hash holds `_`, the path splits at `_` back into `odoo`, the versions and the distinct short hashes; an empty list of either comes back as one empty piece |
| Links.GitToHttps | pigeoo/parser.py:427-431 | A remote that does not start with `git@`, a web address `https://H/P` among them, is returned unchanged |
| Links.GitToHttpsOfRemote | pigeoo/parser.py:427-431 | `git@H:P.git`, with H and P free of `:` and `git@`, becomes `https://H/P` |

## Notes on the code

- The comment at src/query.py:18 says that m depends on n exactly when n appears at level k + 1 of m's leveled list, k being the depth of n. The code compares only that one level, `all_modules[m][len(all_modules[n])]`. `Query.DependsOnMatchesReference` proves the one-level test agrees with "n is in the flattened tree of m" on lists built by `invert_dependencies`. On arbitrary maps only the one-level test is modelled.
- `get_class_name` (src/query.py:1-6) returns the first element of a list-valued `_inherit`, and `parse_value_inh` (pigeoo/parser.py:91-96) builds such lists, so a class may name several parents and only the first gives its logical name.
- The branch that logs "Module without a manifest" (pigeoo/parser.py:294-296) cannot be reached. `module_path_from_name` raises at pigeoo/parser.py:282 when no path has a manifest, so the second existence check never fails. A missing module is a `ModuleNotFound` error, which propagates to every module that depends on it.
- The single-target assertion of `parse_class_assign` is commented out (pigeoo/parser.py:172). Only the first target's name is read, and only assignments selected by `is_assign_special` or `is_assign_field` reach the parser table. An assignment reaching it with no matching row would raise `StopIteration`; this is modelled as `NoParser`.
- `get_all_entities` builds the key `(entity, class_name)` (src/query.py:46-47). When the class name is a field declaration or a list or dictionary (for example `_name = fields.Char()`), hashing the key raises `TypeError`; this is modelled as `Unhashable`.

## Left out

- Filesystem discovery and reading are not modelled. This covers:
  - `modules_from_paths`, `models_files_from_modules`, `module_path_from_name` and `module_path_has_manifest`;
  - `os.walk`, `listdir`, `realpath` and `expanduser`.

  Manifests are a given map from module name to an optional `depends` list. `normalize_paths` stops before `expanduser`. The `full path` key of a class record is not kept.
- The `eval` of manifest files and `ast.parse` are foreign calls. The extractor reads a small abstract syntax tree instead, with the node attributes of Python before 3.8 (`Str.s`, `NameConstant.value` for `True`, `False` and `None`). The abstract syntax tree is not validated against Python's parser.
- `module_name_from_path` and its regular expressions are not modelled. A module is identified by its name throughout.
- Git and web links are not modelled: the `git_repository_folder_*` functions, `web_link`, `html_github_link`, `git_get_version` and `git_check_clean_paths`. HTML rendering, file writing, logging, the command line and the `pudb` call of odoodoc.py:301 are left out as well.
- `dep_tree_enrich` is not modelled. Levels hold module names, and the comparison `md["name"]` of src/query.py:24 is a name comparison.
- Order within a level is not modelled. Python appends modules in dict or set iteration order, and the model keeps each level as a set. For the same reason, when `class_tree` hits a missing key, the error records only that the key is one of the missing modules (`KeyErrorAmong`).
- The syntax tree has no `Set`, `Compare` or `Bytes` nodes. They are `OtherExpr`, so `ParseSql` and `ParseCon` reject a set literal whose elements Python would read, and `ParseStr` rejects a comparison (read through its `left`) and a bytes literal (read through its `s`).
- Classifier.ParseBool: of the nodes that have a `value` attribute, only constants and attribute accesses are modelled; a subscript, starred expression or keyword assigned to `_auto` or `_parent_store` is an `OtherExpr` and yields `ShapeError`.
- Query.GetDependingModules: returns a set, not the list in dict order of src/query.py:14.
- Generator.FilterModules:
  - When some lookup fails, the error is the `KeyError` of the first absent filter name. Which module Python examines first depends on dict order. `Generator.AnyDependsFails` proves that the failing lookup is always that of the first absent name, whichever module is examined, so the two agree.
  - A falsy non-list `options["modules"]` is represented by the empty sequence.
- Paths.DefaultOutputPath: `options["hashes"]` is modelled as its sequence of values in insertion order.
- Text.JoinPath: only a relative second argument is modelled. `normalize_paths` joins only the constants `addons/` and `odoo/addons/`.
- The `decorator_list` of a method is not modelled; it is commented out at pigeoo/parser.py:165. Keyword arguments are not modelled either: only positional parameter names are kept.
- Cyclic manifests are not modelled. `module_dependencies_tree` has no cycle guard, and `memoize_first` stores a result only after the call returns, so a cycle recurses until Python raises `RecursionError`. A rank on the manifest map that every dependency decreases is a precondition (`Acyclic`), which excludes that error path.
- The process-wide memo dictionaries are not modelled as such. `memoize_first` is an explicit cache threaded through a sequence of calls (`Memo.Run`). The tree and depth functions are modelled without the cache, and `Memo.MemoTransparent` proves the cache changes no result when the function ignores its other arguments.
- The differing `depends` default of odoodoc.py:305 (`[]` instead of `['base']`) is not modelled. The odoodoc.py reference versions are compared with the new ones over the same trees.
- A tree value that is not a dictionary, for which the recursive `dict_depth` and `dict_flatten` of odoodoc.py return early, cannot occur: every value `module_dependencies_tree` builds is itself a tree, and the model's trees hold only trees.

=== FILE: ast.dfy ===
/** A small abstract syntax for the part of a Python source file the class
    extractor reads. Each node kind carries exactly the attributes the
    extractor probes for by name: `s` on string literals, `value` on the constants
    `True`, `False` and `None` and on attribute accesses, `id` on names, `left` on binary
    operations, `args` on calls, `elts` on lists and tuples, `keys` and
    `values` on dictionaries. Line numbers are kept where the extractor
    records them. */
module Ast {
  import opened Wrappers

  datatype Expr =
    | Str(s: string)
    /** `True`, `False` (a boolean) or `None` (no boolean). */
    | NameConstant(value: Option<bool>)
    | Name(id: string)
    | Attribute(obj: Expr, attr: string)
    | Call(func: Expr, args: seq<Expr>, lineno: nat)
    | BinOp(left: Expr, right: Expr)
    | List(elts: seq<Expr>)
    | Tuple(elts: seq<Expr>)
    | Dict(keys: seq<Expr>, values: seq<Expr>)
    /** Any other expression: numbers, subscripts, comprehensions, ... */
    | OtherExpr

  /** An assignment statement. Python's grammar gives every assignment at
      least one target: `a = b = v` has target `a` and further target `b`. */
  datatype Assignment = Assignment(target: Expr, moreTargets: seq<Expr>, value: Expr, lineno: nat)

  datatype Stmt =
    | Assign(assign: Assignment)
    | FunctionDef(name: string, params: seq<string>, lineno: nat)
    | ClassDef(name: string, body: seq<Stmt>, lineno: nat)
    /** Any other statement: imports, docstrings, nested control flow, ... */
    | OtherStmt

  datatype Module = Module(body: seq<Stmt>)

  /** The node has a `value` attribute. */
  predicate HasValue(e: Expr) {
    e.NameConstant? || e.Attribute?
  }

  /** The node has an `elts` attribute. */
  predicate HasElts(e: Expr) {
    e.List? || e.Tuple?
  }
}

=== FILE: classifier.dfy ===
/** The class-body extractor of pigeoo/parser.py, with the older variants of
    odoodoc.py beside it: value parsers that read literal shapes, the
    assignment predicates, the ordered first-match table that pairs them,
    and the extraction of one record per top-level class of a file. Only the
    direct children of a class body are read. */
module Classifier {
  import opened Wrappers
  import opened Lists
  import opened Ast
  import opened Records

  const StrAttributes: set<string> := {"_name", "_rec_name", "_order", "_description", "_table"}
  const InhAttributes: set<string> := {"_inherit"}
  const InhsAttributes: set<string> := {"_inherits"}
  const ConAttributes: set<string> := {"_constraints"}
  const SqlAttributes: set<string> := {"_sql_constraints"}
  const BoolAttributes: set<string> := {"_auto", "_parent_store"}
  const SpecialAttributes: set<string> :=
    StrAttributes + ConAttributes + SqlAttributes + InhAttributes + InhsAttributes + BoolAttributes

  // ---------------------------------------------------------------------
  // Value parsers. A node without the attribute a parser reads is a
  // ShapeError carrying the assignment's line.
  // ---------------------------------------------------------------------

  /** `e.s`. */
  function StringOf(e: Expr, lineno: nat): (r: Result<string>)
    ensures r.Ok? <==> e.Str?
    ensures r.Ok? ==> r.value == e.s
    ensures r.Err? ==> r.error == ShapeError(lineno)
  {
    if e.Str? then Ok(e.s) else Err(ShapeError(lineno))
  }

  /** `parse_value_str`: the left operand of a concatenation, the name of a
      bare identifier, or the literal. */
  function ParseStr(v: Expr, lineno: nat): (r: Result<Value>)
    ensures r.Ok? <==> (v.BinOp? && v.left.Str?) || v.Name? || v.Str?
    ensures r.Ok? ==> r.value.StrValue?
    ensures r.Ok? && v.BinOp? ==> r.value.s == v.left.s
    ensures r.Ok? && v.Name? ==> r.value.s == v.id
    ensures r.Ok? && v.Str? ==> r.value.s == v.s
    ensures r.Err? ==> r.error == ShapeError(lineno)
  {
    if v.BinOp? then
      var s :- StringOf(v.left, lineno);
      Ok(StrValue(s))
    else if !v.Str? then
      if v.Name? then Ok(StrValue(v.id)) else Err(ShapeError(lineno))
    else Ok(StrValue(v.s))
  }

  /** `parse_value_str` of odoodoc.py, which has no identifier branch. */
  function ReferenceParseStr(v: Expr, lineno: nat): Result<Value> {
    if v.BinOp? then
      var s :- StringOf(v.left, lineno);
      Ok(StrValue(s))
    else
      var s :- StringOf(v, lineno);
      Ok(StrValue(s))
  }

  /** `parse_value_bool`: `v.value`, the constant of `True`, `False` or
      `None`, or the object of an attribute access. */
  function ParseBool(v: Expr, lineno: nat): (r: Result<Value>)
    ensures r.Ok? <==> HasValue(v)
    ensures r.Ok? && v.NameConstant? && v.value.Some? ==> r.value == BoolValue(v.value.value)
    ensures r.Ok? && v.NameConstant? && v.value.None? ==> r.value == NoneValue && !Truthy(r.value)
    ensures r.Ok? && v.Attribute? ==> r.value == NodeValue(v.obj)
    ensures r.Err? ==> r.error == ShapeError(lineno)
  {
    match v
    case NameConstant(Some(b)) => Ok(BoolValue(b))
    case NameConstant(None) => Ok(NoneValue)
    case Attribute(obj, _) => Ok(NodeValue(obj))
    case _ => Err(ShapeError(lineno))
  }

  /** `parse_value_field`: the field type named by the called attribute, and
      the call's line. */
  function ParseField(v: Expr, lineno: nat): (r: Result<Value>)
    ensures r.Ok? <==> v.Call? && v.func.Attribute?
    ensures r.Ok? ==> r.value.FieldValue? && r.value.fieldType == v.func.attr && r.value.lineno == v.lineno
    ensures r.Err? ==> r.error == ShapeError(lineno)
  {
    if v.Call? && v.func.Attribute? then Ok(FieldValue(v.func.attr, v.lineno))
    else Err(ShapeError(lineno))
  }

  /** One cell of an `_sql_constraints` row: a literal, or the first
      argument of a call such as `_('message')`. */
  function SqlCell(t: Expr, lineno: nat): (r: Result<string>)
    ensures r.Ok? <==> if t.Call? then |t.args| > 0 && t.args[0].Str? else t.Str?
    ensures r.Ok? ==> r.value == if t.Call? then t.args[0].s else t.s
    ensures r.Err? ==> r.error == ShapeError(lineno)
  {
    if !t.Call? then StringOf(t, lineno)
    else if |t.args| == 0 then Err(ShapeError(lineno))
    else StringOf(t.args[0], lineno)
  }

  /** One `_sql_constraints` row: a cell per element of a list or tuple. */
  function SqlRow(triplet: Expr, lineno: nat): (r: Result<seq<string>>)
    ensures r.Ok? <==> HasElts(triplet) && forall j :: 0 <= j < |triplet.elts| ==> SqlCell(triplet.elts[j], lineno).Ok?
    ensures r.Ok? ==> |r.value| == |triplet.elts|
    ensures r.Ok? ==> forall j :: 0 <= j < |triplet.elts| ==> SqlCell(triplet.elts[j], lineno) == Ok(r.value[j])
  {
    if HasElts(triplet) then MapResult(t => SqlCell(t, lineno), triplet.elts)
    else Err(ShapeError(lineno))
  }

  /** `parse_value_sql`: one row of cells per element. */
  function ParseSql(v: Expr, lineno: nat): (r: Result<Value>)
    ensures r.Ok? <==> HasElts(v) && forall i :: 0 <= i < |v.elts| ==> SqlRow(v.elts[i], lineno).Ok?
    ensures r.Ok? ==> r.value.SqlValue? && |r.value.rows| == |v.elts|
    ensures r.Ok? ==> forall i :: 0 <= i < |v.elts| ==> SqlRow(v.elts[i], lineno) == Ok(r.value.rows[i])
    ensures r.Err? ==> r.error == ShapeError(lineno)
  {
    if HasElts(v) then
      var rows :- MapResult(t => SqlRow(t, lineno), v.elts);
      Ok(SqlValue(rows))
    else Err(ShapeError(lineno))
  }

  /** `_parse_value_inh`: a literal or a bare identifier. */
  function InhName(e: Expr, lineno: nat): (r: Result<string>)
    ensures r.Ok? <==> e.Str? || e.Name?
    ensures r.Ok? ==> r.value == if e.Str? then e.s else e.id
    ensures r.Err? ==> r.error == ShapeError(lineno)
  {
    if e.Str? then Ok(e.s) else if e.Name? then Ok(e.id) else Err(ShapeError(lineno))
  }

  /** `parse_value_inh`: a list literal gives the list of its parents, any
      other node a single parent. */
  function ParseInh(v: Expr, lineno: nat): (r: Result<Value>)
    ensures v.List? ==> (r.Ok? <==> forall i :: 0 <= i < |v.elts| ==> InhName(v.elts[i], lineno).Ok?)
    ensures r.Ok? && v.List? ==> (r.value.StrListValue? && |r.value.items| == |v.elts| &&
      forall i :: 0 <= i < |v.elts| ==> InhName(v.elts[i], lineno) == Ok(r.value.items[i]))
    ensures !v.List? ==> (r.Ok? <==> v.Str? || v.Name?)
    ensures r.Ok? && !v.List? ==> r.value == StrValue(InhName(v, lineno).value)
    ensures r.Err? ==> r.error == ShapeError(lineno)
  {
    if v.List? then
      var names :- MapResult(e => InhName(e, lineno), v.elts);
      Ok(StrListValue(names))
    else
      var name :- InhName(v, lineno);
      Ok(StrValue(name))
  }

  /** `parse_value_inh` of odoodoc.py: a literal, a bare identifier, or
      else any node with elements, all of them literals. */
  function ReferenceParseInh(v: Expr, lineno: nat): Result<Value> {
    if v.Str? then Ok(StrValue(v.s))
    else if v.Name? then Ok(StrValue(v.id))
    else if HasElts(v) then
      var names :- MapResult(e => StringOf(e, lineno), v.elts);
      Ok(StrListValue(names))
    else Err(ShapeError(lineno))
  }

  /** The pairs of `zip(v.keys, v.values)`, each side a literal. */
  function InhsPairs(keys: seq<Expr>, values: seq<Expr>, lineno: nat): (r: Result<seq<(string, string)>>)
    ensures r.Err? <==> exists i :: 0 <= i < |keys| && i < |values| && (!keys[i].Str? || !values[i].Str?)
    ensures r.Ok? ==> |r.value| == if |keys| < |values| then |keys| else |values|
    ensures r.Ok? ==> forall i :: 0 <= i < |r.value| ==>
      (keys[i].Str? && values[i].Str? && r.value[i] == (keys[i].s, values[i].s))
    ensures r.Err? ==> r.error == ShapeError(lineno)
  {
    if |keys| == 0 || |values| == 0 then Ok([])
    else
      var k :- StringOf(keys[0], lineno);
      var w :- StringOf(values[0], lineno);
      var rest :- InhsPairs(keys[1..], values[1..], lineno);
      Ok([(k, w)] + rest)
  }

  /** `parse_value_inhs`: a dictionary literal of literal keys and values,
      a later key overwriting an earlier one. */
  function ParseInhs(v: Expr, lineno: nat): (r: Result<Value>)
    ensures r.Ok? <==> v.Dict? && InhsPairs(v.keys, v.values, lineno).Ok?
    ensures r.Ok? ==> r.value.StrMapValue?
    ensures r.Ok? ==> forall k :: k in r.value.pairs <==>
      (exists i :: 0 <= i < |v.keys| && i < |v.values| && v.keys[i].Str? && v.keys[i].s == k)
    ensures r.Ok? ==> forall i ::
      (0 <= i < |v.keys| && i < |v.values| &&
       forall j :: i < j < |v.keys| && j < |v.values| ==> v.keys[j] != v.keys[i]) ==>
      v.keys[i].Str? && v.values[i].Str? && r.value.pairs[v.keys[i].s] == v.values[i].s
    ensures r.Err? ==> r.error == ShapeError(lineno)
  {
    if !v.Dict? then Err(ShapeError(lineno))
    else
      var pairs := InhsPairs(v.keys, v.values, lineno);
      if pairs.Err? then Err(pairs.error)
      else
        InhsPairsKeys(v.keys, v.values, lineno);
        InhsPairsLastWins(v.keys, v.values, lineno);
        Ok(StrMapValue(ToMap(pairs.value)))
  }

  /** The keys of the map built from the pairs are the zipped key literals. */
  lemma InhsPairsKeys(keys: seq<Expr>, values: seq<Expr>, lineno: nat)
    requires InhsPairs(keys, values, lineno).Ok?
    ensures forall k :: k in ToMap(InhsPairs(keys, values, lineno).value) <==>
      (exists i :: 0 <= i < |keys| && i < |values| && keys[i].Str? && keys[i].s == k)
  {
    var pairs := InhsPairs(keys, values, lineno).value;
    forall k | k in ToMap(pairs)
      ensures exists i :: 0 <= i < |keys| && i < |values| && keys[i].Str? && keys[i].s == k
    {
      var i :| 0 <= i < |pairs| && pairs[i].0 == k;
      assert keys[i].Str? && keys[i].s == k;
    }
    forall k | exists i :: 0 <= i < |keys| && i < |values| && keys[i].Str? && keys[i].s == k
      ensures k in ToMap(pairs)
    {
      var i :| 0 <= i < |keys| && i < |values| && keys[i].Str? && keys[i].s == k;
      assert pairs[i].0 == k;
    }
  }

  /** A key of the dictionary literal that no later key repeats keeps its
      own value in the map built from the pairs. */
  lemma InhsPairsLastWins(keys: seq<Expr>, values: seq<Expr>, lineno: nat)
    requires InhsPairs(keys, values, lineno).Ok?
    ensures forall i ::
      (0 <= i < |keys| && i < |values| &&
       forall j :: i < j < |keys| && j < |values| ==> keys[j] != keys[i]) ==>
      var m := ToMap(InhsPairs(keys, values, lineno).value);
      keys[i].Str? && values[i].Str? && keys[i].s in m && m[keys[i].s] == values[i].s
  {
    var pairs := InhsPairs(keys, values, lineno).value;
    forall i | 0 <= i < |keys| && i < |values| &&
        forall j :: i < j < |keys| && j < |values| ==> keys[j] != keys[i]
      ensures keys[i].Str? && values[i].Str? && keys[i].s in ToMap(pairs) && ToMap(pairs)[keys[i].s] == values[i].s
    {
      assert pairs[i] == (keys[i].s, values[i].s);
      forall j | i < j < |pairs|
        ensures pairs[j].0 != pairs[i].0
      {
        assert keys[j] != keys[i];
      }
      ToMapLastWins(pairs, i);
    }
  }

  /** One `_constraints` entry: the checking method (an attribute or a bare
      name), the message literal, and the list of field literals. Elements
      after the third are ignored. */
  function ConEntry(triplet: Expr, lineno: nat): (r: Result<Constraint>)
    ensures r.Ok? <==> (HasElts(triplet) && |triplet.elts| >= 3 &&
      (triplet.elts[0].Attribute? || triplet.elts[0].Name?) && triplet.elts[1].Str? &&
      HasElts(triplet.elts[2]) && forall k :: 0 <= k < |triplet.elts[2].elts| ==> triplet.elts[2].elts[k].Str?)
    ensures r.Ok? ==> r.value.check == (if triplet.elts[0].Attribute? then triplet.elts[0].attr else triplet.elts[0].id)
    ensures r.Ok? ==> r.value.message == triplet.elts[1].s
    ensures r.Ok? ==> (|r.value.fields| == |triplet.elts[2].elts| &&
      forall k :: 0 <= k < |r.value.fields| ==> r.value.fields[k] == triplet.elts[2].elts[k].s)
    ensures r.Err? ==> r.error == ShapeError(lineno)
  {
    if !HasElts(triplet) || |triplet.elts| < 3 then Err(ShapeError(lineno))
    else
      var first := triplet.elts[0];
      var check :- if first.Attribute? then Ok(first.attr)
                   else if first.Name? then Ok(first.id)
                   else Err(ShapeError(lineno));
      var message :- StringOf(triplet.elts[1], lineno);
      var fieldList := triplet.elts[2];
      if !HasElts(fieldList) then Err(ShapeError(lineno))
      else
        var fields :- MapResult(e => StringOf(e, lineno), fieldList.elts);
        Ok(Constraint(check, message, fields))
  }

  /** `parse_value_con`. */
  function ParseCon(v: Expr, lineno: nat): (r: Result<Value>)
    ensures r.Ok? <==> HasElts(v) && forall i :: 0 <= i < |v.elts| ==> ConEntry(v.elts[i], lineno).Ok?
    ensures r.Ok? ==> r.value.ConstraintsValue? && |r.value.constraints| == |v.elts|
    ensures r.Ok? ==> forall i :: 0 <= i < |v.elts| ==> ConEntry(v.elts[i], lineno) == Ok(r.value.constraints[i])
    ensures r.Err? ==> r.error == ShapeError(lineno)
  {
    if HasElts(v) then
      var entries :- MapResult(t => ConEntry(t, lineno), v.elts);
      Ok(ConstraintsValue(entries))
    else Err(ShapeError(lineno))
  }

  // ---------------------------------------------------------------------
  // Assignment predicates and the ordered parser table.
  // ---------------------------------------------------------------------

  /** `is_assign_field`: the value is a call of an attribute of the name
      `fields`, as in `fields.Char(...)`. */
  predicate IsAssignField(a: Assignment) {
    a.value.Call? && a.value.func.Attribute? && a.value.func.obj.Name? && a.value.func.obj.id == "fields"
  }

  /** `is_assign_special`: the first target is a name among the special
      attributes. */
  predicate IsAssignSpecial(a: Assignment) {
    a.target.Name? && a.target.id in SpecialAttributes
  }

  /** The rows of the parser table, in their order. */
  datatype Kind = FieldKind | SqlKind | ConKind | InhKind | InhsKind | StrKind | BoolKind

  const Table: seq<Kind> := [FieldKind, SqlKind, ConKind, InhKind, InhsKind, StrKind, BoolKind]

  /** The predicate of a table row, for an assignment whose first target is
      the name `name`. */
  predicate Matches(k: Kind, name: string, a: Assignment) {
    match k
    case FieldKind => IsAssignField(a)
    case SqlKind => name in SqlAttributes
    case ConKind => name in ConAttributes
    case InhKind => name in InhAttributes
    case InhsKind => name in InhsAttributes
    case StrKind => name in StrAttributes
    case BoolKind => name in BoolAttributes
  }

  /** `next(k for k in parsers if k(a_a))`: the first row whose predicate
      holds, or none. */
  function FirstMatch(ks: seq<Kind>, name: string, a: Assignment): (r: Option<nat>)
    ensures r.Some? ==> r.value < |ks| && Matches(ks[r.value], name, a)
    ensures r.Some? ==> forall j :: 0 <= j < r.value ==> !Matches(ks[j], name, a)
    ensures r.None? <==> forall j :: 0 <= j < |ks| ==> !Matches(ks[j], name, a)
  {
    if |ks| == 0 then None
    else if Matches(ks[0], name, a) then Some(0)
    else
      match FirstMatch(ks[1..], name, a)
      case None => None
      case Some(i) => Some(i + 1)
  }

  /** The kind of value each row's parser yields. */
  predicate ValueOfKind(k: Kind, v: Value) {
    match k
    case FieldKind => v.FieldValue?
    case SqlKind => v.SqlValue?
    case ConKind => v.ConstraintsValue?
    case InhKind => v.StrValue? || v.StrListValue?
    case InhsKind => v.StrMapValue?
    case StrKind => v.StrValue?
    case BoolKind => v.BoolValue? || v.NoneValue? || v.NodeValue?
  }

  /** The value parser of a table row: a value of the row's kind, or a
      ShapeError at the assignment's line. */
  function ParseValue(k: Kind, v: Expr, lineno: nat): (r: Result<Value>)
    ensures r.Ok? ==> ValueOfKind(k, r.value)
    ensures r.Err? ==> r.error == ShapeError(lineno)
  {
    match k
    case FieldKind => ParseField(v, lineno)
    case SqlKind => ParseSql(v, lineno)
    case ConKind => ParseCon(v, lineno)
    case InhKind => ParseInh(v, lineno)
    case InhsKind => ParseInhs(v, lineno)
    case StrKind => ParseStr(v, lineno)
    case BoolKind => ParseBool(v, lineno)
  }

  /** The table of odoodoc.py: the same rows, with its own string and
      inheritance parsers. */
  function ReferenceParseValue(k: Kind, v: Expr, lineno: nat): Result<Value> {
    match k
    case StrKind => ReferenceParseStr(v, lineno)
    case InhKind => ReferenceParseInh(v, lineno)
    case _ => ParseValue(k, v, lineno)
  }

  /** `parse_class_assign`: the first target's name (an error for a target
      that is not a bare name), then the value parser of the first matching
      row; no matching row is an error. */
  function ParseClassAssign(a: Assignment): (r: Result<(string, Value)>)
    ensures !a.target.Name? ==> r == Err(ShapeError(a.lineno))
    ensures a.target.Name? && FirstMatch(Table, a.target.id, a).None? ==> r == Err(NoParser(a.lineno))
    ensures r.Ok? ==> a.target.Name? && r.value.0 == a.target.id
    ensures r.Ok? ==> exists i :: 0 <= i < |Table| && FirstMatch(Table, a.target.id, a) == Some(i) &&
                                 ParseValue(Table[i], a.value, a.lineno) == Ok(r.value.1)
    ensures r.Ok? <==> a.target.Name? && FirstMatch(Table, a.target.id, a).Some? &&
                       ParseValue(Table[FirstMatch(Table, a.target.id, a).value], a.value, a.lineno).Ok?
    ensures a.target.Name? && FirstMatch(Table, a.target.id, a).Some? ==>
      var v := ParseValue(Table[FirstMatch(Table, a.target.id, a).value], a.value, a.lineno);
      v.Err? ==> r == Err(v.error)
  {
    if !a.target.Name? then Err(ShapeError(a.lineno))
    else
      var name := a.target.id;
      match FirstMatch(Table, name, a)
      case None => Err(NoParser(a.lineno))
      case Some(i) =>
        var value :- ParseValue(Table[i], a.value, a.lineno);
        Ok((name, value))
  }

  /** `parse_class_assign` of odoodoc.py: it first asserts a single target. */
  function ReferenceParseClassAssign(a: Assignment): (r: Result<(string, Value)>)
    ensures |a.moreTargets| > 0 ==> r == Err(AssertionFailed(a.lineno))
    ensures r.Ok? ==> |a.moreTargets| == 0 && a.target.Name? && r.value.0 == a.target.id
  {
    if |a.moreTargets| > 0 then Err(AssertionFailed(a.lineno))
    else if !a.target.Name? then Err(ShapeError(a.lineno))
    else
      var name := a.target.id;
      match FirstMatch(Table, name, a)
      case None => Err(NoParser(a.lineno))
      case Some(i) =>
        var value :- ReferenceParseValue(Table[i], a.value, a.lineno);
        Ok((name, value))
  }

  /** The field row comes first: a `fields.X(...)` call is read as a field
      whatever the target is called, special attribute names included. */
  lemma FieldRowWins(a: Assignment)
    requires a.target.Name? && IsAssignField(a)
    ensures ParseClassAssign(a) == Ok((a.target.id, FieldValue(a.value.func.attr, a.value.lineno)))
  {
  }

  /** A special attribute assigned anything but a field call goes to the row
      of its own attribute group; a name in no group and a value that is no
      field call find no row. */
  lemma SpecialRows(a: Assignment)
    requires a.target.Name? && !IsAssignField(a)
    ensures var name := a.target.id; var k := FirstMatch(Table, name, a);
      && (name in SqlAttributes ==> k == Some(1))
      && (name in ConAttributes ==> k == Some(2))
      && (name in InhAttributes ==> k == Some(3))
      && (name in InhsAttributes ==> k == Some(4))
      && (name in StrAttributes ==> k == Some(5))
      && (name in BoolAttributes ==> k == Some(6))
      && (k.None? <==> name !in SpecialAttributes)
  {
    var name := a.target.id;
    if name in SqlAttributes {
      FirstMatchIs(Table, name, a, 1);
    } else if name in ConAttributes {
      FirstMatchIs(Table, name, a, 2);
    } else if name in InhAttributes {
      FirstMatchIs(Table, name, a, 3);
    } else if name in InhsAttributes {
      FirstMatchIs(Table, name, a, 4);
    } else if name in StrAttributes {
      FirstMatchIs(Table, name, a, 5);
    } else if name in BoolAttributes {
      FirstMatchIs(Table, name, a, 6);
    }
  }

  /** The row found is the first whose predicate holds. */
  lemma FirstMatchIs(ks: seq<Kind>, name: string, a: Assignment, i: nat)
    requires i < |ks| && Matches(ks[i], name, a)
    requires forall j :: 0 <= j < i ==> !Matches(ks[j], name, a)
    ensures FirstMatch(ks, name, a) == Some(i)
  {
  }

  /** The two versions of `parse_value_inh` agree on a literal, on a bare
      identifier and on a list of literals. They differ on a list holding a
      bare identifier, which only the newer one reads, and on a tuple of
      literals, which only the older one reads. */
  lemma InhParsersAgree(v: Expr, lineno: nat)
    ensures v.Str? || v.Name? ==> ParseInh(v, lineno) == ReferenceParseInh(v, lineno)
    ensures v.List? && (forall i :: 0 <= i < |v.elts| ==> v.elts[i].Str?) ==>
              ParseInh(v, lineno) == ReferenceParseInh(v, lineno) && ParseInh(v, lineno).Ok?
    ensures v.List? && |v.elts| == 1 && v.elts[0].Name? ==>
              ParseInh(v, lineno) == Ok(StrListValue([v.elts[0].id])) && ReferenceParseInh(v, lineno).Err?
    ensures v.Tuple? && |v.elts| == 1 && v.elts[0].Str? ==>
              ParseInh(v, lineno).Err? && ReferenceParseInh(v, lineno) == Ok(StrListValue([v.elts[0].s]))
  {
    var f := (e: Expr) => InhName(e, lineno);
    var g := (e: Expr) => StringOf(e, lineno);
    if v.List? && (forall i :: 0 <= i < |v.elts| ==> v.elts[i].Str?) {
      assert forall i :: 0 <= i < |v.elts| ==> f(v.elts[i]) == g(v.elts[i]);
      MapResultCongruent(f, g, v.elts);
    }
    if HasElts(v) && |v.elts| == 1 {
      assert v.elts == [v.elts[0]];
      MapResultSingleton(f, v.elts[0]);
      MapResultSingleton(g, v.elts[0]);
    }
  }

  /** With a single target, the older extractor and the newer one agree
      whenever both read the assignment, and the newer one reads everything
      the older one reads except a tuple under `_inherit`. */
  lemma ParseClassAssignMatchesReference(a: Assignment)
    requires |a.moreTargets| == 0
    ensures ParseClassAssign(a).Ok? && ReferenceParseClassAssign(a).Ok? ==>
              ParseClassAssign(a) == ReferenceParseClassAssign(a)
    ensures ReferenceParseClassAssign(a).Ok? && !a.value.Tuple? ==> ParseClassAssign(a) == ReferenceParseClassAssign(a)
  {
    if a.target.Name? && FirstMatch(Table, a.target.id, a).Some? {
      var i := FirstMatch(Table, a.target.id, a).value;
      ParseValueMatchesReference(Table[i], a.value, a.lineno);
    }
  }

  /** Row by row, the two value parsers agree whenever both read the value,
      and the newer one reads everything the older one reads but a tuple. */
  lemma ParseValueMatchesReference(k: Kind, v: Expr, lineno: nat)
    ensures ParseValue(k, v, lineno).Ok? && ReferenceParseValue(k, v, lineno).Ok? ==>
              ParseValue(k, v, lineno) == ReferenceParseValue(k, v, lineno)
    ensures ReferenceParseValue(k, v, lineno).Ok? && !v.Tuple? ==> ParseValue(k, v, lineno) == ReferenceParseValue(k, v, lineno)
  {
    if k == InhKind {
      InhParsersAgree(v, lineno);
      if v.List? && ReferenceParseInh(v, lineno).Ok? {
        var g := (e: Expr) => StringOf(e, lineno);
        assert forall j :: 0 <= j < |v.elts| ==> g(v.elts[j]).Ok? && v.elts[j].Str?;
      }
    }
  }

  // ---------------------------------------------------------------------
  // Class and file extraction.
  // ---------------------------------------------------------------------

  /** `all_assigns`: the assignments among the direct children, in order. */
  function AllAssigns(body: seq<Stmt>): (r: seq<Assignment>)
    ensures forall a :: a in r <==> Assign(a) in body
  {
    if |body| == 0 then []
    else AllAssigns(body[..|body| - 1]) + (if body[|body| - 1].Assign? then [body[|body| - 1].assign] else [])
  }

  /** `parse_class_function`: the method name, its line and its positional
      parameter names. */
  function FunctionPair(s: Stmt): (string, FunctionInfo)
    requires s.FunctionDef?
  {
    (s.name, FunctionInfo(s.lineno, s.params))
  }

  /** `all_functions` paired by `parse_class_function`, in order. */
  function FunctionPairs(body: seq<Stmt>): (r: seq<(string, FunctionInfo)>)
    ensures forall i :: 0 <= i < |r| ==> exists j :: 0 <= j < |body| && body[j].FunctionDef? && r[i] == FunctionPair(body[j])
  {
    if |body| == 0 then []
    else FunctionPairs(body[..|body| - 1]) + (if body[|body| - 1].FunctionDef? then [FunctionPair(body[|body| - 1])] else [])
  }

  function SpecialAssigns(body: seq<Stmt>): seq<Assignment> {
    Filter(IsAssignSpecial, AllAssigns(body))
  }

  function FieldAssigns(body: seq<Stmt>): seq<Assignment> {
    Filter(IsAssignField, AllAssigns(body))
  }

  /** The three maps `parse_odoo_class` adds to a class record. */
  datatype ClassBody = ClassBody(specials: map<string, Value>, fields: map<string, Value>, functions: map<string, FunctionInfo>)

  /** `parse_odoo_class`: the special assignments are parsed first, then
      the field assignments, each list in body order with the first failure
      winning; every map keeps the last assignment or definition of a name. */
  function ParseClassBody(body: seq<Stmt>): (r: Result<ClassBody>)
    ensures r.Ok? <==> MapResult(ParseClassAssign, SpecialAssigns(body)).Ok? &&
                       MapResult(ParseClassAssign, FieldAssigns(body)).Ok?
  {
    var specialPairs :- MapResult(ParseClassAssign, SpecialAssigns(body));
    var fieldPairs :- MapResult(ParseClassAssign, FieldAssigns(body));
    Ok(ClassBody(ToMap(specialPairs), ToMap(fieldPairs), ToMap(FunctionPairs(body))))
  }

  /** The keys of the three maps: the special attribute names assigned, the
      names assigned a field, and the names of the methods defined. */
  lemma ParseClassBodyKeys(body: seq<Stmt>)
    requires ParseClassBody(body).Ok?
    ensures var b := ParseClassBody(body).value;
      && (forall k :: k in b.specials <==> exists a :: a in SpecialAssigns(body) && a.target.Name? && a.target.id == k)
      && (forall k :: k in b.fields <==> exists a :: a in FieldAssigns(body) && a.target.Name? && a.target.id == k)
      && (forall k :: k in b.functions <==> exists j :: 0 <= j < |body| && body[j].FunctionDef? && body[j].name == k)
  {
    FunctionPairsComplete(body);
    ParsedNames(SpecialAssigns(body), MapResult(ParseClassAssign, SpecialAssigns(body)).value);
    ParsedNames(FieldAssigns(body), MapResult(ParseClassAssign, FieldAssigns(body)).value);
  }

  /** Every method definition among the direct children has a pair. */
  lemma {:induction false} FunctionPairsComplete(body: seq<Stmt>)
    ensures forall j :: 0 <= j < |body| && body[j].FunctionDef? ==> FunctionPair(body[j]) in FunctionPairs(body)
  {
    if |body| > 0 {
      var p := body[..|body| - 1];
      FunctionPairsComplete(p);
      assert forall j :: 0 <= j < |p| ==> p[j] == body[j];
    }
  }

  /** The names of the parsed pairs are the target names of the
      assignments. */
  lemma ParsedNames(as_: seq<Assignment>, pairs: seq<(string, Value)>)
    requires MapResult(ParseClassAssign, as_) == Ok(pairs)
    ensures forall k :: k in ToMap(pairs) <==> exists a :: a in as_ && a.target.Name? && a.target.id == k
  {
    forall k
      ensures k in ToMap(pairs) <==> exists a :: a in as_ && a.target.Name? && a.target.id == k
    {
      if exists a :: a in as_ && a.target.Name? && a.target.id == k {
        var a :| a in as_ && a.target.Name? && a.target.id == k;
        var i := IndexOf(as_, a);
        assert pairs[i].0 == k;
      }
      if k in ToMap(pairs) {
        var i :| 0 <= i < |pairs| && pairs[i].0 == k;
        assert as_[i] in as_;
      }
    }
  }

  /** Every assignment `parse_odoo_class` selects finds a row of the table:
      a class body never raises for want of a parser. */
  lemma SelectedAssignsHaveRows(body: seq<Stmt>)
    ensures forall a :: a in SpecialAssigns(body) ==> FirstMatch(Table, a.target.id, a).Some?
    ensures forall a :: a in FieldAssigns(body) && a.target.Name? ==> FirstMatch(Table, a.target.id, a).Some?
  {
    forall a | a in SpecialAssigns(body)
      ensures FirstMatch(Table, a.target.id, a).Some?
    {
      SpecialRowCovered(a);
    }
    forall a | a in FieldAssigns(body) && a.target.Name?
      ensures FirstMatch(Table, a.target.id, a).Some?
    {
      assert Matches(Table[0], a.target.id, a);
    }
  }

  lemma SpecialRowCovered(a: Assignment)
    requires IsAssignSpecial(a)
    ensures FirstMatch(Table, a.target.id, a).Some?
  {
    if !IsAssignField(a) {
      SpecialRows(a);
    } else {
      assert Matches(Table[0], a.target.id, a);
    }
  }

  /** Appending a statement to a body appends its assignment, if any. */
  lemma AllAssignsAppend(body: seq<Stmt>, s: Stmt)
    ensures AllAssigns(body + [s]) == AllAssigns(body) + (if s.Assign? then [s.assign] else [])
  {
    assert (body + [s])[..|body|] == body;
  }

  lemma FunctionPairsAppend(body: seq<Stmt>, s: Stmt)
    ensures FunctionPairs(body + [s]) == FunctionPairs(body) + (if s.FunctionDef? then [FunctionPair(s)] else [])
  {
    assert (body + [s])[..|body|] == body;
  }

  /** Appending a field assignment that is not special adds it to the
      field assignments only. */
  lemma FieldAssignAppend(body: seq<Stmt>, a: Assignment)
    requires IsAssignField(a) && !IsAssignSpecial(a)
    ensures FieldAssigns(body + [Assign(a)]) == FieldAssigns(body) + [a]
    ensures SpecialAssigns(body + [Assign(a)]) == SpecialAssigns(body)
    ensures FunctionPairs(body + [Assign(a)]) == FunctionPairs(body)
  {
    AllAssignsAppend(body, Assign(a));
    FunctionPairsAppend(body, Assign(a));
    FilterAppend(IsAssignSpecial, AllAssigns(body), [a]);
    FilterAppend(IsAssignField, AllAssigns(body), [a]);
    assert Filter(IsAssignField, [a]) == [a] by {
      assert [a][1..] == [];
    }
  }

  /** Appending a field assignment to a class body overwrites exactly that
      field: a later assignment wins. */
  lemma LaterFieldWins(body: seq<Stmt>, a: Assignment)
    requires ParseClassBody(body).Ok? && IsAssignField(a) && a.target.Name? && !IsAssignSpecial(a)
    ensures ParseClassBody(body + [Assign(a)]) ==
      Ok(ParseClassBody(body).value.(fields := ParseClassBody(body).value.fields[a.target.id := FieldValue(a.value.func.attr, a.value.lineno)]))
  {
    var b := body + [Assign(a)];
    FieldAssignAppend(body, a);
    var pairs := MapResult(ParseClassAssign, FieldAssigns(body)).value;
    var last := (a.target.id, FieldValue(a.value.func.attr, a.value.lineno));
    assert MapResult(ParseClassAssign, FieldAssigns(b)) == Ok(pairs + [last]) by {
      MapResultAppend(ParseClassAssign, FieldAssigns(body), [a]);
      FieldRowWins(a);
      MapResultSingleton(ParseClassAssign, a);
    }
    assert ToMap(pairs + [last]) == ToMap(pairs)[last.0 := last.1] by {
      assert (pairs + [last])[..|pairs|] == pairs;
    }
  }

  /** Appending a special assignment that is not a field adds it to the
      special assignments only. */
  lemma SpecialAssignAppend(body: seq<Stmt>, a: Assignment)
    requires IsAssignSpecial(a) && !IsAssignField(a)
    ensures SpecialAssigns(body + [Assign(a)]) == SpecialAssigns(body) + [a]
    ensures FieldAssigns(body + [Assign(a)]) == FieldAssigns(body)
    ensures FunctionPairs(body + [Assign(a)]) == FunctionPairs(body)
  {
    AllAssignsAppend(body, Assign(a));
    FunctionPairsAppend(body, Assign(a));
    FilterAppend(IsAssignSpecial, AllAssigns(body), [a]);
    FilterAppend(IsAssignField, AllAssigns(body), [a]);
    assert Filter(IsAssignSpecial, [a]) == [a] by {
      assert [a][1..] == [];
    }
  }

  /** Appending a special assignment whose value parses overwrites exactly
      that special attribute: a later assignment wins. */
  lemma LaterSpecialWins(body: seq<Stmt>, a: Assignment)
    requires ParseClassBody(body).Ok? && IsAssignSpecial(a) && !IsAssignField(a) && ParseClassAssign(a).Ok?
    ensures ParseClassBody(body + [Assign(a)]) ==
      Ok(ParseClassBody(body).value.(specials := ParseClassBody(body).value.specials[a.target.id := ParseClassAssign(a).value.1]))
  {
    var b := body + [Assign(a)];
    SpecialAssignAppend(body, a);
    var pairs := MapResult(ParseClassAssign, SpecialAssigns(body)).value;
    var fieldPairs := MapResult(ParseClassAssign, FieldAssigns(body)).value;
    var last := ParseClassAssign(a).value;
    assert last.0 == a.target.id;
    assert MapResult(ParseClassAssign, SpecialAssigns(b)) == Ok(pairs + [last]) by {
      MapResultAppend(ParseClassAssign, SpecialAssigns(body), [a]);
      MapResultSingleton(ParseClassAssign, a);
    }
    assert ToMap(pairs + [last]) == ToMap(pairs)[last.0 := last.1] by {
      assert (pairs + [last])[..|pairs|] == pairs;
    }
    assert ParseClassBody(b) == Ok(ClassBody(ToMap(pairs + [last]), ToMap(fieldPairs), ToMap(FunctionPairs(body))));
  }

  /** Appending a method definition overwrites exactly that method. */
  lemma LaterFunctionWins(body: seq<Stmt>, f: Stmt)
    requires ParseClassBody(body).Ok? && f.FunctionDef?
    ensures ParseClassBody(body + [f]) ==
      Ok(ParseClassBody(body).value.(functions := ParseClassBody(body).value.functions[f.name := FunctionInfo(f.lineno, f.params)]))
  {
    var b := body + [f];
    AllAssignsAppend(body, f);
    assert AllAssigns(b) == AllAssigns(body);
    assert SpecialAssigns(b) == SpecialAssigns(body);
    assert FieldAssigns(b) == FieldAssigns(body);
    FunctionPairsAppend(body, f);
    var fs := FunctionPairs(body);
    assert (fs + [FunctionPair(f)])[..|fs|] == fs;
    assert ToMap(FunctionPairs(b)) == ToMap(fs)[f.name := FunctionInfo(f.lineno, f.params)];
  }

  /** `parse_model_file` on an already parsed file: one record per
      top-level class, in order, nested classes not included. */
  function ParseModelFile(moduleName: string, file: string, m: Module): (r: Result<seq<ClassRecord>>)
    ensures r.Ok? ==> |r.value| == |TopLevelClasses(m.body)|
    ensures r.Ok? ==> forall i :: 0 <= i < |r.value| ==>
      && r.value[i].moduleName == moduleName && r.value[i].file == file
      && r.value[i].lineno == TopLevelClasses(m.body)[i].lineno
    ensures r.Ok? <==> forall i :: 0 <= i < |TopLevelClasses(m.body)| ==> ParseClassBody(TopLevelClasses(m.body)[i].body).Ok?
    ensures r.Ok? ==> forall i :: 0 <= i < |r.value| ==>
      var b := ParseClassBody(TopLevelClasses(m.body)[i].body).value;
      r.value[i].specials == b.specials && r.value[i].fields == b.fields && r.value[i].functions == b.functions
    ensures r.Err? ==> exists i ::
      (0 <= i < |TopLevelClasses(m.body)| &&
       ParseClassBody(TopLevelClasses(m.body)[i].body) == Err(r.error) &&
       forall j :: 0 <= j < i ==> ParseClassBody(TopLevelClasses(m.body)[j].body).Ok?)
  {
    MapResult((c: Stmt) => ParseOdooClass(moduleName, file, c), TopLevelClasses(m.body))
  }

  /** Record i of a parsed file indexes the special attributes assigned,
      the fields declared and the methods defined directly in the body of
      the i-th top-level class. */
  lemma ParseModelFileKeys(moduleName: string, file: string, m: Module, i: nat)
    requires ParseModelFile(moduleName, file, m).Ok? && i < |ParseModelFile(moduleName, file, m).value|
    ensures var rec := ParseModelFile(moduleName, file, m).value[i];
      var body := TopLevelClasses(m.body)[i].body;
      && (forall k :: k in rec.specials <==> exists a :: a in SpecialAssigns(body) && a.target.Name? && a.target.id == k)
      && (forall k :: k in rec.fields <==> exists a :: a in FieldAssigns(body) && a.target.Name? && a.target.id == k)
      && (forall k :: k in rec.functions <==> exists j :: 0 <= j < |body| && body[j].FunctionDef? && body[j].name == k)
  {
    ParseClassBodyKeys(TopLevelClasses(m.body)[i].body);
  }

  /** `all_classes`: the class definitions among the module's direct
      children. */
  function TopLevelClasses(body: seq<Stmt>): (r: seq<Stmt>)
    ensures forall i :: 0 <= i < |r| ==> r[i].ClassDef? && r[i] in body
    ensures forall i :: 0 <= i < |body| && body[i].ClassDef? ==> body[i] in r
  {
    Filter((s: Stmt) => s.ClassDef?, body)
  }

  /** The record of one class: where it is, and the maps of its body. A
      statement other than a class definition yields a ShapeError. */
  function ParseOdooClass(moduleName: string, file: string, c: Stmt): (r: Result<ClassRecord>)
    ensures c.ClassDef? ==> (r.Ok? <==> ParseClassBody(c.body).Ok?)
    ensures r.Ok? ==> c.ClassDef? && r.value.moduleName == moduleName && r.value.file == file && r.value.lineno == c.lineno
    ensures r.Ok? ==> var b := ParseClassBody(c.body).value;
      r.value.specials == b.specials && r.value.fields == b.fields && r.value.functions == b.functions
    ensures c.ClassDef? && ParseClassBody(c.body).Err? ==> r == Err(ParseClassBody(c.body).error)
  {
    if !c.ClassDef? then Err(ShapeError(0))
    else
      var b :- ParseClassBody(c.body);
      Ok(ClassRecord(moduleName, file, c.lineno, b.specials, b.fields, b.functions))
  }
}

=== FILE: generator.dfy ===
/** `filter_modules` of pigeoo/generator.py: restricting the map of leveled
    lists to the modules a user named and the modules they depend on. */
module Generator {
  import opened Wrappers
  import opened DepTrees
  import opened Registry
  import opened Query

  /** `any(depends(f, m, all) for f in fs)`: the filter names are tried in
      order, the first `True` stops the scan, and the first lookup error
      aborts it. */
  function AnyDepends(fs: seq<string>, m: string, all: AllModules): (r: Result<bool>)
    ensures r.Ok? ==> (r.value <==> exists f :: f in fs && DependsOn(f, m, all) == Ok(true))
    ensures r.Err? ==> exists i :: 0 <= i < |fs| && DependsOn(fs[i], m, all) == r && NoneClaims(fs, m, all, i)
    ensures (forall f :: f in fs ==> DependsOn(f, m, all).Ok?) ==> r.Ok?
  {
    if |fs| == 0 then Ok(false)
    else
      var d :- DependsOn(fs[0], m, all);
      if d then Ok(true)
      else
        var rest := AnyDepends(fs[1..], m, all);
        assert forall f :: f in fs <==> f == fs[0] || f in fs[1..];
        assert rest.Err? ==> exists i :: 0 <= i < |fs| && DependsOn(fs[i], m, all) == rest && NoneClaims(fs, m, all, i) by {
          if rest.Err? {
            var i :| 0 <= i < |fs[1..]| && DependsOn(fs[1..][i], m, all) == rest && NoneClaims(fs[1..], m, all, i);
            NoneClaimsTail(fs, m, all, i + 1);
            assert fs[1..][i] == fs[i + 1];
          }
        }
        rest
  }

  /** No filter name before position `i` depends on `m`. */
  predicate NoneClaims(fs: seq<string>, m: string, all: AllModules, i: nat) {
    forall j :: 0 <= j < i && j < |fs| ==> DependsOn(fs[j], m, all) == Ok(false)
  }

  lemma NoneClaimsTail(fs: seq<string>, m: string, all: AllModules, i: nat)
    requires 0 < i && |fs| > 0 && DependsOn(fs[0], m, all) == Ok(false)
    ensures NoneClaims(fs, m, all, i) <==> NoneClaims(fs[1..], m, all, i - 1)
  {
    if NoneClaims(fs[1..], m, all, i - 1) {
      forall j | 0 < j < i && j < |fs|
        ensures DependsOn(fs[j], m, all) == Ok(false)
      {
        assert fs[j] == fs[1..][j - 1];
      }
    }
  }

  /** Position of the first filter name that is not a key of the map. */
  function FirstAbsent(fs: seq<string>, all: AllModules): (r: Option<nat>)
    ensures r.Some? ==> r.value < |fs| && fs[r.value] !in all && forall j :: 0 <= j < r.value ==> fs[j] in all
    ensures r.None? <==> forall f :: f in fs ==> f in all
  {
    if |fs| == 0 then None
    else if fs[0] !in all then Some(0)
    else
      match FirstAbsent(fs[1..], all)
      case None => None
      case Some(i) => Some(i + 1)
  }

  /** For a module of the map outside the filter, the scan fails exactly
      when no filter name before the first absent one depends on the
      module, and the lookup that fails is always that of the first absent
      name, whichever module is being examined. */
  lemma {:induction false} AnyDependsFails(fs: seq<string>, m: string, all: AllModules)
    requires m in all && m !in fs
    ensures AnyDepends(fs, m, all).Err? <==>
      FirstAbsent(fs, all).Some? && NoneClaims(fs, m, all, FirstAbsent(fs, all).value)
    ensures AnyDepends(fs, m, all).Err? ==> AnyDepends(fs, m, all) == Err(KeyError(fs[FirstAbsent(fs, all).value]))
  {
    if |fs| > 0 && fs[0] in all {
      var rest := fs[1..];
      assert m !in rest by {
        assert forall x :: x in rest ==> x in fs;
      }
      AnyDependsFails(rest, m, all);
      if DependsOn(fs[0], m, all) == Ok(false) {
        assert AnyDepends(fs, m, all) == AnyDepends(rest, m, all);
        if FirstAbsent(fs, all).Some? {
          var i := FirstAbsent(fs, all).value;
          assert FirstAbsent(rest, all) == Some(i - 1);
          assert rest[i - 1] == fs[i];
          NoneClaimsTail(fs, m, all, i);
        } else {
          assert FirstAbsent(rest, all).None?;
        }
      }
    }
  }

  /** A scan that fails needs an absent filter name. */
  lemma FailureNeedsAbsent(filter: seq<string>, all: AllModules)
    ensures (exists m :: m in all && m !in filter && AnyDepends(filter, m, all).Err?) ==> FirstAbsent(filter, all).Some?
  {
    if exists m :: m in all && m !in filter && AnyDepends(filter, m, all).Err? {
      var m :| m in all && m !in filter && AnyDepends(filter, m, all).Err?;
      AnyDependsFails(filter, m, all);
    }
  }

  /** `filter_modules`: with no filter the map is returned as it is;
      otherwise a module is kept when it is named in the filter or some
      filter module depends on it. Testing a module outside the filter looks
      up the filter names, so an absent one is a lookup error unless an
      earlier filter name already claimed the module. */
  function FilterModules(all: AllModules, filter: seq<string>): (r: Result<AllModules>)
    ensures |filter| == 0 ==> r == Ok(all)
    ensures r.Ok? ==> r.value.Keys <= all.Keys && forall m :: m in r.value ==> r.value[m] == all[m]
    ensures r.Ok? ==> forall f :: f in filter && f in all ==> f in r.value
    ensures r.Ok? && |filter| > 0 ==> forall m :: m in all && m !in filter ==>
      (m in r.value <==> exists f :: f in filter && DependsOn(f, m, all) == Ok(true))
    ensures r.Err? ==> exists f :: f in filter && f !in all && r.error == KeyError(f)
    ensures (forall f :: f in filter ==> f in all) ==> r.Ok?
  {
    if |filter| == 0 then Ok(all)
    else if exists m :: m in all && m !in filter && AnyDepends(filter, m, all).Err? then
      FailureNeedsAbsent(filter, all);
      Err(KeyError(filter[FirstAbsent(filter, all).value]))
    else
      Ok(map m | m in all && (m in filter || AnyDepends(filter, m, all) == Ok(true)) :: all[m])
  }

  /** The filter fails exactly when some module of the map outside the
      filter is claimed by no filter name before the first absent one. */
  lemma FilterModulesFails(all: AllModules, filter: seq<string>)
    requires |filter| > 0
    ensures FilterModules(all, filter).Err? <==>
      && FirstAbsent(filter, all).Some?
      && exists m :: m in all && m !in filter &&
           forall j :: 0 <= j < FirstAbsent(filter, all).value ==> DependsOn(filter[j], m, all) == Ok(false)
  {
    forall m | m in all && m !in filter
      ensures AnyDepends(filter, m, all).Err? <==>
        FirstAbsent(filter, all).Some? && NoneClaims(filter, m, all, FirstAbsent(filter, all).value)
    {
      AnyDependsFails(filter, m, all);
    }
  }

  /** On leveled lists built by `invert_dependencies`, and with every filter
      name present, the filter keeps the named modules and every module
      reachable in one of their dependency trees. */
  lemma FilterModulesReachable(reg: Registry, all: AllModules, filter: seq<string>)
    requires Acyclic(reg) && BuiltFrom(reg, all)
    requires |filter| > 0 && forall f :: f in filter ==> f in all
    ensures FilterModules(all, filter).Ok?
    ensures forall m :: m in FilterModules(all, filter).value <==>
      m in all && (m in filter || exists f :: f in filter && TreeOf(reg, f).Ok? && m in ReachableKeys(TreeOf(reg, f).value))
  {
    forall f, m | f in filter && m in all
      ensures TreeOf(reg, f).Ok? && (DependsOn(f, m, all) == Ok(true) <==> m in ReachableKeys(TreeOf(reg, f).value))
    {
      DependsOnMatchesReference(reg, all, f, m);
    }
  }
}

=== FILE: levels.dfy ===
/** `invert_dependencies`: a module's dependency tree turned into a leveled
    list, level i holding the reachable modules whose own depth is i.

    A level is a set: the program fills each level from a Python set, so the
    order inside a level is not part of the result. */
module Levels {
  import opened Wrappers
  import opened Lists
  import opened DepTrees
  import opened Registry

  type Leveled = seq<set<string>>

  /** The largest element of a non-empty finite set of naturals. */
  function MaxOf(s: set<nat>): (m: nat)
    requires s != {}
    ensures m in s && forall x :: x in s ==> x <= m
  {
    MaxExists(s);
    var m :| m in s && forall x :: x in s ==> x <= m;
    m
  }

  lemma {:induction false} MaxExists(s: set<nat>)
    requires s != {}
    ensures exists m :: m in s && forall x :: x in s ==> x <= m
    decreases |s|
  {
    var y :| y in s;
    if s != {y} {
      var rest := s - {y};
      MaxExists(rest);
      var m :| m in rest && forall x :: x in rest ==> x <= m;
      var top := if m < y then y else m;
      assert top in s && forall x :: x in s ==> x <= top by {
        forall x | x in s
          ensures x <= top
        {
          if x != y {
            assert x in rest;
          }
        }
      }
    } else {
      assert forall x :: x in s ==> x <= y;
    }
  }

  /** `[[] for i in range(max(depths) + 1)]` filled with every module at the
      index of its depth. */
  function Bucket(depths: map<string, nat>): (levels: Leveled)
    requires |depths| > 0
    ensures |levels| == 1 + MaxOf(depths.Values)
    ensures forall k :: k in depths ==> depths[k] < |levels| && k in levels[depths[k]]
    ensures forall i, k :: 0 <= i < |levels| && k in levels[i] ==> k in depths && depths[k] == i
  {
    var some :| some in depths;
    assert depths[some] in depths.Values;
    var top := MaxOf(depths.Values);
    assert forall k :: k in depths ==> depths[k] in depths.Values;
    seq(top + 1, i => set k | k in depths && depths[k] == i)
  }

  /** Every key of a built tree has a depth. */
  lemma KeysHaveDepths(reg: Registry, name: string, tree: DepTree)
    requires Acyclic(reg) && TreeOf(reg, name) == Ok(tree)
    ensures forall k :: k in ReachableKeys(tree) ==> ModuleDepth(reg, k).Ok?
  {
    TreeReachable(reg, name);
  }

  /** `{m: module_dependencies_depth(m) for m in dict_flatten(tree)}`. */
  function FlatDepths(reg: Registry, name: string, tree: DepTree): (depths: map<string, nat>)
    requires Acyclic(reg) && TreeOf(reg, name) == Ok(tree)
    ensures depths.Keys == ReachableKeys(tree)
    ensures forall k :: k in depths ==> ModuleDepth(reg, k) == Ok(depths[k])
  {
    TreeReachable(reg, name);
    FlattenIsReachableKeys(tree);
    KeysHaveDepths(reg, name, tree);
    map k | k in DictFlatten(tree, {}) :: ModuleDepth(reg, k).value
  }

  /** The same map built from odoodoc.py's unguarded flatten and recursive
      depth. */
  function ReferenceFlatDepths(reg: Registry, name: string, tree: DepTree): (depths: map<string, nat>)
    requires Acyclic(reg) && TreeOf(reg, name) == Ok(tree)
    ensures depths.Keys == ReachableKeys(tree)
    ensures forall k :: k in depths ==> ModuleDepth(reg, k).Ok? && depths[k] == ReferenceDepth(reg, k)
  {
    KeysHaveDepths(reg, name, tree);
    map k | k in DictFlattenAll(tree, {}) :: ReferenceDepth(reg, k)
  }

  lemma NonEmptyTreeHasKeys(tree: DepTree)
    requires !IsEmpty(tree)
    ensures tree.entries[0].name in ReachableKeys(tree)
  {
    EntriesReachableMember(tree.entries, 0);
  }

  lemma EmptyTreeHasNoKeys(tree: DepTree)
    requires IsEmpty(tree)
    ensures ReachableKeys(tree) == {}
  {
    assert Reachable(tree) == {};
  }

  /** Bucketing a depth map of the modules `keys`, each at its module
      depth, places every module at its depth and nothing else anywhere. */
  lemma BucketPlacesDepths(reg: Registry, keys: set<string>, depths: map<string, nat>)
    requires Acyclic(reg) && |depths| > 0 && depths.Keys == keys
    requires forall k :: k in depths ==> ModuleDepth(reg, k) == Ok(depths[k])
    ensures var levels := Bucket(depths);
      && (forall k :: k in keys ==>
            ModuleDepth(reg, k).Ok? && ModuleDepth(reg, k).value < |levels| && k in levels[ModuleDepth(reg, k).value])
      && (forall i, k :: 0 <= i < |levels| && k in levels[i] ==> k in keys && ModuleDepth(reg, k) == Ok(i))
  {
  }

  /** `invert_dependencies` of pigeoo/parser.py: `[]` for the empty tree;
      otherwise the visited-set flatten, a depth per flattened module, and
      the modules bucketed by depth. Every reachable module sits at the
      index of its own depth, and a level holds nothing else. */
  function InvertDependencies(reg: Registry, name: string, tree: DepTree): (levels: Leveled)
    requires Acyclic(reg) && TreeOf(reg, name) == Ok(tree)
    ensures levels == [] <==> IsEmpty(tree)
    ensures |levels| == SweepDepth(tree)
    ensures forall k :: k in ReachableKeys(tree) ==>
      && ModuleDepth(reg, k).Ok?
      && ModuleDepth(reg, k).value < |levels|
      && k in levels[ModuleDepth(reg, k).value]
    ensures forall i, k :: 0 <= i < |levels| && k in levels[i] ==>
      k in ReachableKeys(tree) && ModuleDepth(reg, k) == Ok(i)
  {
    if IsEmpty(tree) then
      EmptyTreeHasNoKeys(tree);
      []
    else
      NonEmptyTreeHasKeys(tree);
      var depths := FlatDepths(reg, name, tree);
      BucketPlacesDepths(reg, ReachableKeys(tree), depths);
      MaxFlatDepth(reg, name, tree);
      Bucket(depths)
  }

  /** `invert_dependencies` of odoodoc.py: the same bucketing over the
      unguarded flatten and the recursive depth. */
  function InvertDependenciesReference(reg: Registry, name: string, tree: DepTree): (levels: Leveled)
    requires Acyclic(reg) && TreeOf(reg, name) == Ok(tree)
    ensures levels == [] <==> IsEmpty(tree)
    ensures forall k :: k in ReachableKeys(tree) ==>
      && ModuleDepth(reg, k).Ok?
      && ReferenceDepth(reg, k) < |levels|
      && k in levels[ReferenceDepth(reg, k)]
    ensures forall i, k :: 0 <= i < |levels| && k in levels[i] ==>
      k in ReachableKeys(tree) && ModuleDepth(reg, k).Ok? && ReferenceDepth(reg, k) == i
  {
    if IsEmpty(tree) then
      EmptyTreeHasNoKeys(tree);
      []
    else
      NonEmptyTreeHasKeys(tree);
      var depths := ReferenceFlatDepths(reg, name, tree);
      BucketPlacesDepths(reg, ReachableKeys(tree), depths);
      Bucket(depths)
  }

  /** odoodoc.py's `module_dependencies_depth`, with the recursive depth; it
      equals the sweeping module depth. */
  function ReferenceDepth(reg: Registry, k: string): (r: nat)
    requires Acyclic(reg) && ModuleDepth(reg, k).Ok?
    ensures r == ModuleDepth(reg, k).value
  {
    if k == Base then 0 else RecursiveDepth(TreeOf(reg, k).value, 0)
  }

  /** The leveled list of a module, or the error of building its tree. */
  function ModuleLevels(reg: Registry, name: string): (r: Result<Leveled>)
    requires Acyclic(reg)
    ensures r.Ok? <==> TreeOf(reg, name).Ok?
  {
    var tree :- TreeOf(reg, name);
    Ok(InvertDependencies(reg, name, tree))
  }

  /** The deepest reachable module is one level above the tree's own
      depth. */
  lemma MaxFlatDepth(reg: Registry, name: string, tree: DepTree)
    requires Acyclic(reg) && TreeOf(reg, name) == Ok(tree) && !IsEmpty(tree)
    ensures FlatDepths(reg, name, tree).Values != {}
    ensures 1 + MaxOf(FlatDepths(reg, name, tree).Values) == Height(tree)
  {
    var depths := FlatDepths(reg, name, tree);
    TreeReachable(reg, name);
    var j := Tallest(tree.entries);
    var c := tree.entries[j];
    EntriesReachableMember(tree.entries, j);
    assert depths[c.name] in depths.Values;
    var top := MaxOf(depths.Values);
    var k0 :| k0 in depths && depths[k0] == top;
    var e0 :| e0 in Reachable(tree) && e0.name == k0;
    ReachableIsLower(tree, e0);
  }

  /** A module's dependencies sit at strictly lower levels than the module. */
  lemma InvertOrdersDependencies(reg: Registry, name: string, tree: DepTree, i: nat, k: string, d: string)
    requires Acyclic(reg) && TreeOf(reg, name) == Ok(tree)
    requires var levels := InvertDependencies(reg, name, tree); i < |levels| && k in levels[i]
    requires TreeOf(reg, k).Ok? && d in Keys(TreeOf(reg, k).value)
    ensures var levels := InvertDependencies(reg, name, tree);
      exists j :: 0 <= j < i && d in levels[j]
  {
    var levels := InvertDependencies(reg, name, tree);
    var e :| e in Reachable(tree) && e.name == k;
    TreeReachable(reg, name);
    var p := IndexOf(Keys(e.sub), d);
    var c := e.sub.entries[p];
    ReachableOfReachable(tree, e);
    EntriesReachableMember(e.sub.entries, p);
    ReachableIsShallower(reg, k, c);
    assert d in ReachableKeys(tree);
  }

  /** The visited-set flatten and the level sweep of pigeoo/parser.py give
      the same leveled list as the unguarded flatten and recursive depth of
      odoodoc.py. */
  lemma InvertMatchesReference(reg: Registry, name: string, tree: DepTree)
    requires Acyclic(reg) && TreeOf(reg, name) == Ok(tree)
    ensures InvertDependencies(reg, name, tree) == InvertDependenciesReference(reg, name, tree)
  {
    if !IsEmpty(tree) {
      var d1 := FlatDepths(reg, name, tree);
      var d2 := ReferenceFlatDepths(reg, name, tree);
      assert d1 == d2;
    }
  }
}

=== FILE: lineage.dfy ===
/** `class_tree`: the modules declaring a logical class, peeled into levels
    so that a module comes after every module it depends on, and the class
    records grouped by those levels. pigeoo/parser.py peels with the
    leveled-list test of src/query.py; odoodoc.py peels with `in_deep` on
    each module's tree. */
module Lineage {
  import opened Wrappers
  import opened Lists
  import opened DepTrees
  import opened Registry
  import opened Records
  import opened Query

  /** The levels hold every module exactly once and none is empty. */
  predicate Partitions(levels: seq<set<string>>, modules: set<string>) {
    && (forall i :: 0 <= i < |levels| ==> levels[i] != {} && levels[i] <= modules)
    && (forall i, j :: 0 <= i < j < |levels| ==> levels[i] !! levels[j])
    && Union(levels) == modules
  }

  /** All modules of all levels. */
  function Union(levels: seq<set<string>>): set<string> {
    if |levels| == 0 then {} else levels[0] + Union(levels[1..])
  }

  /** The first level holding a module of the union. */
  function LevelOf(levels: seq<set<string>>, m: string): (i: nat)
    requires m in Union(levels)
    ensures i < |levels| && m in levels[i]
  {
    if m in levels[0] then 0 else 1 + LevelOf(levels[1..], m)
  }

  /** One round of peeling: from a non-empty set of remaining modules it
      keeps a non-empty part to put on the next level. */
  predicate Shrinks(step: set<string> -> set<string>, modules: set<string>) {
    forall x {:trigger step(x)} :: x <= modules && x != {} ==> step(x) != {} && step(x) <= x
  }

  /** No module a round keeps is related to a remaining module. */
  predicate KeepsMinimal(step: set<string> -> set<string>, rel: (string, string) -> bool, modules: set<string>) {
    forall x, c, d {:trigger rel(c, d), step(x)} :: x <= modules && c in step(x) && d in x ==> !rel(c, d)
  }

  /** A set of one element is that element's singleton. */
  lemma Singleton(s: set<string>, c: string)
    requires |s| == 1 && c in s
    ensures s == {c}
  {
    assert s * {c} == {c};
    assert |s - {c}| == 0;
  }

  lemma RemoveNonEmpty(modules: set<string>, level: set<string>)
    requires level != {} && level <= modules
    ensures |modules - level| < |modules|
  {
    var x :| x in level;
    assert modules - level <= modules - {x};
  }

  /** The `while modules` loop of `class_tree`, with the round as a
      parameter: each round's level is removed from the remaining modules
      until none is left. */
  function PeelBy(modules: set<string>, step: set<string> -> set<string>): (levels: seq<set<string>>)
    requires Shrinks(step, modules)
    ensures |levels| == 0 <==> modules == {}
    ensures modules != {} ==> levels[0] == step(modules)
    decreases |modules|
  {
    if modules == {} then []
    else
      var level := step(modules);
      RemoveNonEmpty(modules, level);
      [level] + PeelBy(modules - level, step)
  }

  /** The levels partition the modules. */
  lemma {:induction false} PeelByPartitions(modules: set<string>, step: set<string> -> set<string>)
    requires Shrinks(step, modules)
    ensures Partitions(PeelBy(modules, step), modules)
    decreases |modules|
  {
    if modules != {} {
      var level := step(modules);
      RemoveNonEmpty(modules, level);
      var levels := PeelBy(modules, step);
      var rest := PeelBy(modules - level, step);
      PeelByPartitions(modules - level, step);
      assert levels == [level] + rest;
      assert levels[1..] == rest;
      forall i, j | 0 <= i < j < |levels|
        ensures levels[i] !! levels[j]
      {
        assert levels[j] == rest[j - 1];
        if i > 0 {
          assert levels[i] == rest[i - 1];
        }
      }
    }
  }

  /** When every round keeps only modules unrelated to the remaining ones, a
      module related to another is on a strictly later level. */
  lemma {:induction false} PeelByOrders(modules: set<string>, step: set<string> -> set<string>, rel: (string, string) -> bool,
                                        i: nat, j: nat, m: string, n: string)
    requires Shrinks(step, modules) && KeepsMinimal(step, rel, modules)
    requires i < |PeelBy(modules, step)| && j < |PeelBy(modules, step)|
    requires m in PeelBy(modules, step)[i] && n in PeelBy(modules, step)[j]
    requires rel(m, n)
    ensures j < i
    decreases |modules|
  {
    PeelByPartitions(modules, step);
    var level := step(modules);
    RemoveNonEmpty(modules, level);
    var levels := PeelBy(modules, step);
    var rest := PeelBy(modules - level, step);
    assert levels == [level] + rest;
    assert n in modules;
    if i > 0 && j > 0 {
      assert levels[i] == rest[i - 1] && levels[j] == rest[j - 1];
      PeelByOrders(modules - level, step, rel, i - 1, j - 1, m, n);
    }
  }

  /** Two rounds that agree on every set of remaining modules peel alike. */
  lemma {:induction false} PeelByCongruent(modules: set<string>, s1: set<string> -> set<string>, s2: set<string> -> set<string>)
    requires Shrinks(s1, modules) && Shrinks(s2, modules)
    requires forall x :: x <= modules ==> s1(x) == s2(x)
    ensures PeelBy(modules, s1) == PeelBy(modules, s2)
    decreases |modules|
  {
    if modules != {} {
      var level := s1(modules);
      RemoveNonEmpty(modules, level);
      PeelByCongruent(modules - level, s1, s2);
    }
  }

  // ---------------------------------------------------------------------
  // pigeoo/parser.py: peeling with the leveled-list test.
  // ---------------------------------------------------------------------

  /** `not any(depends(c, d, all_module_deps) for d in modules)`. */
  predicate Independent(c: string, modules: set<string>, all: AllModules) {
    forall d {:trigger DependsOn(c, d, all)} :: d in modules ==> DependsOn(c, d, all) != Ok(true)
  }

  /** The modules of the set that depend on no module of the set. */
  function Minimal(modules: set<string>, all: AllModules): (level: set<string>)
    ensures level <= modules
    ensures forall c :: c in level <==> c in modules && Independent(c, modules, all)
  {
    set c | c in modules && Independent(c, modules, all)
  }

  function MinimalStep(all: AllModules): set<string> -> set<string> {
    x => Minimal(x, all)
  }

  function DependsRel(all: AllModules): (string, string) -> bool {
    (c, d) => DependsOn(c, d, all) == Ok(true)
  }

  /** Some element of a non-empty finite set has the least measure. */
  lemma {:induction false} ArgMinExists<T>(s: set<T>, f: T -> nat)
    requires s != {}
    ensures exists c :: c in s && forall d :: d in s ==> f(c) <= f(d)
    decreases |s|
  {
    var y :| y in s;
    if s != {y} {
      ArgMinExists(s - {y}, f);
      var c :| c in s - {y} && forall d :: d in s - {y} ==> f(c) <= f(d);
      var low := if f(y) < f(c) then y else c;
      forall d | d in s
        ensures f(low) <= f(d)
      {
        if d != y {
          assert d in s - {y};
        }
      }
    } else {
      assert forall d :: d in s ==> d == y;
    }
  }

  /** A module with the fewest levels. */
  lemma ShortestExists(modules: set<string>, all: AllModules)
    requires modules != {} && modules <= all.Keys
    ensures exists c :: c in modules && forall d :: d in modules ==> |all[c]| <= |all[d]|
  {
    var f := (m: string) => if m in all then |all[m]| else 0;
    ArgMinExists(modules, f);
    var c :| c in modules && forall d :: d in modules ==> f(c) <= f(d);
    assert forall d :: d in modules ==> f(d) == |all[d]|;
  }

  /** A round always peels something off: a module with the fewest levels
      depends on nothing in the set. */
  lemma MinimalNonEmpty(modules: set<string>, all: AllModules)
    requires modules != {} && (|modules| == 1 || modules <= all.Keys)
    ensures Minimal(modules, all) != {}
  {
    if modules <= all.Keys {
      ShortestExists(modules, all);
      var c :| c in modules && forall d :: d in modules ==> |all[c]| <= |all[d]|;
      assert c in Minimal(modules, all);
    } else {
      var c :| c in modules;
      Singleton(modules, c);
      assert c in Minimal(modules, all);
    }
  }

  /** With at most one module, or every module in the map, every round
      peels something off and keeps only independent modules. */
  lemma MinimalStepShrinks(modules: set<string>, all: AllModules)
    requires |modules| <= 1 || modules <= all.Keys
    ensures Shrinks(MinimalStep(all), modules)
    ensures KeepsMinimal(MinimalStep(all), DependsRel(all), modules)
  {
    forall x | x <= modules && x != {}
      ensures Minimal(x, all) != {}
    {
      if !(modules <= all.Keys) {
        var c :| c in x;
        Singleton(modules, c);
        assert x == {c};
      }
      MinimalNonEmpty(x, all);
    }
  }

  /** `class_tree`'s peeling: with two or more modules the first round looks
      up every module, so one missing from the map is a lookup error; a
      single module never is. */
  function Peel(modules: set<string>, all: AllModules): (r: Result<seq<set<string>>>)
    ensures r.Err? <==> |modules| >= 2 && !(modules <= all.Keys)
    ensures r.Err? ==> r.error == KeyErrorAmong(modules - all.Keys)
    ensures r.Ok? ==> (|r.value| == 0 <==> modules == {})
    ensures r.Ok? && modules != {} ==> r.value[0] == Minimal(modules, all)
  {
    if |modules| >= 2 && !(modules <= all.Keys) then Err(KeyErrorAmong(modules - all.Keys))
    else
      MinimalStepShrinks(modules, all);
      Ok(PeelBy(modules, MinimalStep(all)))
  }

  /** The levels partition the modules. */
  lemma PeelPartitions(modules: set<string>, all: AllModules)
    requires Peel(modules, all).Ok?
    ensures Partitions(Peel(modules, all).value, modules)
  {
    MinimalStepShrinks(modules, all);
    PeelByPartitions(modules, MinimalStep(all));
  }

  /** A module that depends on another module of the set is on a strictly
      later level. */
  lemma PeelRespectsDependencies(modules: set<string>, all: AllModules, i: nat, j: nat, m: string, n: string)
    requires Peel(modules, all).Ok?
    requires i < |Peel(modules, all).value| && j < |Peel(modules, all).value|
    requires m in Peel(modules, all).value[i] && n in Peel(modules, all).value[j]
    requires DependsOn(m, n, all) == Ok(true)
    ensures j < i
  {
    MinimalStepShrinks(modules, all);
    PeelByOrders(modules, MinimalStep(all), DependsRel(all), i, j, m, n);
  }

  /** The output of `class_tree`: the module levels and, per level, the
      records of the class declared in that level's modules. */
  datatype ClassTree = ClassTree(modules: seq<set<string>>, classes: seq<seq<ClassRecord>>)

  /** The modules declaring some record of the list. */
  function ModulesOf(classes: seq<ClassRecord>): (ms: set<string>)
    ensures forall m :: m in ms <==> exists i :: 0 <= i < |classes| && classes[i].moduleName == m
  {
    set i | 0 <= i < |classes| :: classes[i].moduleName
  }

  /** The records of the list declared in a module of the level. */
  function InLevel(classes: seq<ClassRecord>, level: set<string>): seq<ClassRecord> {
    Filter((c: ClassRecord) => c.moduleName in level, classes)
  }

  /** `class_tree` of pigeoo/parser.py; the enrichment of the module levels
      with paths and links is left to the caller. */
  function ClassTreeOf(name: string, cs: seq<ClassRecord>, all: AllModules): (r: Result<ClassTree>)
    ensures r.Ok? ==> |r.value.modules| == |r.value.classes|
    ensures r.Err? <==> |ModulesOf(GetClass(name, cs))| >= 2 && !(ModulesOf(GetClass(name, cs)) <= all.Keys)
  {
    var classes := GetClass(name, cs);
    var levels :- Peel(ModulesOf(classes), all);
    Ok(ClassTree(levels, seq(|levels|, i requires 0 <= i < |levels| => InLevel(classes, levels[i]))))
  }

  /** The module levels partition the modules declaring the class, a module
      comes after the modules it depends on, and level i lists exactly the
      records of the class whose module is on module level i. */
  lemma ClassTreeGroupsRecords(name: string, cs: seq<ClassRecord>, all: AllModules)
    requires ClassTreeOf(name, cs, all).Ok?
    ensures var t := ClassTreeOf(name, cs, all).value;
      && Partitions(t.modules, ModulesOf(GetClass(name, cs)))
      && (forall i, k :: 0 <= i < |t.classes| && 0 <= k < |cs| ==>
            (cs[k] in t.classes[i] <==> IsClass(name, cs[k]) && cs[k].moduleName in t.modules[i]))
  {
    var classes := GetClass(name, cs);
    PeelPartitions(ModulesOf(classes), all);
    var t := ClassTreeOf(name, cs, all).value;
    forall i, k | 0 <= i < |t.classes| && 0 <= k < |cs|
      ensures cs[k] in t.classes[i] <==> IsClass(name, cs[k]) && cs[k].moduleName in t.modules[i]
    {
      assert t.classes[i] == InLevel(classes, t.modules[i]);
      if IsClass(name, cs[k]) && cs[k].moduleName in t.modules[i] {
        var j := IndexOf(classes, cs[k]);
      }
      if cs[k] in t.classes[i] {
        var j := IndexOf(t.classes[i], cs[k]);
        assert cs[k] in classes;
        var l := IndexOf(classes, cs[k]);
      }
    }
  }

  /** Every record of the class lands on some class level. */
  lemma ClassTreeRecordPlaced(name: string, cs: seq<ClassRecord>, all: AllModules, k: nat)
    requires ClassTreeOf(name, cs, all).Ok?
    requires k < |cs| && IsClass(name, cs[k])
    ensures var t := ClassTreeOf(name, cs, all).value;
      exists i :: 0 <= i < |t.classes| && cs[k] in t.classes[i]
  {
    var t := ClassTreeOf(name, cs, all).value;
    ClassTreeGroupsRecords(name, cs, all);
    var classes := GetClass(name, cs);
    assert cs[k] in classes;
    var l := IndexOf(classes, cs[k]);
    assert cs[k].moduleName in ModulesOf(classes);
    var i := LevelOf(t.modules, cs[k].moduleName);
    assert cs[k] in t.classes[i];
  }

  /** No record lands on two class levels. */
  lemma ClassTreeRecordOnce(name: string, cs: seq<ClassRecord>, all: AllModules, k: nat, i: nat, j: nat)
    requires ClassTreeOf(name, cs, all).Ok?
    requires var t := ClassTreeOf(name, cs, all).value;
      k < |cs| && i < j < |t.classes| && cs[k] in t.classes[i]
    ensures cs[k] !in ClassTreeOf(name, cs, all).value.classes[j]
  {
    var t := ClassTreeOf(name, cs, all).value;
    ClassTreeGroupsRecords(name, cs, all);
    assert t.modules[i] !! t.modules[j];
  }

  // ---------------------------------------------------------------------
  // odoodoc.py: peeling with `in_deep` on each module's tree.
  // ---------------------------------------------------------------------

  /** Every module of the set has a tree. */
  predicate AllBuild(reg: Registry, modules: set<string>)
    requires Acyclic(reg)
  {
    forall m :: m in modules ==> TreeOf(reg, m).Ok?
  }

  /** `not any(in_deep(d, module_deps[c]) for d in modules)`. */
  predicate DeepIndependent(reg: Registry, c: string, modules: set<string>)
    requires Acyclic(reg) && TreeOf(reg, c).Ok?
  {
    forall d {:trigger InDeep(d, TreeOf(reg, c).value)} :: d in modules ==> !InDeep(d, TreeOf(reg, c).value)
  }

  /** The modules of the set whose tree contains no module of the set. */
  function DeepMinimal(reg: Registry, modules: set<string>): (level: set<string>)
    requires Acyclic(reg)
    ensures level <= modules
    ensures forall c :: c in level <==> c in modules && TreeOf(reg, c).Ok? && DeepIndependent(reg, c, modules)
  {
    set c | c in modules && TreeOf(reg, c).Ok? && DeepIndependent(reg, c, modules)
  }

  function DeepStep(reg: Registry): set<string> -> set<string>
    requires Acyclic(reg)
  {
    x => DeepMinimal(reg, x)
  }

  /** The depth of a module, where it has one. */
  function DepthOr0(reg: Registry): string -> nat
    requires Acyclic(reg)
  {
    m => if ModuleDepth(reg, m).Ok? then ModuleDepth(reg, m).value else 0
  }

  /** A module of least depth. */
  lemma ShallowestExists(reg: Registry, modules: set<string>)
    requires Acyclic(reg) && AllBuild(reg, modules) && modules != {}
    ensures exists c :: c in modules && forall d :: d in modules ==> ModuleDepth(reg, c).value <= ModuleDepth(reg, d).value
  {
    var f := DepthOr0(reg);
    ArgMinExists(modules, f);
    var c :| c in modules && forall d :: d in modules ==> f(c) <= f(d);
    assert forall d :: d in modules ==> f(d) == ModuleDepth(reg, d).value;
  }

  /** A round of the older peeling always removes something: a module of
      least depth contains no module of the set in its tree. */
  lemma DeepMinimalNonEmpty(reg: Registry, modules: set<string>)
    requires Acyclic(reg) && AllBuild(reg, modules) && modules != {}
    ensures DeepMinimal(reg, modules) != {}
  {
    ShallowestExists(reg, modules);
    var c :| c in modules && forall d :: d in modules ==> ModuleDepth(reg, c).value <= ModuleDepth(reg, d).value;
    forall d | d in modules
      ensures !InDeep(d, TreeOf(reg, c).value)
    {
      if InDeep(d, TreeOf(reg, c).value) {
        var e :| e in Reachable(TreeOf(reg, c).value) && e.name == d;
        ReachableIsShallower(reg, c, e);
      }
    }
    assert c in DeepMinimal(reg, modules);
  }

  /** With every module resolvable, every round of the older peeling
      peels something off. */
  lemma DeepStepShrinks(reg: Registry, modules: set<string>)
    requires Acyclic(reg) && AllBuild(reg, modules)
    ensures Shrinks(DeepStep(reg), modules)
  {
    forall x | x <= modules && x != {}
      ensures DeepMinimal(reg, x) != {}
    {
      DeepMinimalNonEmpty(reg, x);
    }
  }

  /** `class_tree` of odoodoc.py: the module trees are built first, so a
      module that cannot be resolved is an error. */
  function ReferenceClassTree(reg: Registry, name: string, cs: seq<ClassRecord>): (r: Result<ClassTree>)
    requires Acyclic(reg)
    ensures r.Err? <==> !AllBuild(reg, ModulesOf(QueryClass(name, cs)))
    ensures r.Err? ==> r.error.ModuleNotFoundAmong? && r.error.names != {}
    ensures r.Err? ==> forall x :: x in r.error.names ==> x !in reg.manifests
  {
    var classes := QueryClass(name, cs);
    var modules := ModulesOf(classes);
    if !AllBuild(reg, modules) then
      var bad :| bad in modules && TreeOf(reg, bad).Err?;
      var names := set m | m in modules && TreeOf(reg, m).Err? :: TreeOf(reg, m).error.name;
      assert TreeOf(reg, bad).error.name in names;
      Err(ModuleNotFoundAmong(names))
    else
      DeepStepShrinks(reg, modules);
      var levels := PeelBy(modules, DeepStep(reg));
      Ok(ClassTree(levels, seq(|levels|, i requires 0 <= i < |levels| => InLevel(classes, levels[i]))))
  }

  /** On leveled lists built from the same registry, one round of the two
      peelings removes the same modules. */
  lemma MinimalMatchesReference(reg: Registry, all: AllModules, modules: set<string>)
    requires Acyclic(reg) && BuiltFrom(reg, all) && modules <= all.Keys
    ensures Minimal(modules, all) == DeepMinimal(reg, modules)
  {
    forall c | c in modules
      ensures c in Minimal(modules, all) <==> c in DeepMinimal(reg, modules)
    {
      DependsOnMatchesReference(reg, all, c, c);
      forall d | d in modules
        ensures DependsOn(c, d, all) == Ok(InDeep(d, TreeOf(reg, c).value))
      {
        DependsOnMatchesReference(reg, all, c, d);
      }
    }
  }

  /** On leveled lists built from the same registry, the two rounds agree
      on every set of remaining modules, so they peel alike. */
  lemma StepsAgree(reg: Registry, all: AllModules, modules: set<string>)
    requires Acyclic(reg) && BuiltFrom(reg, all) && modules <= all.Keys
    requires Shrinks(MinimalStep(all), modules) && Shrinks(DeepStep(reg), modules)
    ensures PeelBy(modules, MinimalStep(all)) == PeelBy(modules, DeepStep(reg))
  {
    forall x | x <= modules
      ensures MinimalStep(all)(x) == DeepStep(reg)(x)
    {
      MinimalMatchesReference(reg, all, x);
    }
    PeelByCongruent(modules, MinimalStep(all), DeepStep(reg));
  }

  /** On leveled lists built from the same registry, the two peelings give
      the same levels. */
  lemma PeelMatchesReference(reg: Registry, all: AllModules, modules: set<string>)
    requires Acyclic(reg) && BuiltFrom(reg, all) && modules <= all.Keys
    ensures AllBuild(reg, modules) && Shrinks(DeepStep(reg), modules)
    ensures Peel(modules, all) == Ok(PeelBy(modules, DeepStep(reg)))
  {
    BuiltModulesBuild(reg, all, modules);
    MinimalStepShrinks(modules, all);
    DeepStepShrinks(reg, modules);
    StepsAgree(reg, all, modules);
    PeelIsPeelBy(modules, all);
  }

  /** Every module of a built map has a tree. */
  lemma BuiltModulesBuild(reg: Registry, all: AllModules, modules: set<string>)
    requires Acyclic(reg) && BuiltFrom(reg, all) && modules <= all.Keys
    ensures AllBuild(reg, modules)
  {
    forall m | m in modules
      ensures TreeOf(reg, m).Ok?
    {
      BuiltEntry(reg, all, m);
    }
  }

  /** With every module in the map, the peeling cannot fail. */
  lemma PeelIsPeelBy(modules: set<string>, all: AllModules)
    requires modules <= all.Keys
    ensures Shrinks(MinimalStep(all), modules)
    ensures Peel(modules, all) == Ok(PeelBy(modules, MinimalStep(all)))
  {
    MinimalStepShrinks(modules, all);
  }

  /** When no record has a list-valued `_inherit` or an empty `_name`, and
      every module declaring the class has its leveled list built from the
      registry, both versions of `class_tree` agree. */
  lemma ClassTreeMatchesReference(reg: Registry, all: AllModules, name: string, cs: seq<ClassRecord>)
    requires Acyclic(reg) && BuiltFrom(reg, all) && name != ""
    requires forall i :: 0 <= i < |cs| ==>
      && ("_inherit" in cs[i].specials ==> !cs[i].specials["_inherit"].StrListValue?)
      && ("_name" in cs[i].specials ==> Truthy(cs[i].specials["_name"]))
    requires ModulesOf(GetClass(name, cs)) <= all.Keys
    ensures ClassTreeOf(name, cs, all) == ReferenceClassTree(reg, name, cs)
  {
    GetClassMatchesQueryClass(name, cs);
    PeelMatchesReference(reg, all, ModulesOf(GetClass(name, cs)));
  }
}

=== FILE: links.dfy ===
/** `git_to_https` of pigeoo/parser.py: an SSH remote such as
    `git@github.com:odoo/odoo.git` rewritten as the web address
    `https://github.com/odoo/odoo`. */
module Links {
  import opened Text

  predicate StartsWith(s: string, prefix: string) {
    |prefix| <= |s| && s[..|prefix|] == prefix
  }

  /** Every `:` becomes `/`, then every `git@` becomes `https://`, then the
      last four characters are dropped; a remote not starting with `git@` is
      returned unchanged. */
  function GitToHttps(repository: string): (r: string)
    ensures !StartsWith(repository, "git@") ==> r == repository
  {
    if StartsWith(repository, "git@") then
      DropLast(Replace(Replace(repository, ":", "/"), "git@", "https://"), 4)
    else repository
  }

  /** A string without `:` keeps its characters under the first replacement. */
  lemma NoColonUnchanged(s: string)
    requires ':' !in s
    ensures Replace(s, ":", "/") == s
  {
    forall i
      ensures !OccursAt(":", s, i)
    {
      if 0 <= i && i + 1 <= |s| {
        assert s[i..i + 1][0] == s[i];
      }
    }
    ReplaceAbsent(s, ":", "/");
  }

  /** Replacing the one `:` of `a + ":" + b`. */
  lemma ReplaceColon(a: string, b: string)
    requires ':' !in a && ':' !in b
    ensures Replace(a + ":" + b, ":", "/") == a + "/" + b
    decreases |a|
  {
    if |a| == 0 {
      assert a + ":" + b == ":" + b;
      ReplaceFront(b, ":", "/");
      NoColonUnchanged(b);
    } else {
      var s := a + ":" + b;
      var t := a[1..] + ":" + b;
      assert s == [a[0]] + t;
      assert a[0] in a;
      assert s[..1] != ":" by {
        assert s[..1][0] == a[0];
      }
      ReplaceSkip(s, ":", "/");
      assert s[1..] == t;
      assert ':' !in a[1..] by {
        assert forall x :: x in a[1..] ==> x in a;
      }
      ReplaceColon(a[1..], b);
      assert a + "/" + b == [a[0]] + (a[1..] + "/" + b);
    }
  }

  /** `git@` cannot straddle a `/`, nor end inside `.git`. */
  lemma NoRemotePrefix(h: string, p: string)
    requires !Occurs("git@", h) && !Occurs("git@", p)
    ensures !Occurs("git@", h + "/" + p + ".git")
  {
    var s := h + "/" + p + ".git";
    forall i
      ensures !OccursAt("git@", s, i)
    {
      if 0 <= i && i + 4 <= |s| {
        var w := s[i..i + 4];
        assert forall k :: 0 <= k < 4 ==> w[k] == s[i + k];
        if i + 3 < |h| {
          assert w == h[i..i + 4];
          assert !OccursAt("git@", h, i);
        } else if i <= |h| {
          assert w[|h| - i] == '/';
        } else if i + 3 < |h| + 1 + |p| {
          var j := i - |h| - 1;
          assert w == p[j..j + 4];
          assert !OccursAt("git@", p, j);
        } else {
          assert w[3] != '@';
        }
      }
    }
  }

  /** An SSH remote `git@H:P.git` with `H` and `P` free of `:` and `git@`
      becomes `https://H/P`. */
  lemma GitToHttpsOfRemote(h: string, p: string)
    requires ':' !in h && ':' !in p
    requires !Occurs("git@", h) && !Occurs("git@", p)
    ensures GitToHttps("git@" + h + ":" + p + ".git") == "https://" + h + "/" + p
  {
    var user := "git@" + h;
    var rest := p + ".git";
    var remote := user + ":" + rest;
    var t := h + "/" + p + ".git";
    assert remote == "git@" + h + ":" + p + ".git";
    assert StartsWith(remote, "git@") by {
      assert remote[..4] == "git@";
    }
    assert Replace(remote, ":", "/") == "git@" + t by {
      assert ':' !in user by {
        assert forall k :: 0 <= k < |user| ==> user[k] == if k < 4 then "git@"[k] else h[k - 4];
      }
      assert ':' !in rest by {
        assert forall k :: 0 <= k < |rest| ==> rest[k] == if k < |p| then p[k] else ".git"[k - |p|];
      }
      ReplaceColon(user, rest);
      assert user + "/" + rest == "git@" + t;
    }
    var replaced := "https://" + t;
    assert Replace("git@" + t, "git@", "https://") == replaced by {
      ReplaceFront(t, "git@", "https://");
      NoRemotePrefix(h, p);
      ReplaceAbsent(t, "git@", "https://");
    }
    assert DropLast(replaced, 4) == "https://" + h + "/" + p by {
      assert replaced[..|replaced| - 4] == "https://" + h + "/" + p;
    }
  }
}

=== FILE: lists.dfy ===
/** Order-preserving de-duplication of a list (`deduplicate` in main.py, and
    the "append if absent" step of the depth sweep), with the facts that pin
    its result down: no repeats, same elements, first-occurrence order. */
module Lists {

  predicate NoDuplicates<T(==)>(s: seq<T>) {
    forall i, j :: 0 <= i < j < |s| ==> s[i] != s[j]
  }

  /** Position of the first occurrence of `x` in `s`. */
  function IndexOf<T(==)>(s: seq<T>, x: T): (i: nat)
    requires x in s
    ensures i < |s| && s[i] == x && x !in s[..i]
  {
    if s[0] == x then 0 else 1 + IndexOf(s[1..], x)
  }

  /** Scans `s` left to right and appends every element not yet in the output. */
  function Deduplicate<T(==)>(s: seq<T>): (r: seq<T>)
    ensures NoDuplicates(r)
    ensures forall i :: 0 <= i < |r| ==> r[i] in s
    ensures forall i :: 0 <= i < |s| ==> s[i] in r
    ensures |r| <= |s|
  {
    if |s| == 0 then []
    else
      var d := Deduplicate(s[..|s| - 1]);
      if s[|s| - 1] in d then d else d + [s[|s| - 1]]
  }

  lemma IndexOfPrefix<T>(s: seq<T>, n: nat, x: T)
    requires n <= |s| && x in s[..n]
    ensures IndexOf(s, x) == IndexOf(s[..n], x)
  {
    var j := IndexOf(s[..n], x);
    assert s[..n][j] == x && s[..j] == s[..n][..j];
  }

  /** The output lists the distinct elements in the order of their first
      occurrence in the input. */
  lemma {:induction false} DeduplicateKeepsFirstOccurrenceOrder<T>(s: seq<T>)
    ensures forall i, j :: 0 <= i < j < |Deduplicate(s)| ==>
              IndexOf(s, Deduplicate(s)[i]) < IndexOf(s, Deduplicate(s)[j])
  {
    if |s| > 0 {
      var p := s[..|s| - 1];
      var d := Deduplicate(p);
      DeduplicateKeepsFirstOccurrenceOrder(p);
      forall x | x in d
        ensures IndexOf(s, x) == IndexOf(p, x) < |s| - 1
      {
        IndexOfPrefix(s, |s| - 1, x);
      }
      var last := s[|s| - 1];
      if last !in d {
        var r := d + [last];
        assert last !in p;
        assert IndexOf(s, last) == |s| - 1;
        forall i, j | 0 <= i < j < |r|
          ensures IndexOf(s, r[i]) < IndexOf(s, r[j])
        {
          assert r[i] == d[i] && d[i] in d;
          if j < |d| {
            assert r[j] == d[j] && d[j] in d;
            assert IndexOf(p, d[i]) < IndexOf(p, d[j]);
          } else {
            assert r[j] == last;
          }
        }
      }
    }
  }

  /** A list without repeats is its own de-duplication. */
  lemma {:induction false} DeduplicateOfDistinct<T>(s: seq<T>)
    requires NoDuplicates(s)
    ensures Deduplicate(s) == s
  {
    if |s| > 0 {
      var p := s[..|s| - 1];
      assert NoDuplicates(p);
      DeduplicateOfDistinct(p);
      assert s[|s| - 1] !in p;
      assert p + [s[|s| - 1]] == s;
    }
  }

  /** De-duplicating twice gives the same list as de-duplicating once. */
  lemma DeduplicateIdempotent<T>(s: seq<T>)
    ensures Deduplicate(Deduplicate(s)) == Deduplicate(s)
  {
    DeduplicateOfDistinct(Deduplicate(s));
  }

  /** Concatenation of a list of lists. */
  function Flatten<T>(ss: seq<seq<T>>): seq<T> {
    if |ss| == 0 then [] else ss[0] + Flatten(ss[1..])
  }

  lemma {:induction false} FlattenAppend<T>(a: seq<seq<T>>, b: seq<seq<T>>)
    ensures Flatten(a + b) == Flatten(a) + Flatten(b)
  {
    if |a| > 0 {
      assert (a + b)[1..] == a[1..] + b;
      FlattenAppend(a[1..], b);
    } else {
      assert a + b == b;
    }
  }

  /** The elements satisfying `p`, in their original order (a list
      comprehension with a condition). */
  function Filter<T(==)>(p: T -> bool, s: seq<T>): (r: seq<T>)
    ensures forall i :: 0 <= i < |r| ==> p(r[i]) && r[i] in s
    ensures forall i :: 0 <= i < |s| && p(s[i]) ==> s[i] in r
    ensures |r| <= |s|
  {
    if |s| == 0 then []
    else (if p(s[0]) then [s[0]] else []) + Filter(p, s[1..])
  }

  /** Filtering a concatenation filters each part, so the relative order of
      the kept elements is the input order. */
  lemma {:induction false} FilterAppend<T>(p: T -> bool, a: seq<T>, b: seq<T>)
    ensures Filter(p, a + b) == Filter(p, a) + Filter(p, b)
  {
    if |a| > 0 {
      assert (a + b)[1..] == a[1..] + b;
      FilterAppend(p, a[1..], b);
    } else {
      assert a + b == b;
    }
  }

  lemma {:induction false} FilterIdempotent<T>(p: T -> bool, s: seq<T>)
    ensures Filter(p, Filter(p, s)) == Filter(p, s)
  {
    if |s| > 0 {
      FilterIdempotent(p, s[1..]);
      var head := if p(s[0]) then [s[0]] else [];
      FilterAppend(p, head, Filter(p, s[1..]));
      if p(s[0]) {
        assert Filter(p, head) == head by {
          assert head[1..] == [];
        }
      }
    }
  }

  /** Two conditions that agree on every element keep the same elements. */
  lemma {:induction false} FilterCongruent<T>(p: T -> bool, q: T -> bool, s: seq<T>)
    requires forall i :: 0 <= i < |s| ==> p(s[i]) == q(s[i])
    ensures Filter(p, s) == Filter(q, s)
  {
    if |s| > 0 {
      assert forall i :: 0 <= i < |s[1..]| ==> s[1..][i] == s[i + 1];
      FilterCongruent(p, q, s[1..]);
    }
  }

  /** A dictionary built from key-value pairs in order (a dict comprehension
      or `dict.update`): a later pair overwrites an earlier one. */
  function ToMap<V>(pairs: seq<(string, V)>): (m: map<string, V>)
    ensures forall k :: k in m <==> exists i :: 0 <= i < |pairs| && pairs[i].0 == k
  {
    if |pairs| == 0 then map[]
    else ToMap(pairs[..|pairs| - 1])[pairs[|pairs| - 1].0 := pairs[|pairs| - 1].1]
  }

  /** The value stored under a key is the one of the last pair with that key. */
  lemma {:induction false} ToMapLastWins<V>(pairs: seq<(string, V)>, i: nat)
    requires i < |pairs|
    requires forall j :: i < j < |pairs| ==> pairs[j].0 != pairs[i].0
    ensures pairs[i].0 in ToMap(pairs) && ToMap(pairs)[pairs[i].0] == pairs[i].1
  {
    if i < |pairs| - 1 {
      var p := pairs[..|pairs| - 1];
      assert p[i] == pairs[i];
      forall j | i < j < |p|
        ensures p[j].0 != p[i].0
      {
        assert p[j] == pairs[j];
      }
      ToMapLastWins(p, i);
    }
  }

  /** The lists `f` gives for each element, concatenated in order (a loop
      that appends one or more items per element). */
  function ConcatMap<A, B>(f: A -> seq<B>, xs: seq<A>): seq<B> {
    if |xs| == 0 then [] else ConcatMap(f, xs[..|xs| - 1]) + f(xs[|xs| - 1])
  }

  lemma {:induction false} ConcatMapAppend<A, B>(f: A -> seq<B>, xs: seq<A>, ys: seq<A>)
    ensures ConcatMap(f, xs + ys) == ConcatMap(f, xs) + ConcatMap(f, ys)
    decreases |ys|
  {
    if |ys| == 0 {
      assert xs + ys == xs;
    } else {
      var n := |ys| - 1;
      assert (xs + ys)[..|xs| + n] == xs + ys[..n];
      assert (xs + ys)[|xs| + n] == ys[n];
      ConcatMapAppend(f, xs, ys[..n]);
    }
  }

  /** The output holds exactly the items of the per-element lists. */
  lemma {:induction false} ConcatMapMembers<A, B>(f: A -> seq<B>, xs: seq<A>)
    ensures forall i, y :: 0 <= i < |xs| && y in f(xs[i]) ==> y in ConcatMap(f, xs)
    ensures forall y :: y in ConcatMap(f, xs) ==> exists i :: 0 <= i < |xs| && y in f(xs[i])
  {
    if |xs| > 0 {
      var n := |xs| - 1;
      var init := xs[..n];
      ConcatMapMembers(f, init);
      assert ConcatMap(f, xs) == ConcatMap(f, init) + f(xs[n]);
      forall i, y | 0 <= i < |xs| && y in f(xs[i])
        ensures y in ConcatMap(f, xs)
      {
        if i < n {
          assert init[i] == xs[i];
        }
      }
      forall y | y in ConcatMap(f, xs)
        ensures exists i :: 0 <= i < |xs| && y in f(xs[i])
      {
        if y in ConcatMap(f, init) {
          var i :| 0 <= i < |init| && y in f(init[i]);
          assert init[i] == xs[i];
        }
      }
    }
  }
}

=== FILE: memo.dfy ===
/** `memoize_first` of pigeoo/parser.py: a cache keyed on the first argument
    only. The decorated function's cache is a process-wide dictionary; here
    it is an explicit map threaded through a sequence of calls. */
module Memo {

  /** One call of the decorated function: compute and store on a miss,
      otherwise return what is stored, whatever the other arguments are. */
  function Call<X(==), A, Y>(f: (X, A) -> Y, memo: map<X, Y>, x: X, a: A): (out: (Y, map<X, Y>))
    ensures x in out.1 && out.0 == out.1[x]
    ensures out.1.Keys == memo.Keys + {x}
    ensures forall k :: k in memo ==> out.1[k] == memo[k]
  {
    if x in memo then (memo[x], memo) else (f(x, a), memo[x := f(x, a)])
  }

  /** The results of a sequence of calls starting from an empty cache, and
      the cache they leave behind. */
  function Run<X(==), A, Y>(f: (X, A) -> Y, calls: seq<(X, A)>): (out: (seq<Y>, map<X, Y>))
    ensures |out.0| == |calls|
    ensures forall i :: 0 <= i < |calls| ==> calls[i].0 in out.1 && out.0[i] == out.1[calls[i].0]
  {
    if |calls| == 0 then ([], map[])
    else
      var prev := Run(f, calls[..|calls| - 1]);
      var last := Call(f, prev.1, calls[|calls| - 1].0, calls[|calls| - 1].1);
      assert forall i :: 0 <= i < |calls| - 1 ==> calls[i] == calls[..|calls| - 1][i];
      (prev.0 + [last.0], last.1)
  }

  /** Some call has first argument `x`. */
  predicate Seen<X(==), A>(calls: seq<(X, A)>, x: X) {
    exists j :: 0 <= j < |calls| && calls[j].0 == x
  }

  lemma SeenAppend<X, A>(calls: seq<(X, A)>, x: X)
    requires |calls| > 0
    ensures Seen(calls, x) <==> Seen(calls[..|calls| - 1], x) || calls[|calls| - 1].0 == x
  {
    var n := |calls| - 1;
    if Seen(calls, x) && calls[n].0 != x {
      var j :| 0 <= j < |calls| && calls[j].0 == x;
      assert calls[..n][j] == calls[j];
    }
    if Seen(calls[..n], x) {
      var j :| 0 <= j < n && calls[..n][j].0 == x;
      assert calls[j] == calls[..n][j];
    }
  }

  /** Position of the first call whose first argument is `x`. */
  function FirstCall<X(==), A>(calls: seq<(X, A)>, x: X): (i: nat)
    requires Seen(calls, x)
    ensures i < |calls| && calls[i].0 == x
    ensures forall j :: 0 <= j < i ==> calls[j].0 != x
  {
    if calls[0].0 == x then 0
    else
      assert Seen(calls[1..], x) by {
        var j :| 0 <= j < |calls| && calls[j].0 == x;
        assert calls[1..][j - 1] == calls[j];
      }
      1 + FirstCall(calls[1..], x)
  }

  /** The result of the first call with a given first argument. */
  function FirstResult<X(==), A, Y>(f: (X, A) -> Y, calls: seq<(X, A)>, x: X): Y
    requires Seen(calls, x)
  {
    var c := calls[FirstCall(calls, x)];
    f(c.0, c.1)
  }

  /** Later calls do not change which call came first. */
  lemma FirstResultOfPrefix<X, A, Y>(f: (X, A) -> Y, calls: seq<(X, A)>, x: X)
    requires |calls| > 0 && Seen(calls[..|calls| - 1], x)
    ensures Seen(calls, x) && FirstResult(f, calls[..|calls| - 1], x) == FirstResult(f, calls, x)
  {
    var n := |calls| - 1;
    SeenAppend(calls, x);
    var i := FirstCall(calls[..n], x);
    assert calls[..n][i] == calls[i];
    forall k | 0 <= k < i
      ensures calls[k].0 != x
    {
      assert calls[..n][k] == calls[k];
    }
    assert FirstCall(calls, x) == i;
  }

  /** After any sequence of calls the cache holds exactly the first
      arguments seen, each with the result of its first call. */
  lemma {:induction false} RunCache<X, A, Y>(f: (X, A) -> Y, calls: seq<(X, A)>)
    ensures forall x :: x in Run(f, calls).1 <==> Seen(calls, x)
    ensures forall x :: x in Run(f, calls).1 ==> Run(f, calls).1[x] == FirstResult(f, calls, x)
  {
    if |calls| > 0 {
      var n := |calls| - 1;
      var init := calls[..n];
      RunCache(f, init);
      var prev := Run(f, init).1;
      var c := calls[n];
      var out := Run(f, calls).1;
      forall x
        ensures x in out <==> Seen(calls, x)
      {
        SeenAppend(calls, x);
      }
      forall x | x in out
        ensures out[x] == FirstResult(f, calls, x)
      {
        SeenAppend(calls, x);
        if x in prev {
          FirstResultOfPrefix(f, calls, x);
        } else {
          assert x == c.0;
          assert FirstCall(calls, x) == n;
        }
      }
    }
  }

  /** Every call returns the result of the first call with its first
      argument. */
  lemma {:induction false} RunFirstWins<X, A, Y>(f: (X, A) -> Y, calls: seq<(X, A)>)
    ensures forall i :: 0 <= i < |calls| ==> Seen(calls, calls[i].0) && Run(f, calls).0[i] == FirstResult(f, calls, calls[i].0)
  {
    if |calls| > 0 {
      var n := |calls| - 1;
      var init := calls[..n];
      RunFirstWins(f, init);
      RunCache(f, calls);
      var out := Run(f, calls);
      forall i | 0 <= i < |calls|
        ensures Seen(calls, calls[i].0) && out.0[i] == FirstResult(f, calls, calls[i].0)
      {
        if i < n {
          assert out.0[i] == Run(f, init).0[i] && init[i] == calls[i];
          FirstResultOfPrefix(f, calls, calls[i].0);
        } else {
          SeenAppend(calls, calls[i].0);
        }
      }
    }
  }

  /** Two calls with the same first argument return the same result,
      whatever their other arguments. */
  lemma LaterCallsAgree<X, A, Y>(f: (X, A) -> Y, calls: seq<(X, A)>, i: nat, j: nat)
    requires i < j < |calls| && calls[i].0 == calls[j].0
    ensures Run(f, calls).0[j] == Run(f, calls).0[i]
  {
    RunFirstWins(f, calls);
    assert Run(f, calls).0[i] == FirstResult(f, calls, calls[i].0);
    assert Run(f, calls).0[j] == FirstResult(f, calls, calls[j].0);
  }

  /** When the function ignores its other arguments, as the decorated
      dependency tree and depth do once the search paths are fixed, the
      cache changes no result. */
  lemma MemoTransparent<X, A, Y>(f: (X, A) -> Y, calls: seq<(X, A)>)
    requires forall x, a, b :: f(x, a) == f(x, b)
    ensures forall i :: 0 <= i < |calls| ==> Run(f, calls).0[i] == f(calls[i].0, calls[i].1)
  {
    RunFirstWins(f, calls);
    forall i | 0 <= i < |calls|
      ensures Run(f, calls).0[i] == f(calls[i].0, calls[i].1)
    {
      assert Run(f, calls).0[i] == FirstResult(f, calls, calls[i].0);
      var k := FirstCall(calls, calls[i].0);
      assert f(calls[k].0, calls[k].1) == f(calls[i].0, calls[k].1);
    }
  }
}

=== FILE: paths.dfy ===
/** The path helpers of main.py: expanding an Odoo source root into its two
    addons directories, and the default name of the output directory. */
module Paths {
  import opened Lists
  import opened Text

  /** The last component of `p`, once trailing separators are stripped, is
      `odoo`. */
  predicate IsOdooRoot(p: string) {
    Tail(StripTrailing(p, '/')) == "odoo"
  }

  /** `odoo` sits at position i of `p` as a whole component followed only
      by separators. */
  predicate OdooAt(p: string, i: int) {
    && 0 <= i && i + 4 <= |p|
    && (i == 0 || p[i - 1] == '/')
    && p[i..i + 4] == "odoo"
    && forall k :: i + 4 <= k < |p| ==> p[k] == '/'
  }

  /** The root test in terms of the path's characters: `odoo` is a whole
      component followed by nothing but separators. */
  lemma IsOdooRootShape(p: string)
    ensures IsOdooRoot(p) <==> exists i :: OdooAt(p, i)
  {
    var r := StripTrailing(p, '/');
    var j := TailStart(r);
    if IsOdooRoot(p) {
      assert |r| == j + 4;
      assert p[j..j + 4] == r[j..];
      assert OdooAt(p, j);
    }
    if exists i :: OdooAt(p, i) {
      var i :| OdooAt(p, i);
      assert p[i + 3] != '/';
      assert |r| > 0 ==> p[|r| - 1] == r[|r| - 1];
      assert |r| == i + 4;
      assert r == p[..i + 4];
      assert forall k :: i <= k < i + 4 ==> r[k] == p[i..i + 4][k - i] != '/';
      assert i > 0 ==> r[i - 1] == '/';
      assert j == i;
      assert r[j..] == p[i..i + 4];
    }
  }

  /** A path ending in `s/` is not a root. */
  lemma NotRootEndingS(q: string)
    requires |q| >= 2 && q[|q| - 2] == 's' && q[|q| - 1] == '/'
    ensures !IsOdooRoot(q)
  {
    var r := StripTrailing(q, '/');
    assert r == q[..|q| - 1] by {
      assert StripTrailing(q[..|q| - 1], '/') == q[..|q| - 1];
    }
    var t := Tail(r);
    if |t| == 4 {
      assert t[3] == r[|r| - 1] == 's';
    }
  }

  /** One path of `normalize_paths`: a source root becomes its `addons/`
      and `odoo/addons/` directories, in that order; any other path is kept. */
  function NormalizePath(p: string): (r: seq<string>)
    ensures IsOdooRoot(p) ==> |r| == 2 && |r[0]| > |p| && |r[1]| > |p| && r[0][..|p|] == p && r[1][..|p|] == p
    ensures IsOdooRoot(p) ==> !IsOdooRoot(r[0]) && !IsOdooRoot(r[1])
    ensures !IsOdooRoot(p) ==> r == [p]
  {
    if IsOdooRoot(p) then
      var a := JoinPath(p, "addons/");
      var b := JoinPath(p, "odoo/addons/");
      NotRootEndingS(a);
      NotRootEndingS(b);
      [a, b]
    else [p]
  }

  /** The two directories of a root end in `addons/` and `odoo/addons/`. */
  lemma NormalizePathDirs(p: string)
    requires IsOdooRoot(p)
    ensures var r := NormalizePath(p);
      && |r[0]| >= |p| + 7 && r[0][|r[0]| - 7..] == "addons/"
      && |r[1]| >= |p| + 12 && r[1][|r[1]| - 12..] == "odoo/addons/"
  {
  }

  /** `normalize_paths` without `expanduser`: every path that is not a root
      is kept, every root is replaced, and no root is left in the output. */
  function NormalizePaths(ps: seq<string>): (r: seq<string>)
    ensures forall p :: p in ps && !IsOdooRoot(p) ==> p in r
    ensures forall i :: 0 <= i < |r| ==> !IsOdooRoot(r[i])
  {
    var r := ConcatMap(NormalizePath, ps);
    ConcatMapMembers(NormalizePath, ps);
    assert forall p :: p in ps && !IsOdooRoot(p) ==> p in r by {
      forall p | p in ps && !IsOdooRoot(p)
        ensures p in r
      {
        var i :| 0 <= i < |ps| && ps[i] == p;
        NormalizePathItems(p);
      }
    }
    assert forall i :: 0 <= i < |r| ==> !IsOdooRoot(r[i]) by {
      forall i | 0 <= i < |r|
        ensures !IsOdooRoot(r[i])
      {
        var y := r[i];
        assert y in r;
        var j :| 0 <= j < |ps| && y in NormalizePath(ps[j]);
        NormalizePathItems(ps[j]);
      }
    }
    r
  }

  lemma NormalizePathItems(p: string)
    ensures !IsOdooRoot(p) ==> p in NormalizePath(p)
    ensures forall y :: y in NormalizePath(p) ==> !IsOdooRoot(y)
  {
  }

  /** Paths are normalized one after the other, so the output keeps the
      input order. */
  lemma NormalizePathsAppend(ps: seq<string>, qs: seq<string>)
    ensures NormalizePaths(ps + qs) == NormalizePaths(ps) + NormalizePaths(qs)
  {
    ConcatMapAppend(NormalizePath, ps, qs);
  }

  /** Without source roots the list is unchanged; in particular normalizing
      twice is normalizing once. */
  lemma {:induction false} NormalizePathsKeepsNonRoots(ps: seq<string>)
    requires forall i :: 0 <= i < |ps| ==> !IsOdooRoot(ps[i])
    ensures NormalizePaths(ps) == ps
  {
    if |ps| > 0 {
      NormalizePathsKeepsNonRoots(ps[..|ps| - 1]);
      assert ps[..|ps| - 1] + [ps[|ps| - 1]] == ps;
    }
  }

  lemma NormalizePathsIdempotent(ps: seq<string>)
    ensures NormalizePaths(NormalizePaths(ps)) == NormalizePaths(ps)
  {
    NormalizePathsKeepsNonRoots(NormalizePaths(ps));
  }

  /** `h[:8]`. */
  function ShortHash(h: string): (r: string)
    ensures |r| == if |h| < 8 then |h| else 8
    ensures r == h[..|r|]
  {
    if |h| < 8 then h else h[..8]
  }

  /** `deduplicate(h[:8] for h in hashes)`. */
  function ShortHashes(hashes: seq<string>): (r: seq<string>)
    ensures NoDuplicates(r)
    ensures forall i :: 0 <= i < |r| ==> |r[i]| <= 8 && exists h :: h in hashes && r[i] == ShortHash(h)
    ensures forall h :: h in hashes ==> ShortHash(h) in r
  {
    var shorts := seq(|hashes|, i requires 0 <= i < |hashes| => ShortHash(hashes[i]));
    assert forall h :: h in hashes ==> ShortHash(h) in shorts by {
      forall h | h in hashes
        ensures ShortHash(h) in shorts
      {
        var i :| 0 <= i < |hashes| && hashes[i] == h;
        assert shorts[i] == ShortHash(h);
      }
    }
    Deduplicate(shorts)
  }

  /** `default_output_path`: `odoo`, the joined versions and the joined
      short hashes, joined by underscores. */
  function DefaultOutputPath(versions: seq<string>, hashes: seq<string>): (r: string)
    ensures |r| >= 5 && r[..5] == "odoo_"
  {
    JoinWith('_', ["odoo", JoinWith('_', versions), JoinWith('_', ShortHashes(hashes))])
  }

  /** When no version or hash holds an underscore, splitting the default
      output path at underscores gives back `odoo`, the versions and the
      distinct short hashes; an empty list of versions or hashes joins to
      the empty string and comes back as one empty piece. */
  lemma DefaultOutputPathSplits(versions: seq<string>, hashes: seq<string>)
    requires forall i :: 0 <= i < |versions| ==> '_' !in versions[i]
    requires forall i :: 0 <= i < |hashes| ==> '_' !in hashes[i]
    ensures Split(DefaultOutputPath(versions, hashes), '_') == ["odoo"] + Pieces(versions) + Pieces(ShortHashes(hashes))
    ensures |versions| > 0 && |hashes| > 0 ==>
      Split(DefaultOutputPath(versions, hashes), '_') == ["odoo"] + versions + ShortHashes(hashes)
  {
    ShortHashesFreeOf(hashes, '_');
    SplitJoinNested("odoo", versions, ShortHashes(hashes), '_');
  }

  /** A character no hash holds is in no short hash. */
  lemma ShortHashesFreeOf(hashes: seq<string>, c: char)
    requires forall i :: 0 <= i < |hashes| ==> c !in hashes[i]
    ensures |hashes| > 0 ==> |ShortHashes(hashes)| > 0
    ensures forall i :: 0 <= i < |ShortHashes(hashes)| ==> c !in ShortHashes(hashes)[i]
  {
    var shorts := ShortHashes(hashes);
    if |hashes| > 0 {
      assert hashes[0] in hashes;
    }
    forall i | 0 <= i < |shorts|
      ensures c !in shorts[i]
    {
      var h :| h in hashes && shorts[i] == ShortHash(h);
      assert forall x :: x in shorts[i] ==> x in h;
    }
  }
}

=== FILE: query.dfy ===
/** src/query.py: the logical class a record belongs to, the records of one
    logical class, the fast "m depends on n" test over leveled lists, and the
    per-class index of fields or methods. The older `query_class` of
    odoodoc.py is kept beside `get_class` as its reference. */
module Query {
  import opened Wrappers
  import opened Lists
  import opened DepTrees
  import opened Registry
  import opened Levels
  import opened Records

  /** Leveled dependency lists by module name (`all_module_deps`). */
  type AllModules = map<string, Leveled>

  // ---------------------------------------------------------------------
  // Logical class identity.
  // ---------------------------------------------------------------------

  /** `get_class_name`: the record's own `_name` when it is truthy; else the
      first parent when `_inherit` is a non-empty list; else `_inherit` as it
      is, or nothing when it is absent. */
  function ClassName(c: ClassRecord): (r: Option<Value>)
    ensures "_name" in c.specials && Truthy(c.specials["_name"]) ==> r == Some(c.specials["_name"])
    ensures r.None? <==> (("_name" !in c.specials || !Truthy(c.specials["_name"])) && "_inherit" !in c.specials)
    ensures r.Some? && ("_name" !in c.specials || !Truthy(c.specials["_name"])) ==>
              "_inherit" in c.specials &&
              (var parent := c.specials["_inherit"];
               if parent.StrListValue? && |parent.items| > 0 then r.value == StrValue(parent.items[0])
               else r.value == parent)
  {
    if "_name" in c.specials && Truthy(c.specials["_name"]) then Some(c.specials["_name"])
    else if "_inherit" in c.specials then
      var parent := c.specials["_inherit"];
      if Truthy(parent) && parent.StrListValue? then Some(StrValue(parent.items[0])) else Some(parent)
    else None
  }

  predicate IsClass(name: string, c: ClassRecord) {
    ClassName(c) == Some(StrValue(name))
  }

  /** `get_class`: the records of the logical class `name`, in input order. */
  function GetClass(name: string, cs: seq<ClassRecord>): (r: seq<ClassRecord>)
    ensures forall i :: 0 <= i < |r| ==> IsClass(name, r[i]) && r[i] in cs
    ensures forall i :: 0 <= i < |cs| && IsClass(name, cs[i]) ==> cs[i] in r
  {
    Filter(c => IsClass(name, c), cs)
  }

  /** Selecting a logical class twice selects the same records. */
  lemma GetClassIdempotent(name: string, cs: seq<ClassRecord>)
    ensures GetClass(name, GetClass(name, cs)) == GetClass(name, cs)
  {
    FilterIdempotent(c => IsClass(name, c), cs);
  }

  /** Selection distributes over concatenation: the records keep their
      relative order. */
  lemma GetClassAppend(name: string, a: seq<ClassRecord>, b: seq<ClassRecord>)
    ensures GetClass(name, a + b) == GetClass(name, a) + GetClass(name, b)
  {
    FilterAppend(c => IsClass(name, c), a, b);
  }

  /** `is_name` of odoodoc.py's `query_class`: the record's `_name` equals
      the name, or it has no `_name` and its `_inherit` equals the name. */
  predicate QuerySelects(name: string, c: ClassRecord) {
    || ("_name" in c.specials && c.specials["_name"] == StrValue(name))
    || ("_name" !in c.specials && "_inherit" in c.specials && c.specials["_inherit"] == StrValue(name))
  }

  /** `query_class` of odoodoc.py: the records it selects, in input order. */
  function QueryClass(name: string, cs: seq<ClassRecord>): (r: seq<ClassRecord>)
    ensures forall i :: 0 <= i < |r| ==> QuerySelects(name, r[i]) && r[i] in cs
    ensures forall i :: 0 <= i < |cs| && QuerySelects(name, cs[i]) ==> cs[i] in r
  {
    Filter(c => QuerySelects(name, c), cs)
  }

  /** Every record the older query selects for a non-empty name is selected
      by `get_class` too. */
  lemma QueryClassSelectsFewer(name: string, c: ClassRecord)
    requires name != "" && QuerySelects(name, c)
    ensures IsClass(name, c)
  {
  }

  /** The two selections differ only on records with a list-valued
      `_inherit` or an empty `_name`. */
  lemma GetClassMatchesQueryClass(name: string, cs: seq<ClassRecord>)
    requires name != ""
    requires forall i :: 0 <= i < |cs| ==>
      && ("_inherit" in cs[i].specials ==> !cs[i].specials["_inherit"].StrListValue?)
      && ("_name" in cs[i].specials ==> Truthy(cs[i].specials["_name"]))
    ensures GetClass(name, cs) == QueryClass(name, cs)
  {
    FilterCongruent(c => IsClass(name, c), c => QuerySelects(name, c), cs);
  }

  // ---------------------------------------------------------------------
  // Module dependency queries over leveled lists.
  // ---------------------------------------------------------------------

  /** `module_m_depends_on_n`: false for m == n; otherwise looks up n's
      leveled list, then m's, and checks only level `len(all[n])` of m's
      list for n. A missing key is a lookup error. */
  function DependsOn(m: string, n: string, all: AllModules): (r: Result<bool>)
    ensures m == n ==> r == Ok(false)
    ensures m != n && n !in all ==> r == Err(KeyError(n))
    ensures m != n && n in all && m !in all ==> r == Err(KeyError(m))
    ensures m != n && n in all && m in all ==> r.Ok?
    ensures r == Ok(true) ==> m in all && n in all && |all[m]| > |all[n]|
    ensures r == Ok(true) ==> n in all[m][|all[n]|]
    ensures m in all && n in all && |all[m]| <= |all[n]| ==> r == Ok(false)
  {
    if m == n then Ok(false)
    else if n !in all then Err(KeyError(n))
    else
      var k := |all[n]|;
      if m !in all then Err(KeyError(m))
      else if |all[m]| > k then Ok(n in all[m][k])
      else Ok(false)
  }

  /** The relation is antisymmetric on every map, leveled by
      `invert_dependencies` or not. */
  lemma DependsOnAntisymmetric(m: string, n: string, all: AllModules)
    requires DependsOn(m, n, all) == Ok(true)
    ensures DependsOn(n, m, all) == Ok(false)
  {
  }

  /** Every entry of the map is the leveled list `invert_dependencies`
      computes for that module. */
  predicate BuiltFrom(reg: Registry, all: AllModules)
    requires Acyclic(reg)
  {
    forall x :: x in all ==> ModuleLevels(reg, x) == Ok(all[x])
  }

  /** A module's leveled list has as many levels as its depth. */
  lemma LevelsLength(reg: Registry, x: string)
    requires Acyclic(reg) && ModuleLevels(reg, x).Ok?
    ensures ModuleDepth(reg, x).Ok?
    ensures |ModuleLevels(reg, x).value| == ModuleDepth(reg, x).value
  {
    var tree := TreeOf(reg, x).value;
  }

  /** n occurs on some level of a leveled list. */
  predicate InSomeLevel(n: string, levels: Leveled) {
    exists i :: 0 <= i < |levels| && n in levels[i]
  }

  /** An entry of a built map is the leveled list of its module's tree. */
  lemma BuiltEntry(reg: Registry, all: AllModules, x: string)
    requires Acyclic(reg) && BuiltFrom(reg, all) && x in all
    ensures TreeOf(reg, x).Ok?
    ensures all[x] == InvertDependencies(reg, x, TreeOf(reg, x).value)
  {
    assert ModuleLevels(reg, x) == Ok(all[x]);
  }

  /** A module is on some level of a leveled list exactly when it is
      reachable in the tree, and then it is on the level of its depth. */
  lemma InSomeLevelReachable(reg: Registry, m: string, n: string)
    requires Acyclic(reg) && TreeOf(reg, m).Ok?
    ensures var t := TreeOf(reg, m).value; var levels := InvertDependencies(reg, m, t);
      && (InSomeLevel(n, levels) <==> n in ReachableKeys(t))
      && (n in ReachableKeys(t) ==>
            ModuleDepth(reg, n).Ok? && ModuleDepth(reg, n).value < |levels| && n in levels[ModuleDepth(reg, n).value])
  {
  }

  /** On leveled lists built by `invert_dependencies`, checking the single
      level `len(all[n])` of m's list is the same as looking for n on every
      level, and the same as odoodoc.py's `in_deep` on m's tree. */
  lemma DependsOnMatchesReference(reg: Registry, all: AllModules, m: string, n: string)
    requires Acyclic(reg) && BuiltFrom(reg, all) && m in all && n in all
    ensures TreeOf(reg, m).Ok?
    ensures DependsOn(m, n, all) == Ok(InDeep(n, TreeOf(reg, m).value))
    ensures DependsOn(m, n, all) == Ok(InSomeLevel(n, all[m]))
  {
    BuiltEntry(reg, all, m);
    BuiltEntry(reg, all, n);
    var t := TreeOf(reg, m).value;
    InSomeLevelReachable(reg, m, n);
    assert InDeep(n, t) == (n in ReachableKeys(t));
    if m == n {
      NotOwnDependency(reg, m);
    } else if n in ReachableKeys(t) {
      LevelsLength(reg, n);
    }
  }

  /** `get_depending_modules`: the modules of the map that depend on
      `modName`. Looking up a `modName` that is not in a non-empty map is an
      error. */
  function GetDependingModules(modName: string, all: AllModules): (r: Result<set<string>>)
    ensures r.Err? <==> modName !in all && |all| > 0
    ensures r.Ok? ==> forall m :: m in r.value <==> m in all && DependsOn(m, modName, all) == Ok(true)
    ensures r.Ok? ==> modName !in r.value
  {
    if modName !in all && |all| > 0 then Err(KeyError(modName))
    else Ok(set m | m in all && DependsOn(m, modName, all) == Ok(true))
  }

  /** On leveled lists built by `invert_dependencies`, the depending modules
      are exactly those whose tree contains `modName`. */
  lemma GetDependingModulesReachable(reg: Registry, all: AllModules, modName: string)
    requires Acyclic(reg) && BuiltFrom(reg, all) && modName in all
    ensures forall m :: m in GetDependingModules(modName, all).value <==>
      m in all && TreeOf(reg, m).Ok? && modName in ReachableKeys(TreeOf(reg, m).value)
  {
    forall m | m in all
      ensures DependsOn(m, modName, all) == Ok(true) <==> modName in ReachableKeys(TreeOf(reg, m).value)
    {
      DependsOnMatchesReference(reg, all, m, modName);
    }
  }

  // ---------------------------------------------------------------------
  // Per-class index of fields or methods.
  // ---------------------------------------------------------------------

  /** Index keys: (field or method name, logical class name). */
  type EntityKey = (string, Value)

  /** The keys one record contributes: none when its class name is falsy. */
  function Contributes<V>(select: ClassRecord -> map<string, V>, c: ClassRecord, key: EntityKey): bool {
    ClassName(c).Some? && Truthy(ClassName(c).value) && key.1 == ClassName(c).value && key.0 in select(c)
  }

  /** The record has a truthy class name that Python cannot hash (a field
      declaration or a list or dictionary literal assigned to `_name` or
      `_inherit`) and at least one entity: building the key of its first
      entity raises `TypeError`. */
  predicate Unindexable<V>(select: ClassRecord -> map<string, V>, c: ClassRecord) {
    ClassName(c).Some? && Truthy(ClassName(c).value) && !Hashable(ClassName(c).value) && |select(c)| > 0
  }

  /** One iteration of the loop of `get_all_entities`: every entity of the
      record is stored under its module name, creating the inner map when
      needed and overwriting an earlier record of the same module. A class
      name that cannot be part of a key fails the iteration. */
  function AddRecord<V>(select: ClassRecord -> map<string, V>, acc: map<EntityKey, map<string, V>>, c: ClassRecord): (r: Result<map<EntityKey, map<string, V>>>)
    ensures r.Err? <==> Unindexable(select, c)
    ensures r.Err? ==> r.error == Unhashable(c.lineno)
    ensures r.Ok? ==> forall key :: key in r.value <==> key in acc || Contributes(select, c, key)
    ensures r.Ok? ==> forall key :: key in r.value && Contributes(select, c, key) ==>
              r.value[key] == (if key in acc then acc[key] else map[])[c.moduleName := select(c)[key.0]]
    ensures r.Ok? ==> forall key :: key in acc && !Contributes(select, c, key) ==> r.value[key] == acc[key]
  {
    var name := ClassName(c);
    if name.None? || !Truthy(name.value) then Ok(acc)
    else if !Hashable(name.value) && |select(c)| > 0 then Err(Unhashable(c.lineno))
    else
      var ents := select(c);
      var added := set f | f in ents :: (f, name.value);
      Ok(map key | key in acc.Keys + added ::
        if key.1 == name.value && key.0 in ents
        then (if key in acc then acc[key] else map[])[c.moduleName := ents[key.0]]
        else acc[key])
  }

  /** `get_all_entities`: the records folded in input order; the first
      record whose class name cannot be part of a key stops the loop. Every
      indexed entity lists at least one module. */
  function AllEntities<V>(select: ClassRecord -> map<string, V>, cs: seq<ClassRecord>): (r: Result<map<EntityKey, map<string, V>>>)
    ensures r.Ok? ==> forall key :: key in r.value ==> r.value[key] != map[]
  {
    if |cs| == 0 then Ok(map[])
    else
      var acc :- AllEntities(select, cs[..|cs| - 1]);
      var r := AddRecord(select, acc, cs[|cs| - 1]);
      assert r.Ok? ==> forall key :: key in r.value && Contributes(select, cs[|cs| - 1], key) ==>
        cs[|cs| - 1].moduleName in r.value[key];
      r
  }

  /** The index fails exactly when some record is unindexable, and then
      with the error of the first such record. */
  lemma {:induction false} AllEntitiesFails<V>(select: ClassRecord -> map<string, V>, cs: seq<ClassRecord>)
    ensures AllEntities(select, cs).Err? <==> exists i :: 0 <= i < |cs| && Unindexable(select, cs[i])
    ensures AllEntities(select, cs).Err? ==>
      exists i :: 0 <= i < |cs| && Unindexable(select, cs[i]) &&
        AllEntities(select, cs).error == Unhashable(cs[i].lineno) &&
        forall j :: 0 <= j < i ==> !Unindexable(select, cs[j])
  {
    if |cs| > 0 {
      var p := cs[..|cs| - 1];
      AllEntitiesFails(select, p);
      if exists i :: 0 <= i < |p| && Unindexable(select, p[i]) {
        var i :| 0 <= i < |p| && Unindexable(select, p[i]);
        assert cs[i] == p[i];
        var k :| 0 <= k < |p| && Unindexable(select, p[k]) &&
          AllEntities(select, p).error == Unhashable(p[k].lineno) &&
          forall j :: 0 <= j < k ==> !Unindexable(select, p[j]);
        assert cs[k] == p[k];
        forall j | 0 <= j < k
          ensures !Unindexable(select, cs[j])
        {
          assert cs[j] == p[j];
        }
      } else {
        forall j | 0 <= j < |p|
          ensures !Unindexable(select, cs[j])
        {
          assert cs[j] == p[j];
        }
      }
    }
  }

  /** Some record with a truthy class name declares the entity. */
  ghost predicate Declared<V>(select: ClassRecord -> map<string, V>, cs: seq<ClassRecord>, key: EntityKey) {
    exists i :: 0 <= i < |cs| && Contributes(select, cs[i], key)
  }

  lemma DeclaredAppend<V>(select: ClassRecord -> map<string, V>, cs: seq<ClassRecord>, key: EntityKey)
    requires |cs| > 0
    ensures Declared(select, cs, key) <==>
      Declared(select, cs[..|cs| - 1], key) || Contributes(select, cs[|cs| - 1], key)
  {
    var p := cs[..|cs| - 1];
    if Declared(select, p, key) {
      var i :| 0 <= i < |p| && Contributes(select, p[i], key);
      assert cs[i] == p[i];
    }
    if Declared(select, cs, key) {
      var i :| 0 <= i < |cs| && Contributes(select, cs[i], key);
      if i < |p| {
        assert cs[i] == p[i];
      }
    }
  }

  /** A key is indexed exactly when some record with a truthy class name
      declares the entity. */
  lemma {:induction false} AllEntitiesKeys<V>(select: ClassRecord -> map<string, V>, cs: seq<ClassRecord>, key: EntityKey)
    ensures AllEntities(select, cs).Ok? ==> (key in AllEntities(select, cs).value <==> Declared(select, cs, key))
  {
    if |cs| > 0 {
      var p := cs[..|cs| - 1];
      AllEntitiesKeys(select, p, key);
      DeclaredAppend(select, cs, key);
    }
  }

  /** One record adds its own module to the entries it contributes to. */
  lemma AddRecordModules<V>(select: ClassRecord -> map<string, V>, acc: map<EntityKey, map<string, V>>, c: ClassRecord, key: EntityKey, mod: string)
    requires AddRecord(select, acc, c).Ok? && key in AddRecord(select, acc, c).value
    ensures mod in AddRecord(select, acc, c).value[key] <==>
      (key in acc && mod in acc[key]) || (Contributes(select, c, key) && c.moduleName == mod)
  {
  }

  /** Some record of module `mod` contributes the key. */
  ghost predicate DeclaredIn<V>(select: ClassRecord -> map<string, V>, cs: seq<ClassRecord>, key: EntityKey, mod: string) {
    exists i :: 0 <= i < |cs| && Contributes(select, cs[i], key) && cs[i].moduleName == mod
  }

  lemma DeclaredInAppend<V>(select: ClassRecord -> map<string, V>, cs: seq<ClassRecord>, key: EntityKey, mod: string)
    requires |cs| > 0
    ensures DeclaredIn(select, cs, key, mod) <==>
      DeclaredIn(select, cs[..|cs| - 1], key, mod) ||
      (Contributes(select, cs[|cs| - 1], key) && cs[|cs| - 1].moduleName == mod)
  {
    var p := cs[..|cs| - 1];
    if DeclaredIn(select, p, key, mod) {
      var i :| 0 <= i < |p| && Contributes(select, p[i], key) && p[i].moduleName == mod;
      assert cs[i] == p[i];
    }
    if DeclaredIn(select, cs, key, mod) {
      var i :| 0 <= i < |cs| && Contributes(select, cs[i], key) && cs[i].moduleName == mod;
      if i < |p| {
        assert cs[i] == p[i];
      }
    }
  }

  /** The inner keys of an indexed entry are the modules of the records
      declaring it. */
  lemma {:induction false} AllEntitiesModules<V>(select: ClassRecord -> map<string, V>, cs: seq<ClassRecord>, key: EntityKey, mod: string)
    requires AllEntities(select, cs).Ok? && key in AllEntities(select, cs).value
    ensures mod in AllEntities(select, cs).value[key] <==> DeclaredIn(select, cs, key, mod)
  {
    var p := cs[..|cs| - 1];
    var c := cs[|cs| - 1];
    var acc := AllEntities(select, p).value;
    assert AllEntities(select, cs) == AddRecord(select, acc, c);
    AddRecordModules(select, acc, c, key, mod);
    DeclaredInAppend(select, cs, key, mod);
    AllEntitiesKeys(select, p, key);
    if key in acc {
      AllEntitiesModules(select, p, key, mod);
    } else {
      assert !DeclaredIn(select, p, key, mod);
    }
  }

  /** The last record of a module wins: the stored entity is the one of the
      last record, in input order, of that module and class declaring it. */
  lemma {:induction false} AllEntitiesLastWins<V>(select: ClassRecord -> map<string, V>, cs: seq<ClassRecord>, key: EntityKey, i: nat)
    requires i < |cs| && Contributes(select, cs[i], key)
    requires forall j :: i < j < |cs| && cs[j].moduleName == cs[i].moduleName ==> !Contributes(select, cs[j], key)
    ensures AllEntities(select, cs).Ok? ==>
      key in AllEntities(select, cs).value && cs[i].moduleName in AllEntities(select, cs).value[key] &&
      AllEntities(select, cs).value[key][cs[i].moduleName] == select(cs[i])[key.0]
  {
    var p := cs[..|cs| - 1];
    if i < |cs| - 1 {
      assert p[i] == cs[i];
      forall j | i < j < |p| && p[j].moduleName == p[i].moduleName
        ensures !Contributes(select, p[j], key)
      {
        assert p[j] == cs[j];
      }
      AllEntitiesLastWins(select, p, key, i);
    }
  }

  /** `get_functions`: the entries whose first key component is `name`,
      re-keyed by the second component. */
  function GetFunctions<V>(name: string, index: map<EntityKey, V>): (r: map<Value, V>)
    ensures forall n :: n in r <==> (name, n) in index
    ensures forall n :: n in r ==> r[n] == index[(name, n)]
  {
    map key | key in index.Keys && key.0 == name :: key.1 := index[key]
  }

  /** Looking a method or field up in the index yields, per logical class,
      the modules whose records of that class declare it. */
  lemma GetFunctionsOfIndex<V>(select: ClassRecord -> map<string, V>, cs: seq<ClassRecord>, entity: string, n: Value)
    ensures AllEntities(select, cs).Ok? ==>
      (n in GetFunctions(entity, AllEntities(select, cs).value) <==>
       exists i :: 0 <= i < |cs| && Contributes(select, cs[i], (entity, n)))
  {
    AllEntitiesKeys(select, cs, (entity, n));
  }

  function FunctionsOf(c: ClassRecord): map<string, FunctionInfo> {
    c.functions
  }

  function FieldsOf(c: ClassRecord): map<string, Value> {
    c.fields
  }

  /** `get_all_functions`: the method index of the records. */
  function AllFunctions(cs: seq<ClassRecord>): (r: Result<map<EntityKey, map<string, FunctionInfo>>>)
    ensures r.Err? <==> exists i :: 0 <= i < |cs| && Unindexable(FunctionsOf, cs[i])
    ensures r.Ok? ==> forall key :: key in r.value <==> exists i :: 0 <= i < |cs| && Contributes(FunctionsOf, cs[i], key)
  {
    AllEntitiesFails(FunctionsOf, cs);
    forall key
      ensures AllEntities(FunctionsOf, cs).Ok? ==>
        (key in AllEntities(FunctionsOf, cs).value <==> exists i :: 0 <= i < |cs| && Contributes(FunctionsOf, cs[i], key))
    {
      AllEntitiesKeys(FunctionsOf, cs, key);
    }
    AllEntities(FunctionsOf, cs)
  }

  /** `get_all_fields`: the field index of the records. */
  function AllFields(cs: seq<ClassRecord>): (r: Result<map<EntityKey, map<string, Value>>>)
    ensures r.Err? <==> exists i :: 0 <= i < |cs| && Unindexable(FieldsOf, cs[i])
    ensures r.Ok? ==> forall key :: key in r.value <==> exists i :: 0 <= i < |cs| && Contributes(FieldsOf, cs[i], key)
  {
    AllEntitiesFails(FieldsOf, cs);
    forall key
      ensures AllEntities(FieldsOf, cs).Ok? ==>
        (key in AllEntities(FieldsOf, cs).value <==> exists i :: 0 <= i < |cs| && Contributes(FieldsOf, cs[i], key))
    {
      AllEntitiesKeys(FieldsOf, cs, key);
    }
    AllEntities(FieldsOf, cs)
  }
}

=== FILE: records.dfy ===
/** The metadata extracted for one class declaration: where it is, the
    special attributes it assigns, its field declarations and its methods. */
module Records {
  import opened Ast

  /** One entry of `_constraints`: checking method, message, field names. */
  datatype Constraint = Constraint(check: string, message: string, fields: seq<string>)

  /** The value of a recognised assignment, one variant per value parser. */
  datatype Value =
    | StrValue(s: string)
    | BoolValue(b: bool)
    /** `parse_value_bool` of the constant `None`. */
    | NoneValue
    /** `parse_value_bool` of an attribute access yields the accessed object. */
    | NodeValue(node: Expr)
    | StrListValue(items: seq<string>)
    | StrMapValue(pairs: map<string, string>)
    | SqlValue(rows: seq<seq<string>>)
    | ConstraintsValue(constraints: seq<Constraint>)
    | FieldValue(fieldType: string, lineno: nat)

  /** Python truthiness of a parsed value. */
  predicate Truthy(v: Value) {
    match v
    case StrValue(s) => s != ""
    case BoolValue(b) => b
    case NoneValue => false
    case NodeValue(_) => true
    case StrListValue(items) => |items| > 0
    case StrMapValue(pairs) => |pairs| > 0
    case SqlValue(rows) => |rows| > 0
    case ConstraintsValue(cs) => |cs| > 0
    case FieldValue(_, _) => true
  }

  /** Python can hash the value, so it can be part of a dictionary key:
      strings, booleans, `None` and syntax nodes can, the lists and
      dictionaries the other parsers build cannot. */
  predicate Hashable(v: Value) {
    v.StrValue? || v.BoolValue? || v.NoneValue? || v.NodeValue?
  }

  datatype FunctionInfo = FunctionInfo(lineno: nat, args: seq<string>)

  /** The class dictionary: module, file and line of the declaration, the
      special attributes by attribute name, the fields by field name and the
      methods by method name. */
  datatype ClassRecord = ClassRecord(
    moduleName: string,
    file: string,
    lineno: nat,
    specials: map<string, Value>,
    fields: map<string, Value>,
    functions: map<string, FunctionInfo>)
}

=== FILE: registry.dfy ===
/** The dependency-tree builder of pigeoo/parser.py with the manifests given
    as a map from module name to manifest, instead of files found on disk.

    Module paths and names are identified: the path-to-name mapping and the
    search over root paths are not modelled, so resolving a dependency
    succeeds exactly when the map has a manifest for it. The program has no
    cycle guard; a rank map that strictly decreases along every declared
    dependency stands for the acyclicity the program relies on. */
module Registry {
  import opened Wrappers
  import opened Lists
  import opened DepTrees

  /** The designated base module, whose tree is empty. */
  const Base: string := "base"

  /** The part of a manifest the analytics read: its `depends` entry, which
      may be absent. */
  datatype Manifest = Manifest(depends: Option<seq<string>>)

  datatype Registry = Registry(manifests: map<string, Manifest>, rank: map<string, nat>)

  /** `manifest_dict.get('depends', ['base'])`. */
  function Depends(man: Manifest): (ds: seq<string>)
    ensures man.depends.None? ==> ds == [Base]
    ensures man.depends.Some? ==> ds == man.depends.value
  {
    man.depends.GetOr([Base])
  }

  /** Every non-base module with a manifest has a rank, and every declared
      dependency with a manifest, other than the base module, has a smaller
      one. */
  predicate Acyclic(reg: Registry) {
    forall m :: m in reg.manifests && m != Base ==>
      m in reg.rank &&
      forall d :: d in Depends(reg.manifests[m]) && d != Base && d in reg.manifests ==>
        d in reg.rank && reg.rank[d] < reg.rank[m]
  }

  function Rank(reg: Registry, m: string): nat {
    if m == Base then 0 else if m in reg.rank then reg.rank[m] + 1 else 1
  }

  /** The first dependency that has no manifest, in declaration order. */
  function FirstMissing(ds: seq<string>, manifests: map<string, Manifest>): (r: Option<string>)
    ensures r.None? <==> forall i :: 0 <= i < |ds| ==> ds[i] in manifests
    ensures r.Some? ==> r.value in ds && r.value !in manifests
  {
    if |ds| == 0 then None
    else if ds[0] !in manifests then Some(ds[0])
    else FirstMissing(ds[1..], manifests)
  }

  /** `module_dependencies_tree`: the empty tree for the base module, an error
      for a module without a manifest or with a dependency that has none,
      otherwise one entry per distinct dependency, in declaration order,
      holding that dependency's own tree. */
  function TreeOf(reg: Registry, m: string): (r: Result<DepTree>)
    requires Acyclic(reg)
    ensures m == Base ==> r == Ok(DepTree([]))
    ensures m != Base && m !in reg.manifests ==> r == Err(ModuleNotFound(m))
    ensures r.Err? ==> r.error.ModuleNotFound? && r.error.name !in reg.manifests
    decreases Rank(reg, m), 1
  {
    if m == Base then Ok(DepTree([]))
    else if m !in reg.manifests then Err(ModuleNotFound(m))
    else
      var deps := Depends(reg.manifests[m]);
      match FirstMissing(deps, reg.manifests)
      case Some(d) => Err(ModuleNotFound(d))
      case None =>
        var entries :- SubTrees(reg, m, Deduplicate(deps));
        Ok(DepTree(entries))
  }

  /** The trees of the listed dependencies of `m`, the first failure winning. */
  function SubTrees(reg: Registry, m: string, ds: seq<string>): (r: Result<seq<Entry>>)
    requires Acyclic(reg) && m in reg.manifests && m != Base
    requires forall i :: 0 <= i < |ds| ==> ds[i] in reg.manifests && ds[i] in Depends(reg.manifests[m])
    ensures r.Ok? ==> |r.value| == |ds|
    ensures r.Ok? ==> forall i :: 0 <= i < |ds| ==> r.value[i].name == ds[i] && TreeOf(reg, ds[i]) == Ok(r.value[i].sub)
    ensures r.Err? ==> r.error.ModuleNotFound? && r.error.name !in reg.manifests
    decreases Rank(reg, m), 0, |ds|
  {
    if |ds| == 0 then Ok([])
    else
      var t :- TreeOf(reg, ds[0]);
      var rest :- SubTrees(reg, m, ds[1..]);
      Ok([Entry(ds[0], t)] + rest)
  }

  /** The keys of a built tree are the distinct declared dependencies in
      declaration order, and each key holds that dependency's own tree. */
  lemma TreeEntries(reg: Registry, m: string)
    requires Acyclic(reg) && TreeOf(reg, m).Ok? && m != Base
    ensures m in reg.manifests
    ensures Keys(TreeOf(reg, m).value) == Deduplicate(Depends(reg.manifests[m]))
    ensures forall i :: 0 <= i < |TreeOf(reg, m).value.entries| ==>
              var e := TreeOf(reg, m).value.entries[i]; TreeOf(reg, e.name) == Ok(e.sub)
  {
  }

  /** Every entry at any depth of a built tree holds the tree of its key, so
      a built tree is consistent. */
  lemma {:induction false} TreeReachable(reg: Registry, m: string)
    requires Acyclic(reg) && TreeOf(reg, m).Ok?
    ensures forall e :: e in Reachable(TreeOf(reg, m).value) ==> TreeOf(reg, e.name) == Ok(e.sub)
    ensures Consistent(TreeOf(reg, m).value)
    decreases Rank(reg, m)
  {
    var t := TreeOf(reg, m).value;
    forall e | e in Reachable(t)
      ensures TreeOf(reg, e.name) == Ok(e.sub)
    {
      EntriesReachableCases(t.entries, e);
      var i :| 0 <= i < |t.entries| && (e == t.entries[i] || e in Reachable(t.entries[i].sub));
      TreeEntries(reg, m);
      var c := t.entries[i];
      if e != c {
        if c.name == Base {
          assert c.sub == DepTree([]);
        } else {
          assert c.name in Deduplicate(Depends(reg.manifests[m])) by {
            assert Keys(t)[i] == c.name;
          }
          TreeReachable(reg, c.name);
        }
      }
    }
  }

  /** Every declared dependency of every module has a manifest. */
  predicate Resolvable(reg: Registry) {
    forall m :: m in reg.manifests && m != Base ==>
      forall d :: d in Depends(reg.manifests[m]) ==> d in reg.manifests
  }

  /** Errors come only from missing manifests: when every dependency
      resolves, every module with a manifest gets its tree. */
  lemma {:induction false} ResolvableBuilds(reg: Registry, m: string)
    requires Acyclic(reg) && Resolvable(reg) && (m in reg.manifests || m == Base)
    ensures TreeOf(reg, m).Ok?
    decreases Rank(reg, m), 1
  {
    if m != Base {
      var deps := Depends(reg.manifests[m]);
      SubTreesBuild(reg, m, Deduplicate(deps));
    }
  }

  lemma {:induction false} SubTreesBuild(reg: Registry, m: string, ds: seq<string>)
    requires Acyclic(reg) && Resolvable(reg) && m in reg.manifests && m != Base
    requires forall i :: 0 <= i < |ds| ==> ds[i] in reg.manifests && ds[i] in Depends(reg.manifests[m])
    ensures SubTrees(reg, m, ds).Ok?
    decreases Rank(reg, m), 0, |ds|
  {
    if |ds| > 0 {
      ResolvableBuilds(reg, ds[0]);
      SubTreesBuild(reg, m, ds[1..]);
    }
  }

  /** `module_dependencies_depth`: 0 for the base module, otherwise the level
      sweep over the module's tree. */
  function ModuleDepth(reg: Registry, m: string): (r: Result<nat>)
    requires Acyclic(reg)
    ensures r.Ok? <==> TreeOf(reg, m).Ok?
    ensures r.Ok? ==> r.value == Height(TreeOf(reg, m).value)
    ensures r.Err? ==> r.error == TreeOf(reg, m).error
  {
    if m == Base then Ok(0)
    else
      var t :- TreeOf(reg, m);
      Ok(SweepDepth(t))
  }

  /** A dependency reachable from a module is strictly shallower than it. */
  lemma ReachableIsShallower(reg: Registry, m: string, e: Entry)
    requires Acyclic(reg) && TreeOf(reg, m).Ok? && e in Reachable(TreeOf(reg, m).value)
    ensures ModuleDepth(reg, e.name).Ok?
    ensures ModuleDepth(reg, e.name).value < ModuleDepth(reg, m).value
  {
    TreeReachable(reg, m);
    ReachableIsLower(TreeOf(reg, m).value, e);
  }

  /** No module occurs in its own dependency tree. */
  lemma NotOwnDependency(reg: Registry, m: string)
    requires Acyclic(reg) && TreeOf(reg, m).Ok?
    ensures m !in ReachableKeys(TreeOf(reg, m).value)
  {
    var t := TreeOf(reg, m).value;
    if m in ReachableKeys(t) {
      var e :| e in Reachable(t) && e.name == m;
      ReachableIsShallower(reg, m, e);
      assert false;
    }
  }
}

=== FILE: text.dfy ===
/** The string operations the path and link helpers use, with Python's
    semantics: `str.rstrip`, `os.path.split`, `os.path.join` with a relative
    second part, `str.join`, `str.split` and `str.replace`. */
module Text {

  /** `s.rstrip(c)`: `s` without its trailing run of `c`. */
  function StripTrailing(s: string, c: char): (r: string)
    ensures |r| <= |s| && r == s[..|r|]
    ensures r == [] || r[|r| - 1] != c
    ensures forall i :: |r| <= i < |s| ==> s[i] == c
  {
    if |s| == 0 || s[|s| - 1] != c then s else StripTrailing(s[..|s| - 1], c)
  }

  /** Where the last component of `s` starts: just after its last `/`. */
  function TailStart(s: string): (i: nat)
    ensures i <= |s| && '/' !in s[i..]
    ensures i > 0 ==> s[i - 1] == '/'
  {
    if |s| == 0 || s[|s| - 1] == '/' then |s|
    else
      var i := TailStart(s[..|s| - 1]);
      assert s[i..] == s[..|s| - 1][i..] + [s[|s| - 1]];
      i
  }

  /** `os.path.split(s)[1]`: the text after the last `/`. */
  function Tail(s: string): (r: string)
    ensures '/' !in r
  {
    s[TailStart(s)..]
  }

  /** `os.path.join(a, b)` for a relative `b`: a separator is inserted
      unless `a` is empty or already ends with one. */
  function JoinPath(a: string, b: string): (r: string)
    ensures |r| == |a| + |b| || (|r| == |a| + |b| + 1 && r[|a|] == '/')
    ensures r[..|a|] == a && r[|r| - |b|..] == b
    ensures a != [] ==> r[|r| - |b| - 1] == '/'
  {
    if a == [] || a[|a| - 1] == '/' then a + b else a + "/" + b
  }

  /** `sep.join(parts)`. */
  function JoinWith(sep: char, parts: seq<string>): string {
    if |parts| == 0 then []
    else if |parts| == 1 then parts[0]
    else parts[0] + [sep] + JoinWith(sep, parts[1..])
  }

  /** `s.split(sep)`: the pieces between separators; always at least one. */
  function Split(s: string, sep: char): (r: seq<string>)
    ensures |r| > 0
    ensures forall i :: 0 <= i < |r| ==> sep !in r[i]
  {
    if sep !in s then [s]
    else
      var i := FirstIndex(s, sep);
      [s[..i]] + Split(s[i + 1..], sep)
  }

  function FirstIndex(s: string, c: char): (i: nat)
    requires c in s
    ensures i < |s| && s[i] == c && c !in s[..i]
  {
    if s[0] == c then 0 else 1 + FirstIndex(s[1..], c)
  }

  /** The first occurrence is the one with none before it. */
  lemma {:induction false} FirstIndexAt(s: string, c: char, k: nat)
    requires k < |s| && s[k] == c && c !in s[..k]
    ensures FirstIndex(s, c) == k
  {
    if k > 0 {
      assert s[0] == s[..k][0];
      assert s[1..][..k - 1] == s[1..k];
      assert forall x :: x in s[1..k] ==> x in s[..k];
      FirstIndexAt(s[1..], c, k - 1);
    }
  }

  /** The first separator cuts off the first piece. */
  lemma SplitAt(s: string, sep: char, i: nat)
    requires i < |s| && s[i] == sep && sep !in s[..i]
    ensures Split(s, sep) == [s[..i]] + Split(s[i + 1..], sep)
  {
    FirstIndexAt(s, sep, i);
  }

  /** Splitting at a separator splits each side. */
  lemma SplitAround(a: string, b: string, sep: char)
    requires sep !in a
    ensures Split(a + [sep] + b, sep) == [a] + Split(b, sep)
  {
    var s := a + [sep] + b;
    assert s[..|a|] == a;
    assert s[|a| + 1..] == b;
    SplitAt(s, sep, |a|);
  }

  /** The first piece of `a` is also the first piece of `a + [sep] + b`. */
  lemma SplitConcatStep(a: string, b: string, sep: char)
    requires sep in a
    ensures var i := FirstIndex(a, sep);
      Split(a + [sep] + b, sep) == [a[..i]] + Split(a[i + 1..] + [sep] + b, sep)
  {
    var i := FirstIndex(a, sep);
    var s := a + [sep] + b;
    assert s[..i] == a[..i];
    assert s[i + 1..] == a[i + 1..] + [sep] + b;
    SplitAt(s, sep, i);
  }

  /** Splitting at any separator splits both sides. */
  lemma {:induction false} SplitConcat(a: string, b: string, sep: char)
    ensures Split(a + [sep] + b, sep) == Split(a, sep) + Split(b, sep)
    decreases |a|, 1
  {
    if sep !in a {
      SplitAround(a, b, sep);
    } else {
      SplitConcatCut(a, b, sep);
    }
  }

  /** The inductive step: cut the first piece off `a`, split the rest. */
  lemma {:induction false} SplitConcatCut(a: string, b: string, sep: char)
    requires sep in a
    ensures Split(a + [sep] + b, sep) == Split(a, sep) + Split(b, sep)
    decreases |a|, 0
  {
    var i := FirstIndex(a, sep);
    var front, back := a[..i], a[i + 1..];
    SplitAt(a, sep, i);
    SplitConcatStep(a, b, sep);
    SplitConcat(back, b, sep);
    ConsAssoc(front, Split(back, sep), Split(b, sep));
  }

  lemma ConsAssoc<T>(x: T, p: seq<T>, q: seq<T>)
    ensures [x] + (p + q) == [x] + p + q
  {
  }

  /** Splitting a join gives back the parts when no part holds the
      separator. */
  lemma {:induction false} SplitJoin(parts: seq<string>, sep: char)
    requires |parts| > 0 && forall i :: 0 <= i < |parts| ==> sep !in parts[i]
    ensures Split(JoinWith(sep, parts), sep) == parts
  {
    if |parts| > 1 {
      SplitJoin(parts[1..], sep);
      SplitAround(parts[0], JoinWith(sep, parts[1..]), sep);
    }
  }

  /** `s.replace(pat, rep)`: non-overlapping occurrences of `pat`, found
      from the left, each replaced by `rep`. */
  function Replace(s: string, pat: string, rep: string): string
    requires |pat| > 0
  {
    if |s| < |pat| then s
    else if s[..|pat|] == pat then rep + Replace(s[|pat|..], pat, rep)
    else [s[0]] + Replace(s[1..], pat, rep)
  }

  /** `pat` occurs in `s` at position i. */
  predicate OccursAt(pat: string, s: string, i: int) {
    0 <= i && i + |pat| <= |s| && s[i..i + |pat|] == pat
  }

  ghost predicate Occurs(pat: string, s: string) {
    exists i :: OccursAt(pat, s, i)
  }

  /** A string without the pattern is left as it is. */
  lemma {:induction false} ReplaceAbsent(s: string, pat: string, rep: string)
    requires |pat| > 0 && !Occurs(pat, s)
    ensures Replace(s, pat, rep) == s
  {
    if |s| >= |pat| {
      assert !OccursAt(pat, s, 0);
      assert s[0..|pat|] == s[..|pat|];
      assert !Occurs(pat, s[1..]) by {
        forall i
          ensures !OccursAt(pat, s[1..], i)
        {
          assert !OccursAt(pat, s, i + 1);
          if 0 <= i && i + |pat| <= |s| - 1 {
            assert s[1..][i..i + |pat|] == s[i + 1..i + 1 + |pat|];
          }
        }
      }
      ReplaceAbsent(s[1..], pat, rep);
      assert [s[0]] + s[1..] == s;
    }
  }

  /** The pattern at the front is replaced, and the rest is scanned on. */
  lemma ReplaceFront(s: string, pat: string, rep: string)
    requires |pat| > 0
    ensures Replace(pat + s, pat, rep) == rep + Replace(s, pat, rep)
  {
    assert (pat + s)[..|pat|] == pat && (pat + s)[|pat|..] == s;
  }

  /** A character that does not start the pattern is kept. */
  lemma ReplaceSkip(s: string, pat: string, rep: string)
    requires 0 < |pat| <= |s| && s[..|pat|] != pat
    ensures Replace(s, pat, rep) == [s[0]] + Replace(s[1..], pat, rep)
  {
  }

  /** `s[:-n]` for a positive n: all but the last n characters, or
      nothing. (`s[:-0]` is empty, so n = 0 is not this operation.) */
  function DropLast(s: string, n: nat): (r: string)
    requires n > 0
    ensures |s| <= n ==> r == []
    ensures |s| > n ==> |r| == |s| - n && r == s[..|r|]
  {
    if |s| <= n then [] else s[..|s| - n]
  }

  /** What splitting the join of `xs` gives back: `xs` itself, or one
      empty piece when `xs` is empty (`"".split(sep) == [""]`). */
  function Pieces(xs: seq<string>): (r: seq<string>)
    ensures |r| > 0
    ensures |xs| > 0 ==> r == xs
  {
    if |xs| == 0 then [""] else xs
  }

  /** `sep.join(xs).split(sep)` for parts free of the separator, the empty
      list included. */
  lemma SplitJoinPieces(xs: seq<string>, sep: char)
    requires forall i :: 0 <= i < |xs| ==> sep !in xs[i]
    ensures Split(JoinWith(sep, xs), sep) == Pieces(xs)
  {
    if |xs| > 0 {
      SplitJoin(xs, sep);
    }
  }

  /** A join of a word and two joins splits into the word and both lists. */
  lemma SplitJoinNested(first: string, xs: seq<string>, ys: seq<string>, sep: char)
    requires sep !in first
    requires forall i :: 0 <= i < |xs| ==> sep !in xs[i]
    requires forall i :: 0 <= i < |ys| ==> sep !in ys[i]
    ensures Split(JoinWith(sep, [first, JoinWith(sep, xs), JoinWith(sep, ys)]), sep) == [first] + Pieces(xs) + Pieces(ys)
  {
    var v := JoinWith(sep, xs);
    var s := JoinWith(sep, ys);
    var parts := [first, v, s];
    assert JoinWith(sep, parts) == first + [sep] + (v + [sep] + s) by {
      assert parts[1..] == [v, s] && [v, s][1..] == [s];
      assert JoinWith(sep, [s]) == s;
      assert JoinWith(sep, [v, s]) == v + [sep] + s;
    }
    assert Split(v + [sep] + s, sep) == Pieces(xs) + Pieces(ys) by {
      SplitJoinPieces(xs, sep);
      SplitJoinPieces(ys, sep);
      SplitConcat(v, s, sep);
    }
    SplitAround(first, v + [sep] + s, sep);
  }
}

=== FILE: trees.dfy ===
/** Dependency trees and the read-only views computed from them.

    A dependency tree is the program's nested dictionary "module name ->
    tree of that module's dependencies", kept here as the ordered list of its
    (name, subtree) entries. The module holds both generations of the
    analytics: the plain recursive depth, flatten and membership test of
    odoodoc.py, which serve as reference definitions, and the level sweep and
    visited-set flatten of pigeoo/parser.py, which are proved to agree with
    them. */
module DepTrees {
  import opened Lists

  datatype DepTree = DepTree(entries: seq<Entry>)
  datatype Entry = Entry(name: string, sub: DepTree)

  predicate IsEmpty(t: DepTree) {
    |t.entries| == 0
  }

  /** The dictionary's keys, in order. */
  function Keys(t: DepTree): (ks: seq<string>)
    ensures |ks| == |t.entries|
    ensures forall i :: 0 <= i < |ks| ==> ks[i] == t.entries[i].name
  {
    seq(|t.entries|, i requires 0 <= i < |t.entries| => t.entries[i].name)
  }

  /** The dictionary's values, in order. */
  function Values(t: DepTree): (vs: seq<DepTree>)
    ensures |vs| == |t.entries|
    ensures forall i :: 0 <= i < |vs| ==> vs[i] == t.entries[i].sub
  {
    seq(|t.entries|, i requires 0 <= i < |t.entries| => t.entries[i].sub)
  }

  function Max(a: int, b: int): int {
    if a < b then b else a
  }

  // ---------------------------------------------------------------------
  // Height: the length of the longest chain down to a leaf.
  // ---------------------------------------------------------------------

  /** Length of the longest chain of nested entries; 0 for the empty tree. */
  function Height(t: DepTree): (h: nat)
    ensures h == 0 <==> IsEmpty(t)
    decreases t, 1
  {
    EntriesHeight(t.entries)
  }

  function EntriesHeight(es: seq<Entry>): (h: nat)
    ensures h == 0 <==> |es| == 0
    decreases es, 0
  {
    if |es| == 0 then 0 else Max(1 + Height(es[0].sub), EntriesHeight(es[1..]))
  }

  /** A child is strictly lower than its parent. */
  lemma {:induction false} ChildIsLower(es: seq<Entry>, i: nat)
    requires i < |es|
    ensures Height(es[i].sub) < EntriesHeight(es)
  {
    if i > 0 {
      ChildIsLower(es[1..], i - 1);
    }
  }

  /** The index of a child of greatest height. */
  function Tallest(es: seq<Entry>): (i: nat)
    requires |es| > 0
    ensures i < |es| && EntriesHeight(es) == 1 + Height(es[i].sub)
  {
    if |es| == 1 || 1 + Height(es[0].sub) >= EntriesHeight(es[1..]) then 0
    else 1 + Tallest(es[1..])
  }

  /** `dict_depth` of odoodoc.py: the accumulator for an empty tree,
      otherwise the largest depth of a child taken one level deeper. The
      result is the accumulator plus the height. */
  function RecursiveDepth(t: DepTree, depth: int): (r: int)
    ensures r == depth + Height(t)
    decreases t, 1
  {
    if IsEmpty(t) then depth else EntriesRecursiveDepth(t.entries, depth)
  }

  /** `max(dict_depth(v, depth + 1) for v in values)` over a non-empty list. */
  function EntriesRecursiveDepth(es: seq<Entry>, depth: int): (r: int)
    requires |es| > 0
    ensures r == depth + EntriesHeight(es)
    decreases es, 0
  {
    var first := RecursiveDepth(es[0].sub, depth + 1);
    if |es| == 1 then first else Max(first, EntriesRecursiveDepth(es[1..], depth))
  }

  // ---------------------------------------------------------------------
  // The level sweep of pigeoo/parser.py.
  // ---------------------------------------------------------------------

  /** Largest `1 + Height` over a list of trees; 0 for the empty list. */
  function LevelHeight(level: seq<DepTree>): (h: nat)
    ensures h == 0 <==> |level| == 0
  {
    if |level| == 0 then 0 else Max(1 + Height(level[0]), LevelHeight(level[1..]))
  }

  lemma {:induction false} LevelMemberBound(level: seq<DepTree>, i: nat)
    requires i < |level|
    ensures 1 + Height(level[i]) <= LevelHeight(level)
  {
    if i > 0 {
      LevelMemberBound(level[1..], i - 1);
    }
  }

  /** The index of a tree of greatest height in a level. */
  function TallestInLevel(level: seq<DepTree>): (i: nat)
    requires |level| > 0
    ensures i < |level| && LevelHeight(level) == 1 + Height(level[i])
  {
    if |level| == 1 || 1 + Height(level[0]) >= LevelHeight(level[1..]) then 0
    else 1 + TallestInLevel(level[1..])
  }

  /** All values of all trees of a level, in order, repeats included. */
  function Children(level: seq<DepTree>): seq<DepTree> {
    if |level| == 0 then [] else Values(level[0]) + Children(level[1..])
  }

  lemma {:induction false} ChildInChildren(level: seq<DepTree>, p: nat, m: nat)
    requires p < |level| && m < |level[p].entries|
    ensures level[p].entries[m].sub in Children(level)
  {
    if p > 0 {
      ChildInChildren(level[1..], p - 1, m);
    } else {
      assert Values(level[0])[m] == level[p].entries[m].sub;
    }
  }

  /** Where a member of `Children(level)` comes from. */
  lemma {:induction false} ChildrenOrigin(level: seq<DepTree>, j: nat) returns (p: nat, m: nat)
    requires j < |Children(level)|
    ensures p < |level| && m < |level[p].entries|
    ensures Children(level)[j] == level[p].entries[m].sub
  {
    var vs := Values(level[0]);
    if j < |vs| {
      p, m := 0, j;
    } else {
      p, m := ChildrenOrigin(level[1..], j - |vs|);
      p := p + 1;
    }
  }

  /** The next level of the sweep: every value of every non-empty tree of
      the level, appended only when not already present. */
  function NextLevel(level: seq<DepTree>): seq<DepTree> {
    Deduplicate(Children(level))
  }

  lemma LevelHeightSubset(a: seq<DepTree>, b: seq<DepTree>)
    requires forall t :: t in a ==> t in b
    ensures LevelHeight(a) <= LevelHeight(b)
  {
    if |a| > 0 {
      var i := TallestInLevel(a);
      assert a[i] in b;
      LevelMemberBound(b, IndexOf(b, a[i]));
    }
  }

  /** Two lists with the same elements have the same level height, so the
      de-duplication of the sweep never changes its result. */
  lemma LevelHeightBySet(a: seq<DepTree>, b: seq<DepTree>)
    requires forall t :: t in a ==> t in b
    requires forall t :: t in b ==> t in a
    ensures LevelHeight(a) == LevelHeight(b)
  {
    LevelHeightSubset(a, b);
    LevelHeightSubset(b, a);
  }

  lemma DeduplicationKeepsLevelHeight(level: seq<DepTree>)
    ensures LevelHeight(Deduplicate(level)) == LevelHeight(level)
  {
    LevelHeightBySet(Deduplicate(level), level);
  }

  /** Each sweep step removes exactly one unit of height. */
  lemma NextLevelHeight(level: seq<DepTree>)
    requires |level| > 0
    ensures LevelHeight(NextLevel(level)) + 1 == LevelHeight(level)
  {
    var cs := Children(level);
    DeduplicationKeepsLevelHeight(cs);
    var i := TallestInLevel(level);
    if |cs| > 0 {
      var j := TallestInLevel(cs);
      var p, m := ChildrenOrigin(level, j);
      ChildIsLower(level[p].entries, m);
      LevelMemberBound(level, p);
    }
    if !IsEmpty(level[i]) {
      var es := level[i].entries;
      var k := Tallest(es);
      ChildInChildren(level, i, k);
      LevelMemberBound(cs, IndexOf(cs, es[k].sub));
    }
  }

  /** The `while level:` loop of `dict_depth`: one more unit of depth per
      non-empty level, so the loop adds exactly the level's height. */
  function Sweep(level: seq<DepTree>, depth: nat): (r: nat)
    ensures r == depth + LevelHeight(level)
    decreases LevelHeight(level)
  {
    if |level| == 0 then depth
    else
      NextLevelHeight(level);
      Sweep(NextLevel(level), depth + 1)
  }

  /** `dict_depth` of pigeoo/parser.py: 0 for the empty tree, otherwise the
      sweep started from the tree's values. It computes the same value as
      the recursive reference: the height of the tree. */
  function SweepDepth(t: DepTree): (r: nat)
    ensures r == Height(t)
    ensures r == RecursiveDepth(t, 0)
  {
    if IsEmpty(t) then 0
    else
      ValuesLevelHeight(t);
      Sweep(Values(t), 0)
  }

  lemma ValuesLevelHeight(t: DepTree)
    ensures LevelHeight(Values(t)) == Height(t)
  {
    var vs := Values(t);
    if !IsEmpty(t) {
      var i := TallestInLevel(vs);
      ChildIsLower(t.entries, i);
      LevelMemberBound(vs, Tallest(t.entries));
    }
  }

  // ---------------------------------------------------------------------
  // Reachable entries and keys.
  // ---------------------------------------------------------------------

  /** Every entry at any nesting depth. */
  ghost function Reachable(t: DepTree): set<Entry>
    decreases t, 1
  {
    EntriesReachable(t.entries)
  }

  ghost function EntriesReachable(es: seq<Entry>): set<Entry>
    decreases es, 0
  {
    if |es| == 0 then {} else {es[0]} + Reachable(es[0].sub) + EntriesReachable(es[1..])
  }

  ghost function Names(es: set<Entry>): set<string> {
    set e | e in es :: e.name
  }

  /** Every key at any nesting depth. */
  ghost function ReachableKeys(t: DepTree): set<string> {
    Names(Reachable(t))
  }

  lemma {:induction false} EntriesReachableMember(es: seq<Entry>, i: nat)
    requires i < |es|
    ensures es[i] in EntriesReachable(es)
    ensures Reachable(es[i].sub) <= EntriesReachable(es)
  {
    if i > 0 {
      EntriesReachableMember(es[1..], i - 1);
    }
  }

  /** An entry reachable from a tree is either a top-level entry or
      reachable from a top-level entry's subtree. */
  lemma {:induction false} EntriesReachableCases(es: seq<Entry>, e: Entry)
    requires e in EntriesReachable(es)
    ensures exists i :: 0 <= i < |es| && (e == es[i] || e in Reachable(es[i].sub))
  {
    if e != es[0] && e !in Reachable(es[0].sub) {
      EntriesReachableCases(es[1..], e);
      var i :| 0 <= i < |es[1..]| && (e == es[1..][i] || e in Reachable(es[1..][i].sub));
      assert es[i + 1] == es[1..][i];
    }
  }

  /** A subtree reachable from `t` is strictly lower than `t`. */
  lemma {:induction false} ReachableIsLower(t: DepTree, e: Entry)
    requires e in Reachable(t)
    ensures Height(e.sub) < Height(t)
    decreases t
  {
    EntriesReachableCases(t.entries, e);
    var i :| 0 <= i < |t.entries| && (e == t.entries[i] || e in Reachable(t.entries[i].sub));
    ChildIsLower(t.entries, i);
    if e != t.entries[i] {
      ReachableIsLower(t.entries[i].sub, e);
    }
  }

  /** The reachable entries of a subtree are reachable from the tree. */
  lemma ReachableOfReachable(t: DepTree, e: Entry)
    requires e in Reachable(t)
    ensures Reachable(e.sub) <= Reachable(t)
    decreases t
  {
    EntriesReachableCases(t.entries, e);
    var i :| 0 <= i < |t.entries| && (e == t.entries[i] || e in Reachable(t.entries[i].sub));
    EntriesReachableMember(t.entries, i);
    if e != t.entries[i] {
      ReachableOfReachable(t.entries[i].sub, e);
    }
  }

  /** Every occurrence of a key carries the same subtree, as in a tree built
      from one manifest per module. */
  ghost predicate Consistent(t: DepTree) {
    forall e1, e2 :: e1 in Reachable(t) && e2 in Reachable(t) && e1.name == e2.name ==> e1.sub == e2.sub
  }

  /** In a consistent tree no key occurs inside its own subtree. */
  lemma NotInOwnSubtree(root: DepTree, e: Entry)
    requires Consistent(root) && e in Reachable(root)
    ensures e.name !in ReachableKeys(e.sub)
  {
    if e.name in ReachableKeys(e.sub) {
      var e' :| e' in Reachable(e.sub) && e'.name == e.name;
      ReachableOfReachable(root, e);
      ReachableIsLower(e.sub, e');
      assert false;
    }
  }

  // ---------------------------------------------------------------------
  // Flatten and membership.
  // ---------------------------------------------------------------------

  /** `dict_flatten` of odoodoc.py: adds every key, then recurses into its
      subtree, with no visited check. */
  function DictFlattenAll(t: DepTree, keys: set<string>): (r: set<string>)
    ensures r == keys + ReachableKeys(t)
    decreases t, 1
  {
    EntriesFlattenAll(t.entries, keys)
  }

  function EntriesFlattenAll(es: seq<Entry>, keys: set<string>): (r: set<string>)
    ensures r == keys + Names(EntriesReachable(es))
    decreases es, 0
  {
    if |es| == 0 then keys
    else EntriesFlattenAll(es[1..], DictFlattenAll(es[0].sub, keys + {es[0].name}))
  }

  /** `dict_flatten` of pigeoo/parser.py: a key already in the visited set
      is skipped together with its whole subtree. */
  function DictFlatten(t: DepTree, keys: set<string>): (r: set<string>)
    ensures keys <= r <= keys + ReachableKeys(t)
    decreases t, 1
  {
    EntriesFlatten(t.entries, keys)
  }

  function EntriesFlatten(es: seq<Entry>, keys: set<string>): (r: set<string>)
    ensures keys <= r <= keys + Names(EntriesReachable(es))
    decreases es, 0
  {
    if |es| == 0 then keys
    else
      var e := es[0];
      var seen := if e.name in keys then keys else DictFlatten(e.sub, keys + {e.name});
      EntriesFlatten(es[1..], seen)
  }

  /** Every key in the visited set that is not still being expanded has its
      whole subtree in the set as well. */
  ghost predicate Closed(root: DepTree, keys: set<string>, expanding: set<string>) {
    forall e :: e in Reachable(root) && e.name in keys && e.name !in expanding ==> ReachableKeys(e.sub) <= keys
  }

  lemma {:induction false} EntriesFlattenComplete(root: DepTree, es: seq<Entry>, keys: set<string>, expanding: set<string>)
    requires Consistent(root)
    requires EntriesReachable(es) <= Reachable(root)
    requires Closed(root, keys, expanding)
    requires expanding !! Names(EntriesReachable(es))
    ensures EntriesFlatten(es, keys) == keys + Names(EntriesReachable(es))
    ensures Closed(root, EntriesFlatten(es, keys), expanding)
    decreases es, 0
  {
    if |es| > 0 {
      var e := es[0];
      EntriesReachableMember(es, 0);
      assert e in Reachable(root);
      var seen := if e.name in keys then keys else DictFlatten(e.sub, keys + {e.name});
      if e.name in keys {
        assert ReachableKeys(e.sub) <= keys;
      } else {
        NotInOwnSubtree(root, e);
        DictFlattenComplete(root, e.sub, keys + {e.name}, expanding + {e.name});
        forall e' | e' in Reachable(root) && e'.name in seen && e'.name !in expanding
          ensures ReachableKeys(e'.sub) <= seen
        {
          if e'.name == e.name {
            assert e'.sub == e.sub;
          }
        }
      }
      assert seen == keys + {e.name} + ReachableKeys(e.sub);
      EntriesFlattenComplete(root, es[1..], seen, expanding);
    }
  }

  lemma {:induction false} DictFlattenComplete(root: DepTree, t: DepTree, keys: set<string>, expanding: set<string>)
    requires Consistent(root)
    requires Reachable(t) <= Reachable(root)
    requires Closed(root, keys, expanding)
    requires expanding !! ReachableKeys(t)
    ensures DictFlatten(t, keys) == keys + ReachableKeys(t)
    ensures Closed(root, DictFlatten(t, keys), expanding)
    decreases t, 1
  {
    EntriesFlattenComplete(root, t.entries, keys, expanding);
  }

  /** On a consistent tree the visited-set flatten loses nothing: it returns
      every key at any depth, exactly as the unguarded reference does. */
  lemma FlattenIsReachableKeys(t: DepTree)
    requires Consistent(t)
    ensures DictFlatten(t, {}) == ReachableKeys(t)
    ensures DictFlatten(t, {}) == DictFlattenAll(t, {})
  {
    DictFlattenComplete(t, t, {}, {});
  }

  /** `in_deep` of odoodoc.py: a top-level key, or present in some subtree. */
  function InDeep(name: string, t: DepTree): (r: bool)
    ensures r <==> name in ReachableKeys(t)
    decreases t, 1
  {
    if name in Keys(t) then
      assert t.entries[IndexOf(Keys(t), name)] in Reachable(t) by {
        EntriesReachableMember(t.entries, IndexOf(Keys(t), name));
      }
      true
    else EntriesInDeep(name, t.entries)
  }

  /** `any(in_deep(name, sub) for sub in values)`. */
  function EntriesInDeep(name: string, es: seq<Entry>): (r: bool)
    requires forall i :: 0 <= i < |es| ==> es[i].name != name
    ensures r <==> name in Names(EntriesReachable(es))
    decreases es, 0
  {
    if |es| == 0 then false
    else InDeep(name, es[0].sub) || EntriesInDeep(name, es[1..])
  }
}

=== FILE: wrappers.dfy ===
/** Failure-carrying values shared by the whole model: an optional value, a
    result that is either a value or an error, and the errors the analysed
    program raises (an exception in the program is an `Err` here). */
module Wrappers {

  datatype Option<+T> = None | Some(value: T) {
    function GetOr(default: T): T {
      match this
      case Some(v) => v
      case None => default
    }
  }

  datatype Result<+T> = Ok(value: T) | Err(error: Error) {
    predicate IsFailure() {
      Err?
    }

    function PropagateFailure<U>(): Result<U>
      requires Err?
    {
      Err(error)
    }

    function Extract(): T
      requires Ok?
    {
      value
    }
  }

  /** The exceptions of the program that the model keeps. */
  datatype Error =
    /** `module_path_from_name` found no manifest for the module. */
    | ModuleNotFound(name: string)
    /** A dictionary lookup failed on a key that is absent. */
    | KeyError(key: string)
    /** A lookup failed on one of several absent keys; which one is reached
        first depends on set or dictionary iteration order. */
    | KeyErrorAmong(keys: set<string>)
    /** One of several modules could not be found; which one is reached
        first depends on set iteration order. */
    | ModuleNotFoundAmong(names: set<string>)
    /** An assignment or literal has a shape the value parsers do not read
        (an `AttributeError`, `IndexError` or `TypeError` in the program). */
    | ShapeError(lineno: nat)
    /** No entry of the ordered parser table accepts the assignment
        (`StopIteration` from `next`). */
    | NoParser(lineno: nat)
    /** The single-target assertion of the older extractor failed. */
    | AssertionFailed(lineno: nat)
    /** A dictionary key holds a list or dictionary (`TypeError: unhashable
        type`); the line is that of the class record whose name it is. */
    | Unhashable(lineno: nat)

  /** Applies `f` to every element in order; the first failure is the
      result (a list comprehension whose element expression may raise). */
  function MapResult<A, B>(f: A -> Result<B>, xs: seq<A>): (r: Result<seq<B>>)
    ensures r.Ok? <==> forall i :: 0 <= i < |xs| ==> f(xs[i]).Ok?
    ensures r.Ok? ==> |r.value| == |xs| && forall i :: 0 <= i < |xs| ==> r.value[i] == f(xs[i]).value
    ensures r.Err? ==> exists i :: 0 <= i < |xs| && f(xs[i]) == Err(r.error) && forall j :: 0 <= j < i ==> f(xs[j]).Ok?
  {
    if |xs| == 0 then Ok([])
    else
      var head :- f(xs[0]);
      var rest :- MapResult(f, xs[1..]);
      Ok([head] + rest)
  }

  lemma MapResultAppend<A, B>(f: A -> Result<B>, xs: seq<A>, ys: seq<A>)
    requires MapResult(f, xs).Ok?
    ensures MapResult(f, xs + ys).Ok? <==> MapResult(f, ys).Ok?
    ensures MapResult(f, xs + ys).Ok? ==> MapResult(f, xs + ys).value == MapResult(f, xs).value + MapResult(f, ys).value
  {
    var zs := xs + ys;
    if MapResult(f, ys).Ok? {
      assert MapResult(f, zs).Ok? by {
        forall i | 0 <= i < |zs|
          ensures f(zs[i]).Ok?
        {
          if i >= |xs| {
            assert zs[i] == ys[i - |xs|];
          }
        }
      }
      var v := MapResult(f, xs).value + MapResult(f, ys).value;
      assert MapResult(f, zs).value == v by {
        forall i | 0 <= i < |zs|
          ensures MapResult(f, zs).value[i] == v[i]
        {
          if i >= |xs| {
            assert zs[i] == ys[i - |xs|];
          }
        }
      }
    } else {
      assert !MapResult(f, zs).Ok? by {
        var j :| 0 <= j < |ys| && !f(ys[j]).Ok?;
        assert zs[|xs| + j] == ys[j];
      }
    }
  }

  /** Two functions that agree on every element map alike. */
  lemma {:induction false} MapResultCongruent<A, B>(f: A -> Result<B>, g: A -> Result<B>, xs: seq<A>)
    requires forall i :: 0 <= i < |xs| ==> f(xs[i]) == g(xs[i])
    ensures MapResult(f, xs) == MapResult(g, xs)
  {
    if |xs| > 0 {
      assert forall i :: 0 <= i < |xs[1..]| ==> xs[1..][i] == xs[i + 1];
      MapResultCongruent(f, g, xs[1..]);
    }
  }

  lemma MapResultSingleton<A, B>(f: A -> Result<B>, x: A)
    ensures MapResult(f, [x]) == if f(x).Ok? then Ok([f(x).value]) else Err(f(x).error)
  {
    assert [x][0] == x && [x][1..] == [];
    assert MapResult(f, []) == Ok([]);
    if f(x).Ok? {
      assert MapResult(f, [x]) == Ok([f(x).value] + []);
      assert [f(x).value] + [] == [f(x).value];
    } else {
      assert MapResult(f, [x]) == f([x][0]).PropagateFailure();
    }
  }
}
